=== FILE: README.md ===
# Tabs, keep-alive, navigation and form engine of a Vue admin template

This project is a Dafny model of the core of a Vue 3 admin dashboard template. It covers:

- **Two tab stores.** `src/stores/tabs.ts` is the application store: tab ids
  are built from the route name, params and query, and the CRM dashboard,
  login and register tabs cannot be closed. `src/@core/stores/tabs.ts` is the
  core store: tab ids are full paths, tabs can be pinned, the oldest closable
  tab is evicted over a ceiling, and activating or closing a tab asks the
  router to move.
- **The keep-alive cache tracker** (`useTabsKeepAlive`). It keeps the set of
  tab ids whose components are cached in step with the open tabs.
- **The navigation bridge.** `useTabs` connects tab actions to router pushes,
  the tabs middleware decides which routes become tabs, and the router guard
  covers same-location aborts, ability checks, login redirects, the
  duplicate-swallowing `push` and the static redirects.
- **The form validation engine** (`useForm`) and the rule list built by
  `triggerRules`.
- **Small formatters:** `formatLabel` (two copies), `formatOptionLabel` and
  `toSnakeCase`.
- **Theme defaults:** `defineThemeConfig`, which fills in the tab bar
  defaults of the layout configuration.

Every operation is a pure function (or a method with loops) over immutable
values:

- A store is a `State` value. A mutation returns the next `State`.
- Router pushes are returned as `Intent` values and are never performed.
- JavaScript objects (`meta`, `params`, `query`) are ordered key/value
  sequences (`Records.Record`). Comparing those sequences stands in for the
  `JSON.stringify` equality the stores use, and `Records.Merge` models the
  spread `{...a, ...b}`.
- The i18n translator is a parameter, and so is the `Date.now()` clock value
  (`now`).
- Strings are `seq<char>` with ASCII meaning for `\s`, `\w`, `\b`, upper
  case and lower case.

## Model

| member | source | states |
|---|---|---|
| AppTabs.GetTabById | src/stores/tabs.ts:151-153 | a tab is found exactly when some open tab has the id, and it is the first such tab |
| AppTabs.GetTabTitle | src/stores/tabs.ts:35-62 | a truthy `meta.title` wins; otherwise a usable translation of `menu.<name>` wins; with no name the title is `Dashboard CRM`; the title is never empty |
| AppTabsProps.TitleFallsBackToName | src/stores/tabs.ts:54-59 | with no title and no usable translation, the title is the dash-separated name with each word capitalised, and it is as long as the name |
| AppTabsProps.UnnamedRoute | src/stores/tabs.ts:28-32 | an unnamed route with no params and no query gets id `undefined--` and title `Dashboard CRM` |
| AppTabs.IsTabClosable | src/stores/tabs.ts:65-69 | a tab is pinned exactly when its route is `dashboards-crm`, `login` or `register` |
| AppTabsProps.ClosableExamples | src/stores/tabs.ts:65-69 | the CRM dashboard and login routes are not closable; another route is |
| AppTabs.GenerateTabId | src/stores/tabs.ts:28-32 | the id is the route name, a dash, the serialized params (empty without keys), a dash and the serialized query (empty without keys), each part readable back from its position |
| AppTabsProps.GenerateTabIdSeparatesParams | src/stores/tabs.ts:28-32 | routes with the same name and query share an id exactly when their params serialize alike |
| AppTabs.NewTab | src/stores/tabs.ts:80-92 | a new tab carries the generated id, the computed title, the route's path, name, params, query and meta, and the closability of its route |
| AppTabs.AddTab | src/stores/tabs.ts:72-96 | the route's tab becomes active; an existing tab leaves the list unchanged, otherwise exactly one new tab is appended |
| AppTabsProps.AddTabActivates | src/stores/tabs.ts:72-96 | after adding, the active tab exists and has the route's id |
| AppTabsProps.AddTabIdempotent | src/stores/tabs.ts:74-78 | adding the same route twice is the same as adding it once |
| AppTabsProps.AddTabKeepsUniqueIds | src/stores/tabs.ts:72-96 | adding keeps tab ids unique |
| AppTabs.CloseTab | src/stores/tabs.ts:99-121 | an unknown or pinned tab changes nothing; otherwise that one tab is removed and, if it was active, its left neighbour (or the new first tab, or none) becomes active |
| AppTabsProps.CloseTabPreserves | src/stores/tabs.ts:99-121 | closing keeps order and unique ids, and the active id stays among the open tabs |
| AppTabsProps.CloseActiveSelectsLeftNeighbour | src/stores/tabs.ts:110-118 | closing the active tab at position i > 0 activates the tab at i - 1 and shortens the list by one |
| AppTabs.CloseOtherTabs | src/stores/tabs.ts:124-127 | exactly the kept tab and the pinned tabs remain, and the kept id becomes active |
| AppTabsProps.CloseOtherTabsKeeps | src/stores/tabs.ts:124-127 | what remains is an order-preserving selection containing every kept or pinned tab and nothing else |
| AppTabsProps.CloseOtherTabsUnknownKeep | src/stores/tabs.ts:124-127 | keeping an id that no tab has leaves an active id that no open tab carries |
| AppTabs.CloseAllTabs | src/stores/tabs.ts:130-140 | only pinned tabs remain, and the first of them (or none) becomes active |
| AppTabsProps.CloseAllTabsKeepsPinned | src/stores/tabs.ts:130-140 | the survivors are pinned and in their original order, and the active id is among them |
| AppTabs.SwitchToTab | src/stores/tabs.ts:143-148 | the tabs are untouched; the active id changes exactly when the target exists |
| AppTabsProps.SwitchToTabKeepsActiveOpen | src/stores/tabs.ts:143-148 | switching never makes the active id dangle |
| AppTabs.UpdateTabTitle | src/stores/tabs.ts:156-161 | only the first tab with the id gets the new title; ids and every other tab stay the same |
| AppTabsProps.UpdateTabTitleThenGet | src/stores/tabs.ts:156-161 | looking the tab up afterwards gives the old tab with the new title |
| AppTabs.ReorderTabs | src/stores/tabs.ts:164-172 | out-of-range or equal indices change nothing; otherwise the moved tab lands at the new index, the others keep their relative order, and the tabs form a permutation of the old ones |
| AppTabsProps.ReorderTabsInverse | src/stores/tabs.ts:164-172 | moving a tab back from the new index to the old one restores the state |
| AppTabsProps.ReorderTabsPreserves | src/stores/tabs.ts:164-172 | reordering keeps unique ids and an open active tab |
| AppTabs.UpdateTabMeta | src/stores/tabs.ts:175-180 | only the first tab with the id gets its meta merged with the patch; everything else stays |
| AppTabsProps.UpdateTabMetaGet | src/stores/tabs.ts:175-180 | after the merge, each key reads from the patch when the patch has it, otherwise from the old meta |
| AppTabs.MarkTabAsModified | src/stores/tabs.ts:183-185 | only the target tab's `meta.modified` changes, to the given flag (default true); its other meta keys, the other tabs, the ids and the active id stay; an unknown id changes nothing |
| AppTabs.SetTabIcon | src/stores/tabs.ts:188-190 | only the target tab's `meta.icon` changes, to the given icon; everything else stays; an unknown id changes nothing |
| AppTabs.ActiveTab | src/stores/tabs.ts:22 | the active tab is an open tab carrying the active id, and there is none exactly when no open tab carries it |
| CoreTabs.GetTabTitle | src/@core/stores/tabs.ts:49-119 | the title is never empty; a truthy `titleKey` is both title and key; a truthy `title` is the title and is a key exactly when it is a dotted string; otherwise the route name's last dash-separated part is humanised as the title and lower-cased as the key; with no name the humanised last non-numeric path segment is the title, or `Untitled` |
| CoreTabs.NewTab | src/@core/stores/tabs.ts:125-133 | the id and route are the full path, the tab is closable unless told otherwise, it carries the route's meta and computed title and key, and its icon is the string `meta.icon` |
| CoreTabsProps.NamePartLast | src/@core/stores/tabs.ts:86-89 | the name part of `prefix-word` is `word`, the last dash-separated part |
| CoreTabsProps.NewTabRetitled | src/@core/stores/tabs.ts:277-293 | retitling a new tab (unless its route has both `titleKey` and `title`) shows the translation of its key, or keeps its title when it has no key |
| CoreTabs.Revisit | src/@core/stores/tabs.ts:30-46 | revisiting keeps id, title, route, icon and closability, takes the route's meta, and changes nothing when the meta is equal; a changed meta with a truthy `title` makes that title the key, and without a truthy `title` the key stays |
| CoreTabs.EvictOldestClosable | src/@core/stores/tabs.ts:140-144 | the first closable tab is removed, or nothing when every tab is pinned |
| CoreTabs.AddTab | src/@core/stores/tabs.ts:25-148 | the full path becomes active; a known tab is revisited in place; a new tab is appended, and over the ceiling the oldest closable tab is then evicted |
| CoreTabsProps.AddTabKeepsUniqueIds | src/@core/stores/tabs.ts:25-148 | adding keeps tab ids unique |
| CoreTabsProps.AddTabGrowsByAtMostOne | src/@core/stores/tabs.ts:125-144 | the list grows by at most one, and not at all when an eviction happens |
| CoreTabsProps.CeilingRespected | src/@core/stores/tabs.ts:140-144 | within the ceiling and with some tab evictable, the list stays within the ceiling |
| CoreTabsProps.EvictedTabStaysActive | src/@core/stores/tabs.ts:140-147 | when every tab is pinned at the ceiling, the new tab is evicted at once yet its id is still made active, so no tab is active |
| CoreTabsProps.RevisitKeepsOrder | src/@core/stores/tabs.ts:30-46 | revisiting keeps the order of ids, and with equal meta only the active id changes |
| CoreTabsProps.CeilingExample | src/@core/stores/tabs.ts:140-144 | with a ceiling of two, opening three routes keeps the last two |
| CoreTabs.CloseTab | src/@core/stores/tabs.ts:153-186 | an unknown or pinned tab changes nothing; otherwise the tab is removed, an inactive close keeps the active id and asks for no navigation, and closing the active tab activates its successor and navigates to that tab's route exactly when there is one |
| CoreTabs.Successor | src/@core/stores/tabs.ts:164-177 | the tab now at the closed position, else the one before it, else none |
| CoreTabs.PushTo | src/@core/stores/tabs.ts:180-184 | a push happens exactly when the new active id is non-empty and names an open tab, and it goes to that tab's route |
| CoreTabsProps.CloseTabKeepsUniqueIds | src/@core/stores/tabs.ts:153-186 | ids stay unique, and a successor is a different tab that is still open |
| CoreTabsProps.CloseActiveSelectsNeighbour | src/@core/stores/tabs.ts:164-184 | after closing the active tab some tab is active exactly when tabs remain, and a non-empty successor always gets a non-replacing push |
| CoreTabsProps.CloseActiveExample | src/@core/stores/tabs.ts:153-186 | closing the active last tab of home, a, b activates a and pushes to a |
| CoreTabs.ActivateTab | src/@core/stores/tabs.ts:191-199 | an unknown id changes nothing; a known one becomes active and its route is pushed |
| CoreTabsProps.ActivateTabSelects | src/@core/stores/tabs.ts:191-199 | after activating an open tab the list is unchanged, the active tab is that tab, the push goes to its route, and activating it again changes nothing |
| CoreTabs.ActiveTab | src/@core/stores/tabs.ts:23 | the active tab is an open tab with the active id, and none means that no such tab exists |
| CoreTabs.CloseAllTabs | src/@core/stores/tabs.ts:204-219 | only pinned tabs remain; an active tab that survived stays active without navigation, otherwise the first survivor is activated and pushed |
| CoreTabsProps.CloseAllTabsKeepsPinnedInOrder | src/@core/stores/tabs.ts:204-219 | a tab survives exactly when it is pinned, order and unique ids are kept, and the active id is open |
| CoreTabs.CloseOtherTabs | src/@core/stores/tabs.ts:224-230 | without an active id nothing changes; otherwise exactly the active tab and the pinned tabs remain |
| CoreTabsProps.CloseOtherTabsKeepsActiveAndPinned | src/@core/stores/tabs.ts:224-230 | a tab survives exactly when it is active or pinned, in its original order |
| CoreTabs.CloseTabsToLeft | src/@core/stores/tabs.ts:235-243 | the tabs left of the target keep only their pinned members, and the target and everything after it stay |
| CoreTabsProps.CloseTabsToLeftKeepsSuffixAndPinned | src/@core/stores/tabs.ts:235-243 | a tab survives exactly when it is at or right of the target or is pinned, and the active id is untouched |
| CoreTabsProps.CloseToLeftExample | src/@core/stores/tabs.ts:235-243 | closing left of b in home, a, b, c leaves home, b, c |
| CoreTabs.TogglePinTab | src/@core/stores/tabs.ts:248-256 | only the target's closability flips |
| CoreTabsProps.TogglePinTwice | src/@core/stores/tabs.ts:248-256 | toggling twice restores the state |
| CoreTabs.ApplyPatch | src/@core/stores/tabs.ts:261-269 | each field of the patch that is present replaces the tab's field; absent ones keep it |
| CoreTabs.UpdateTab | src/@core/stores/tabs.ts:261-269 | only the target is patched; the other tabs, the active id and the ceiling stay |
| CoreTabsProps.UpdateTabKeepsIds | src/@core/stores/tabs.ts:261-269 | a patch without an id keeps the ids, and an empty patch changes nothing |
| CoreTabs.Retitle | src/@core/stores/tabs.ts:277-293 | a truthy `meta.title` is translated when dotted and kept otherwise; else a title key is translated; else the tab is unchanged; nothing but the title changes |
| CoreTabs.UpdateTabTitles | src/@core/stores/tabs.ts:277-293 | every tab is retitled in place and nothing else changes |
| CoreTabsProps.UpdateTabTitlesIdempotent | src/@core/stores/tabs.ts:277-293 | retitling twice with the same translator equals retitling once |
| KeepAlive.InitializeCache | src/composables/useTabsKeepAlive.ts:14-20 | the cache seeded from the tabs is exactly the ids of the cacheable open tabs |
| KeepAlive.Sync | src/composables/useTabsKeepAlive.ts:23-38 | the watcher first adds every cacheable open tab and then drops ids that are no longer open |
| KeepAlive.AddCacheable | src/composables/useTabsKeepAlive.ts:25-29 | the adding pass yields the old cache plus the ids of all cacheable tabs |
| KeepAlive.DropClosed | src/composables/useTabsKeepAlive.ts:32-37 | the cleaning pass keeps exactly the cached ids that are open |
| KeepAliveProps.SyncMembership | src/composables/useTabsKeepAlive.ts:23-38 | an id is cached after the watcher exactly when it was cached or belongs to a cacheable tab, and belongs to an open tab |
| KeepAliveProps.SyncCachesCacheable | src/composables/useTabsKeepAlive.ts:25-29 | every cacheable open tab is cached after the watcher runs |
| KeepAliveProps.SyncWithinOpenTabs | src/composables/useTabsKeepAlive.ts:32-37 | the cache never holds an id that no open tab has |
| KeepAliveProps.SyncIdempotent | src/composables/useTabsKeepAlive.ts:23-38 | running the watcher again on the same tabs changes nothing |
| KeepAliveProps.SyncFromEmpty | src/composables/useTabsKeepAlive.ts:14-38 | the watcher from an empty cache agrees with the initial seeding |
| KeepAlive.RefreshTab | src/composables/useTabsKeepAlive.ts:41-50 | a known tab is replaced by its named route with `_refresh` set to the clock value and the other query keys kept; an unknown id gives no navigation |
| KeepAlive.ClearTabCache | src/composables/useTabsKeepAlive.ts:53-64 | an uncached id changes nothing; a cached one is dropped, and re-added together with a refresh exactly when its tab is open and cacheable |
| KeepAliveProps.ClearTabCacheSettles | src/composables/useTabsKeepAlive.ts:53-64 | once the delayed re-add happens, the cache is what it was for a cacheable tab and lacks the id otherwise |
| KeepAliveProps.RefreshOnlyForKnownTabs | src/composables/useTabsKeepAlive.ts:53-64 | a refresh is issued only for a cached, open tab and always replaces the history entry |
| KeepAlive.ClearAllTabsCache | src/composables/useTabsKeepAlive.ts:67-70 | the cache is emptied and the delayed reseed is the initial seeding |
| KeepAliveProps.ClearAllReseedIsSync | src/composables/useTabsKeepAlive.ts:67-70 | the reseed equals a watcher run from the emptied cache |
| TabNavigation.ShouldCreateTab | src/composables/useTabs.ts:24-41 | a route gets a tab exactly when it is not excluded, is not marked `noTab` and was not reached by a redirect |
| TabNavigationProps.ShouldCreateTabExamples | src/composables/useTabs.ts:14-41 | login and 404 get no tab; the CRM dashboard does |
| TabNavigationProps.ShouldCreateTabCacheable | src/composables/useTabs.ts:24-41 | a route that gets a tab gets a cacheable tab; among routes not marked `noTab` and not redirected, getting a tab and being cacheable coincide |
| TabNavigationProps.ExcludedListsAgree | src/composables/useTabs.ts:14-21 | the tab exclusion list equals the keep-alive exclusion list |
| TabNavigation.NavigateToTab | src/composables/useTabs.ts:63-84 | an unknown tab does nothing; the tab already shown does nothing; otherwise it becomes active and its named route is pushed with replace |
| TabNavigationProps.NavigateKeepsTabs | src/composables/useTabs.ts:63-84 | navigation never changes the tab list, and a push always comes with that tab made active |
| TabNavigationProps.NavigateSettles | src/composables/useTabs.ts:63-84 | once the router shows the tab, navigating to it again does nothing |
| TabNavigation.CloseTabAndNavigate | src/composables/useTabs.ts:87-108 | an unknown or pinned tab does nothing; closing an inactive tab never navigates; closing the active tab goes to the new active tab, or home when no tab is left |
| TabNavigationProps.ClosingActiveAlwaysNavigates | src/composables/useTabs.ts:87-108 | closing the active closable tab always navigates, and to the new active tab when tabs remain |
| TabNavigation.CloseOtherTabsAndNavigate | src/composables/useTabs.ts:111-114 | the store's close-others result is kept, and a push happens exactly when the kept tab exists and is not the current route; it goes to the kept tab with replace |
| TabNavigationProps.CloseOthersTargetsActive | src/composables/useTabs.ts:111-114 | a push after closing the others goes to the new active tab, none happens when the kept id is not open, and once the router shows the kept tab nothing further happens |
| TabNavigation.CloseAllTabsAndNavigate | src/composables/useTabs.ts:117-127 | the store's close-all result is kept; with no tab left it goes home, otherwise to the first tab unless it is already shown |
| TabNavigationProps.CloseAllTargetsActive | src/composables/useTabs.ts:117-127 | after closing all, no tab is active exactly when none is left, which sends the router home; otherwise a push goes to the new active tab, and once the router shows it nothing further happens |
| TabNavigation.OpenTab | src/composables/useTabs.ts:130-137 | a non-replacing push to the named route, with missing params and query taken as empty |
| TabsMiddleware.Decide | src/plugins/1.router/tabs-middleware.ts:7-34 | skipped pages, `skipTab` routes and `addToTabs: false` routes are ignored and nothing else is; an added tab is closable unless `pinTab` is true |
| TabsMiddleware.Apply | src/plugins/1.router/tabs-middleware.ts:7-34 | an ignored route leaves the store alone; any other route goes through the core store's add with the decided closability |
| TabsMiddleware.PinnedRouteSurvivesCloseAll | src/plugins/1.router/tabs-middleware.ts:24-33 | a `pinTab` route not yet open becomes a pinned last tab, even over the ceiling, and survives closing all tabs; an open route keeps its tab's flag and survives exactly when it was pinned |
| TabsMiddleware.OrdinaryRouteAddsClosableTab | src/plugins/1.router/tabs-middleware.ts:24-33 | a new ordinary route adds one closable, active tab |
| RouterGuard.BeforeEach | src/router/index.ts:38-92 | the same location aborts; an allowed route proceeds unless it redirects logged-in users to the dashboard; a forbidden route sends a logged-in user to not-authorized and a guest to login |
| RouterGuard.LoginTarget | src/router/index.ts:74-91 | the login redirect carries the target's full path, except from the index route |
| RouterGuardProps.AbortIffSameLocation | src/router/index.ts:43-48 | the guard aborts exactly when name, params and query all match |
| RouterGuardProps.SameRouteAborts | src/router/index.ts:43-48 | a navigation to the same name, params and query is always aborted |
| RouterGuardProps.GuardRespectsAbilities | src/router/index.ts:74-91 | the guard proceeds only when navigation is allowed, sends only forbidden guests to login, and a login redirect remembers the target |
| RouterGuardProps.LoggedInNeverSentToLogin | src/router/index.ts:74-91 | a logged-in user is never redirected to login, whatever the target |
| RouterGuard.Push | src/router/index.ts:110-122 | a push resolves unless it threw, and a thrown error is re-raised exactly when it is a non-null object not named `NavigationDuplicated` |
| RouterGuardProps.PushSwallowsDuplicates | src/router/index.ts:110-122 | duplicated navigations and non-object errors are swallowed; other named errors are re-raised unchanged |
| RouterGuard.StaticRedirect | src/router/index.ts:8-24 | `/`, `/pages/user-profile` and `/pages/account-settings`, matched as the router does by default, redirect to their named routes with default tabs; a path none of them matches is not redirected |
| RouterGuardProps.StaticRedirectIgnoresCase | src/router/index.ts:8-24 | the static redirects do not depend on ASCII case |
| RouterGuardProps.StaticRedirectTrailingSlash | src/router/index.ts:8-24 | one trailing slash makes no difference to the static redirects |
| RouterGuardProps.StaticRedirectExamples | src/router/index.ts:13-24 | the empty path and `/` redirect, and `/Pages/User-Profile/` goes to the profile tab |
| RouterGuardProps.StaticRedirectRejects | src/router/index.ts:13-24 | `//` and a path with an extra segment are not redirected |
| FormEngine.DefaultValue | src/@core/form/useForm.ts:26-40 | checkbox and switch fields start as `false`, every other input as the empty string |
| FormEngine.DefaultsOf | src/@core/form/useForm.ts:16-47 | the defaults hold exactly the input keys, each with the default of the last input carrying it |
| FormEngine.InitializeFormData | src/@core/form/useForm.ts:16-47 | without tabs the data is left alone; otherwise it is replaced by the defaults |
| FormProps.DefaultOfUniqueInput | src/@core/form/useForm.ts:16-47 | with unique keys, each input's key holds the default of its own type |
| FormProps.DefaultsOnlyForInputs | src/@core/form/useForm.ts:16-47 | a key has a default exactly when some input carries it |
| FormProps.InitializeFormDataIdempotent | src/@core/form/useForm.ts:16-47 | initialising twice is the same as initialising once |
| FormEngine.ValidateField | src/@core/form/useForm.ts:50-136 | the verdict is the field-validity predicate; a layout field or one without a key is valid and touches no flag; an input's flag is set exactly when it fails, and no other flag changes |
| FormProps.ValidateFieldIdempotent | src/@core/form/useForm.ts:50-136 | validating again with the same value changes nothing |
| FormProps.RequiredEmptyFails | src/@core/form/useForm.ts:64-74 | a required input holding null, undefined, a blank string or an empty array fails and is flagged |
| FormProps.EmptyOptionalPasses | src/@core/form/useForm.ts:77-95 | an optional input holding the empty string passes and is not flagged, whatever its rules |
| FormProps.FailingRuleFails | src/@core/form/useForm.ts:77-95 | any custom rule that does not return `true` on a present value fails the field |
| FormProps.EmailVerdict | src/@core/form/useForm.ts:98-108 | an optional email field without rules accepts a non-empty string exactly when it has `@`, `.` and at least five characters |
| FormProps.NonInputsPass | src/@core/form/useForm.ts:50-61 | dividers, section headers and keyless fields pass and leave the flags alone |
| FormSchema.FirstFailingRule | src/@core/form/useForm.ts:77-95 | the rules run in order up to the first one that does not pass; rules after it are not consulted |
| FormEngine.UpdateErrorTabs | src/@core/form/useForm.ts:139-154 | the error tabs are ascending and are exactly the tabs with a flagged keyed field |
| FormProps.NoFlagsNoErrorTabs | src/@core/form/useForm.ts:139-154 | with no flag set there is no error tab |
| FormEngine.ValidateTab | src/@core/form/useForm.ts:170-196 | a tab has an error exactly when one of its fields is invalid; flags outside the tab are untouched; with unique keys each field's flag matches its verdict |
| FormEngine.ValidateAllFields | src/@core/form/useForm.ts:157-220 | the verdict holds exactly when every tab is valid; the error tabs are exactly the invalid tabs in order; a failure switches to the first error tab unless the current one has errors, and reports the flags; with unique keys the flags agree with the verdicts and with the error-tab scan |
| FormEngine.ErrorTabsAgree | src/@core/form/useForm.ts:139-220 | when the flags match the verdicts, the error-tab scan gives the invalid tabs |
| FormEngine.HandleSubmit | src/@core/form/useForm.ts:245-267 | the data is submitted exactly when validation passes, and it is the form data as it stands |
| FormEngine.HandleFieldChange | src/@core/form/useForm.ts:223-242 | interaction is recorded; a keyed field stores the new value and, when validating on change, revalidates that field and rescans the error tabs |
| FormProps.FieldChangeMarksTab | src/@core/form/useForm.ts:223-242 | an invalid new value makes its tab an error tab |
| FormProps.FieldChangeClearsFlag | src/@core/form/useForm.ts:223-242 | a valid new value clears its own flag and leaves every other flag as it was |
| FormEngine.ResetFormErrors | src/@core/form/useForm.ts:270-276 | flags and error tabs are cleared; data, current tab and interaction are kept |
| FormEngine.ResetForm | src/@core/form/useForm.ts:279-289 | flags, error tabs and interaction are cleared and the data is reinitialised |
| FormProps.ResetFormIdempotent | src/@core/form/useForm.ts:279-289 | resetting twice equals resetting once |
| FormEngine.TotalFieldsCount | src/@core/form/useForm.ts:321-328 | the count is the number of keyed, non-layout fields over all tabs, and zero without tabs |
| FormEngine.GetValidationSummary | src/@core/form/useForm.ts:292-310 | total fields as counted; error fields are the distinct flagged keys; valid plus error fields is the total; valid exactly when no flag is set |
| FormProps.ValidIffNoErrors | src/@core/form/useForm.ts:313-319 | `isFormValid` is exactly the negation of `hasErrors` |
| FormProps.SummaryAfterReset | src/@core/form/useForm.ts:270-310 | after clearing errors the summary is valid, has no error fields or tabs, and counts every field as valid |
| FormProps.NoTabsNoFields | src/@core/form/useForm.ts:292-299 | a schema without tabs has no fields |
| FormRules.TriggerRules | src/@core/form/helpers.ts:5-25 | the required validator is present exactly when the field is required, and then it comes first; the email or password validator is present exactly when `validate` is set on an email or password field; no validator repeats |
| FormProps.TriggerRulesDependsOnFlags | src/@core/form/helpers.ts:5-25 | the rule list depends only on `required`, `validate` and the type |
| FormProps.RequiredEmailRules | src/@core/form/helpers.ts:5-25 | a required email field with `validate` gets the required and then the email validator |
| FormUtils.FormatLabel | src/@core/form/utils.ts:4-6 | a required label gets ` *` appended; otherwise the text is unchanged |
| AppFormHelper.FormatLabel | src/components/app/core/form/helper.ts:1-3 | the text is a prefix of the label, followed by ` *` exactly when required |
| FormLabelsProps.FormatLabelsAgree | src/components/app/core/form/helper.ts:1-3 | the two label formatters give the same label for every input |
| FormUtils.FormatOptionLabel | src/@core/form/utils.ts:9 | the option key contains no whitespace and no upper-case letter |
| FormLabelsProps.FormatOptionLabelTwoWords | src/@core/form/utils.ts:8-9 | two words separated by a space become the lower-cased first word, a dot and the lower-cased second word |
| FormLabelsProps.FormatOptionLabelIdempotent | src/@core/form/utils.ts:9 | formatting an option key again leaves it unchanged |
| SnakeCase.Tokens | src/utils/formatters.ts:4 | every match is two or more capitals, an optionally capitalised lower-case word with trailing digits, a lone capital, or a run of digits, and never puts a letter after a digit |
| SnakeCase.ToSnakeCase | src/utils/formatters.ts:4 | the empty string maps to itself; a string without letters or digits has no matches and gives `undefined` (None); any result is lower-case words joined by underscores |
| SnakeCase.TokensOfJoin | src/utils/formatters.ts:4 | splitting snake-case words joined by underscores gives the words back |
| SnakeCase.ToSnakeCaseIdempotent | src/utils/formatters.ts:4 | converting a converted string again changes nothing |
| SnakeCase.TwoCapitalWords | src/utils/formatters.ts:2-4 | two capitalised words separated by a non-word character become the lower-cased words joined by an underscore |
| ThemeConfig.ResolveTabBar | src/@core/index.ts:15-22 | each supplied tab bar option is kept; a missing one defaults to enabled, 15 tabs, keep-alive on, and no close-left, close-right or close-other actions |
| ThemeConfig.DefineThemeConfig | src/@core/index.ts:11-58 | the user configuration is returned unchanged as the theme configuration; the layout carries the resolved tab bar, the user's app title, logo, content width, content layout, overlay breakpoint, i18n switch and icon renderer, the collapsed flag and icon props of the vertical navigation, and the user's navbar, footer, horizontal navigation and icons |
| ThemeConfig.LayoutApp | src/@core/index.ts:23-32 | the layout's app section keeps the user's title, logo, content width, content layout, overlay breakpoint, i18n switch and icon renderer |
| ThemeConfig.ResolveSupplied | src/@core/index.ts:15-22 | fully supplied tab bar options resolve to themselves |
| ThemeConfig.DefineThemeConfigFixedPoint | src/@core/index.ts:11-58 | supplying the resolved tab bar explicitly gives the same layout |
| ThemeConfig.EmptySectionIsMissing | src/@core/index.ts:15-22 | an empty tab bar section and a missing one resolve alike |
| ThemeConfig.ThemeOnlyOptionsIgnored | src/@core/index.ts:23-42 | locales, theme, skin and the semi-dark flag do not affect the layout |
| ThemeConfig.TabBarOptionWins | src/@core/index.ts:16-21 | a supplied `maxTabs` wins over 15, and a missing `enable` or `keepAliveEnabled` means on |

## Left out

- Side effects are not modelled: Pinia reactivity, Vue watchers, `nextTick`,
  console logging, NProgress, `scrollBehavior` and `afterEach`. Router pushes
  are returned as intents and never performed.
- The clock (`Date.now()`) is an integer parameter `now`, and the i18n
  translator is a function parameter. The translator's contents are not
  modelled.
- `setTimeout` delays are modelled as returned values, not as timers:
  - the re-add after `clearTabCache` is the `readd` flag, and
    `KeepAliveProps.ClearTabCacheSettles` states the result once it happens;
  - the reseed after `clearAllTabsCache` is the `reseed` set.
- `initializeTabs` and `refreshCurrentTab` in `useTabs` are not modelled.
  They call store members (`clearTabs`, `markTabForRefresh`,
  `setActiveTab`) that neither tab store defines.
- The Vuetify `formRef` (`validate`, `reset`, `resetValidation`) is left out.
  It only drives the widgets' own messages.
- Field callbacks are left out: `onFieldChange`, and the `onSubmit` promise
  and its rethrow. `HandleSubmit` returns the submitted data instead.
- FormEngine.ValidateField: the NUMBER and DATE checks are not modelled
  (float parsing and `Date.parse`), so those fields are judged by the
  required check and custom rules only.
- FormEngine.ValidateAllFields: field validations within a tab run one after
  another here, while the source starts them concurrently. The order is only
  observable when two fields of a tab share a key.
- Asynchronous custom rules are modelled by their settled outcome: pass,
  fail or throw.
- FormSchema.JsString: `String(x)` of arrays and numbers is simplified.
  Numbers are integers only (no floating point).
- Records.Serialize: the `JSON.stringify` stand-in does not escape control
  characters. Equality of the ordered records is what the stores rely on.
- CoreTabs.ApplyPatch: a patch field given explicitly as `undefined` is
  treated like a missing one and keeps the tab's value, while
  `Object.assign` would clear it.
- CoreTabs.Revisit, CoreTabs.GetTabTitle, CoreTabs.Retitle and
  AppTabs.GetTabTitle: a truthy `meta.title` or `meta.titleKey` that is not
  a string (`true`, a number) is used in its string form as title or key;
  the source stores or returns the raw value under an unchecked `as string`.
- `undefined`-valued object properties are not distinguished from missing
  ones in records.
- `maxCachedComponents`, `includedRoutes` and `useTabIdAsKey` in the
  keep-alive configuration are never read by the tracker, so they are not
  modelled.
- CoreTabs.NewTab: a `meta.icon` that is not a string gives no icon, while
  the source copies any value into `icon` with an unchecked cast.
- RouterGuard.StaticRedirect: the generated page routes are not modelled.
  The three redirect records are assumed to be the ones that match their
  paths. Percent-encoding of paths is not modelled.
- ThemeConfig: component, icon and enum values are opaque tokens.
  `null` options are treated like missing ones, as `??` does.
- Whitespace, case mapping and the regular-expression classes are ASCII
  only (no Unicode whitespace or case folding).
- The documented examples `"Hello World"` → `hello_world` and
  `"option ONE"` → `option.one` have no concrete lemma. They are covered by the general lemmas
  `SnakeCase.TwoCapitalWords` and `FormLabelsProps.FormatOptionLabelTwoWords`.

=== FILE: app_tabs.dfy ===
/** The application tab store: tabs keyed by route name plus serialized
    params and query, an active id ('' when none), no ceiling, and pinned
    (non-closable) tabs for the home and authentication pages. */
module AppTabs {
  import opened Common
  import opened Seqs
  import opened Text
  import opened Records
  import opened Routes

  datatype Tab = Tab(
    id: string,
    title: string,
    path: string,
    name: string,
    params: Record,
    query: Record,
    meta: Record,
    closable: bool)

  datatype State = State(tabs: seq<Tab>, activeTabId: string)

  function Initial(): State
  {
    State([], "")
  }

  function Ids(tabs: seq<Tab>): seq<string>
  {
    Map(tabs, (t: Tab) => t.id)
  }

  predicate UniqueIds(tabs: seq<Tab>)
  {
    UniqueBy(tabs, (t: Tab) => t.id)
  }

  /** `tabs.findIndex(tab => tab.id === id)`. */
  function IndexOf(tabs: seq<Tab>, id: string): (r: Option<nat>)
    ensures r.Some? ==> r.value < |tabs| && tabs[r.value].id == id
    ensures r.Some? ==> forall j :: 0 <= j < r.value ==> tabs[j].id != id
    ensures r.None? <==> forall j :: 0 <= j < |tabs| ==> tabs[j].id != id
  {
    FindFirst(tabs, (t: Tab) => t.id == id)
  }

  /** `getTabById(id)`. */
  function GetTabById(s: State, id: string): (r: Option<Tab>)
    ensures r.Some? <==> IndexOf(s.tabs, id).Some?
    ensures r.Some? ==> r.value == s.tabs[IndexOf(s.tabs, id).value] && r.value.id == id
  {
    match IndexOf(s.tabs, id)
    case Some(i) => Some(s.tabs[i])
    case None => None
  }

  /** The `activeTab` getter. */
  function ActiveTab(s: State): (r: Option<Tab>)
    ensures r.Some? ==> r.value in s.tabs && r.value.id == s.activeTabId
    ensures r.None? <==> forall j :: 0 <= j < |s.tabs| ==> s.tabs[j].id != s.activeTabId
  {
    GetTabById(s, s.activeTabId)
  }

  /** A serialized object segment of a tab id: empty for an object without
      keys. */
  function Segment(m: Record): (r: string)
    ensures r == "" <==> |m| == 0
  {
    if |m| > 0 then Serialize(m) else ""
  }

  /** `generateTabId(route)`: `name-params-query`; the name leads and the
      serialized query ends the id, each followed or preceded by a dash. */
  function GenerateTabId(route: Route): (r: string)
    ensures |r| >= |NameText(route.name)| + 2 + |Segment(route.query)|
    ensures r[..|NameText(route.name)| + 1] == NameText(route.name) + "-"
    ensures r[|r| - |Segment(route.query)| - 1..] == "-" + Segment(route.query)
    ensures r[|NameText(route.name)| + 1..|r| - |Segment(route.query)| - 1] == Segment(route.params)
  {
    var head, tail := NameText(route.name) + "-", "-" + Segment(route.query);
    var r := head + Segment(route.params) + tail;
    assert r[..|head|] == head && r[|r| - |tail|..] == tail && r[|head|..|r| - |tail|] == Segment(route.params);
    r
  }

  /** Each dash-separated word capitalized, joined by spaces
      ('apps-user-view' gives 'Apps User View'). */
  function WordsTitle(name: string): (r: string)
  {
    Join(MapCapitalize(Split(name, '-')), " ")
  }

  function MapCapitalize(parts: seq<string>): (r: seq<string>)
    ensures |r| == |parts| && forall i :: 0 <= i < |parts| ==> r[i] == Capitalize(parts[i])
  {
    seq(|parts|, i requires 0 <= i < |parts| => Capitalize(parts[i]))
  }

  /** The i18n key tried for a route name: `menu.` + the name with dashes
      turned into underscores. */
  function MenuKey(name: string): (r: string)
    ensures |r| == |name| + 5 && r[..5] == "menu."
    ensures '-' !in r
  {
    "menu." + ReplaceAll(name, '-', '_')
  }

  /** `getTabTitle(route, t)`: a truthy `meta.title` verbatim; else a
      translation of the menu key that is non-empty and differs from the key;
      else the capitalized words of the name; else "Dashboard CRM". */
  function GetTabTitle(route: Route, t: Option<string -> string>): (r: string)
    ensures IsTruthy(route.meta, "title") ==> r == AsString(Get(route.meta, "title").value)
    ensures !IsTruthy(route.meta, "title") && NameTruthy(route.name) && t.Some?
            && t.value(MenuKey(route.name.value)) != "" && t.value(MenuKey(route.name.value)) != MenuKey(route.name.value)
            ==> r == t.value(MenuKey(route.name.value))
    ensures !IsTruthy(route.meta, "title") && !NameTruthy(route.name) ==> r == "Dashboard CRM"
    ensures r != ""
  {
    if IsTruthy(route.meta, "title") then AsString(Get(route.meta, "title").value)
    else
      var translated :=
        if NameTruthy(route.name) && t.Some? then
          var key := MenuKey(route.name.value);
          var tr := t.value(key);
          if tr != "" && tr != key then Some(tr) else None
        else None;
      if translated.Some? then translated.value
      else if NameTruthy(route.name) then
        WordsTitleLength(route.name.value);
        WordsTitle(route.name.value)
      else "Dashboard CRM"
  }

  lemma {:induction false} JoinLength(parts: seq<string>, sep: string)
    requires |parts| >= 1
    ensures |Join(parts, sep)| == (|parts| - 1) * |sep| + SumLengths(parts)
  {
    if |parts| > 1 {
      JoinLength(parts[1..], sep);
      assert SumLengths(parts) == |parts[0]| + SumLengths(parts[1..]);
    }
  }

  function SumLengths(parts: seq<string>): nat
  {
    if |parts| == 0 then 0 else |parts[0]| + SumLengths(parts[1..])
  }

  lemma {:induction false} SplitLength(s: string, c: char)
    ensures SumLengths(Split(s, c)) + |Split(s, c)| - 1 == |s|
  {
    if |s| > 0 {
      SplitLength(s[1..], c);
      var rest := Split(s[1..], c);
      if s[0] == c {
        assert ([""] + rest)[1..] == rest;
      } else {
        var r := [[s[0]] + rest[0]] + rest[1..];
        assert r[1..] == rest[1..];
        assert SumLengths(rest) == |rest[0]| + SumLengths(rest[1..]);
      }
    }
  }

  lemma {:induction false} MapCapitalizeLengths(parts: seq<string>)
    ensures SumLengths(MapCapitalize(parts)) == SumLengths(parts)
  {
    if |parts| > 0 {
      MapCapitalizeLengths(parts[1..]);
      assert MapCapitalize(parts)[1..] == MapCapitalize(parts[1..]);
    }
  }

  /** The capitalized-words title is exactly as long as the route name. */
  lemma WordsTitleLength(name: string)
    ensures |WordsTitle(name)| == |name|
  {
    SplitLength(name, '-');
    MapCapitalizeLengths(Split(name, '-'));
    JoinLength(MapCapitalize(Split(name, '-')), " ");
  }

  /** `isTabClosable(route)`: the home dashboard and the authentication pages
      are pinned. */
  function IsTabClosable(route: Route): (r: bool)
    ensures !r <==> NameText(route.name) in {"dashboards-crm", "login", "register"}
  {
    NameText(route.name) !in ["dashboards-crm", "login", "register"]
  }

  /** The tab `addTab` creates for a route not yet open. */
  function NewTab(route: Route, t: Option<string -> string>): (tab: Tab)
    ensures tab.id == GenerateTabId(route) && tab.title == GetTabTitle(route, t)
    ensures tab.path == route.path && tab.name == NameText(route.name)
    ensures tab.params == route.params && tab.query == route.query && tab.meta == route.meta
    ensures tab.closable == IsTabClosable(route)
  {
    Tab(GenerateTabId(route), GetTabTitle(route, t), route.path, NameText(route.name),
        route.params, route.query, route.meta, IsTabClosable(route))
  }

  /** `addTab(route, t)`: activate the route's tab, appending it first when it
      is not open; there is no ceiling. */
  function AddTab(s: State, route: Route, t: Option<string -> string>): (r: State)
    ensures r.activeTabId == GenerateTabId(route)
    ensures IndexOf(s.tabs, GenerateTabId(route)).Some? ==> r.tabs == s.tabs
    ensures IndexOf(s.tabs, GenerateTabId(route)).None? ==> r.tabs == s.tabs + [NewTab(route, t)]
  {
    var id := GenerateTabId(route);
    if IndexOf(s.tabs, id).Some? then s.(activeTabId := id)
    else State(s.tabs + [NewTab(route, t)], id)
  }

  /** `closeTab(id)`: an unknown or pinned tab stays; closing the active tab
      activates the one before it (or the new first tab), or '' when none is
      left. */
  function CloseTab(s: State, id: string): (r: State)
    ensures IndexOf(s.tabs, id).None? ==> r == s
    ensures IndexOf(s.tabs, id).Some? && !s.tabs[IndexOf(s.tabs, id).value].closable ==> r == s
    ensures IndexOf(s.tabs, id).Some? && s.tabs[IndexOf(s.tabs, id).value].closable ==>
      var i := IndexOf(s.tabs, id).value;
      && r.tabs == RemoveAt(s.tabs, i)
      && (s.activeTabId != id ==> r.activeTabId == s.activeTabId)
      && (s.activeTabId == id && |r.tabs| == 0 ==> r.activeTabId == "")
      && (s.activeTabId == id && |r.tabs| > 0 ==> r.activeTabId == r.tabs[if i == 0 then 0 else i - 1].id)
  {
    match IndexOf(s.tabs, id)
    case None => s
    case Some(i) =>
      if !s.tabs[i].closable then s
      else
        var rest := RemoveAt(s.tabs, i);
        if s.activeTabId == id then
          if |rest| > 0 then State(rest, rest[if i == 0 then 0 else i - 1].id)
          else State(rest, "")
        else s.(tabs := rest)
  }

  /** `closeOtherTabs(keep)`: keep `keep` and the pinned tabs, and make `keep`
      active whether or not it is open. */
  function CloseOtherTabs(s: State, keep: string): (r: State)
    ensures r.activeTabId == keep
    ensures r.tabs == Filter(s.tabs, (t: Tab) => t.id == keep || !t.closable)
  {
    State(Filter(s.tabs, (t: Tab) => t.id == keep || !t.closable), keep)
  }

  function Pinned(tabs: seq<Tab>): (r: seq<Tab>)
    ensures forall i :: 0 <= i < |r| ==> !r[i].closable && r[i] in tabs
    ensures forall i :: 0 <= i < |tabs| && !tabs[i].closable ==> tabs[i] in r
  {
    Filter(tabs, (t: Tab) => !t.closable)
  }

  /** `closeAllTabs()`: only pinned tabs remain and the first of them becomes
      active ('' when there is none). */
  function CloseAllTabs(s: State): (r: State)
    ensures r.tabs == Pinned(s.tabs)
    ensures r.activeTabId == if |r.tabs| > 0 then r.tabs[0].id else ""
  {
    var kept := Pinned(s.tabs);
    State(kept, if |kept| > 0 then kept[0].id else "")
  }

  /** `switchToTab(id)`: only an open tab can become active. */
  function SwitchToTab(s: State, id: string): (r: State)
    ensures r.tabs == s.tabs
    ensures r.activeTabId == if IndexOf(s.tabs, id).Some? then id else s.activeTabId
  {
    if IndexOf(s.tabs, id).Some? then s.(activeTabId := id) else s
  }

  /** Apply `f` to the first tab with `id`, leaving every other tab and the
      active id alone. */
  function UpdateFirst(s: State, id: string, f: Tab -> Tab): (r: State)
    ensures r.activeTabId == s.activeTabId && |r.tabs| == |s.tabs|
    ensures IndexOf(s.tabs, id).None? ==> r == s
    ensures IndexOf(s.tabs, id).Some? ==>
      var i := IndexOf(s.tabs, id).value;
      r.tabs[i] == f(s.tabs[i]) && forall j :: 0 <= j < |s.tabs| && j != i ==> r.tabs[j] == s.tabs[j]
  {
    match IndexOf(s.tabs, id)
    case None => s
    case Some(i) => s.(tabs := s.tabs[i := f(s.tabs[i])])
  }

  /** `updateTabTitle(id, title)`. */
  function UpdateTabTitle(s: State, id: string, title: string): (r: State)
    ensures r.activeTabId == s.activeTabId && Ids(r.tabs) == Ids(s.tabs)
    ensures IndexOf(s.tabs, id).None? ==> r == s
    ensures IndexOf(s.tabs, id).Some? ==>
      var i := IndexOf(s.tabs, id).value;
      r.tabs[i] == s.tabs[i].(title := title) && forall j :: 0 <= j < |s.tabs| && j != i ==> r.tabs[j] == s.tabs[j]
  {
    UpdateFirst(s, id, (t: Tab) => t.(title := title))
  }

  /** `reorderTabs(oldIndex, newIndex)`: move one tab; equal or out-of-range
      indices change nothing. */
  function ReorderTabs(s: State, oldIndex: int, newIndex: int): (r: State)
    ensures r.activeTabId == s.activeTabId && |r.tabs| == |s.tabs|
    ensures oldIndex == newIndex || !(0 <= oldIndex < |s.tabs|) || !(0 <= newIndex < |s.tabs|) ==> r == s
    ensures oldIndex != newIndex && 0 <= oldIndex < |s.tabs| && 0 <= newIndex < |s.tabs| ==>
      && r.tabs[newIndex] == s.tabs[oldIndex]
      && RemoveAt(r.tabs, newIndex) == RemoveAt(s.tabs, oldIndex)
      && multiset(r.tabs) == multiset(s.tabs)
  {
    if oldIndex == newIndex || oldIndex < 0 || newIndex < 0 || oldIndex >= |s.tabs| || newIndex >= |s.tabs| then s
    else
      MovePermutes(s.tabs, oldIndex, newIndex);
      s.(tabs := Move(s.tabs, oldIndex, newIndex))
  }

  /** `updateTabMeta(id, meta)`: the new meta is spread over the old one. */
  function UpdateTabMeta(s: State, id: string, meta: Record): (r: State)
    ensures r.activeTabId == s.activeTabId && Ids(r.tabs) == Ids(s.tabs)
    ensures IndexOf(s.tabs, id).None? ==> r == s
    ensures IndexOf(s.tabs, id).Some? ==>
      var i := IndexOf(s.tabs, id).value;
      r.tabs[i] == s.tabs[i].(meta := Merge(s.tabs[i].meta, meta)) &&
      forall j :: 0 <= j < |s.tabs| && j != i ==> r.tabs[j] == s.tabs[j]
  {
    UpdateFirst(s, id, (t: Tab) => t.(meta := Merge(t.meta, meta)))
  }

  /** Setting one meta key on the first tab with `id`: that key reads the
      new value, every other key and every other tab stay as they were. */
  ghost predicate MetaKeySet(s: State, r: State, id: string, k: string, v: Value)
  {
    && r.activeTabId == s.activeTabId && Ids(r.tabs) == Ids(s.tabs)
    && (IndexOf(s.tabs, id).None? ==> r == s)
    && (IndexOf(s.tabs, id).Some? ==>
          var i := IndexOf(s.tabs, id).value;
          && r.tabs[i] == s.tabs[i].(meta := r.tabs[i].meta)
          && Get(r.tabs[i].meta, k) == Some(v)
          && (forall k' :: k' != k ==> Get(r.tabs[i].meta, k') == Get(s.tabs[i].meta, k'))
          && (forall j :: 0 <= j < |s.tabs| && j != i ==> r.tabs[j] == s.tabs[j]))
  }

  /** `updateTabMeta(id, { [k]: v })`. */
  function SetMetaKey(s: State, id: string, k: string, v: Value): (r: State)
    ensures MetaKeySet(s, r, id, k, v)
  {
    match IndexOf(s.tabs, id)
    case None => UpdateTabMeta(s, id, [Entry(k, v)])
    case Some(i) =>
      MergeOne(s.tabs[i].meta, k, v);
      UpdateTabMeta(s, id, [Entry(k, v)])
  }

  /** `markTabAsModified(id, modified = true)`: `meta.modified` becomes the
      flag, `true` when it is not given. */
  function MarkTabAsModified(s: State, id: string, modified: Option<bool>): (r: State)
    ensures MetaKeySet(s, r, id, "modified", Bool(modified.GetOr(true)))
    ensures modified.None? && IndexOf(s.tabs, id).Some? ==>
              Get(r.tabs[IndexOf(s.tabs, id).value].meta, "modified") == Some(Bool(true))
  {
    SetMetaKey(s, id, "modified", Bool(modified.GetOr(true)))
  }

  /** `setTabIcon(id, icon)`: `meta.icon` becomes the icon. */
  function SetTabIcon(s: State, id: string, icon: string): (r: State)
    ensures MetaKeySet(s, r, id, "icon", Str(icon))
  {
    SetMetaKey(s, id, "icon", Str(icon))
  }
}

=== FILE: app_tabs_props.dfy ===
/** Properties of the application tab store that relate several calls or
    hold for every input. */
module AppTabsProps {
  import opened Common
  import opened Seqs
  import opened Text
  import opened Records
  import opened Routes
  import opened AppTabs

  /** The active id names an open tab, or is '' . */
  predicate ActiveOpen(s: State)
  {
    s.activeTabId == "" || IndexOf(s.tabs, s.activeTabId).Some?
  }

  /** Adding a route makes its tab the active, open tab. */
  lemma AddTabActivates(s: State, route: Route, t: Option<string -> string>)
    ensures ActiveTab(AddTab(s, route, t)).Some?
    ensures ActiveTab(AddTab(s, route, t)).value.id == GenerateTabId(route)
  {
    var r := AddTab(s, route, t);
    if IndexOf(s.tabs, GenerateTabId(route)).None? {
      assert r.tabs[|s.tabs|].id == GenerateTabId(route);
    }
  }

  /** Adding the same route twice is the same as adding it once. */
  lemma AddTabIdempotent(s: State, route: Route, t: Option<string -> string>)
    ensures AddTab(AddTab(s, route, t), route, t) == AddTab(s, route, t)
  {
    AddTabActivates(s, route, t);
  }

  /** Adding never creates a second tab with the same id. */
  lemma AddTabKeepsUniqueIds(s: State, route: Route, t: Option<string -> string>)
    requires UniqueIds(s.tabs)
    ensures UniqueIds(AddTab(s, route, t).tabs)
  {
    var r := AddTab(s, route, t);
    if IndexOf(s.tabs, GenerateTabId(route)).None? {
      forall a, b | 0 <= a < b < |r.tabs| ensures r.tabs[a].id != r.tabs[b].id {
        if b == |s.tabs| { assert s.tabs[a].id != GenerateTabId(route); }
      }
    }
  }

  /** Closing keeps the remaining tabs in order, keeps ids unique, and keeps
      the active id pointing at an open tab. */
  lemma CloseTabPreserves(s: State, id: string)
    requires UniqueIds(s.tabs) && ActiveOpen(s)
    ensures IsSubsequence(CloseTab(s, id).tabs, s.tabs)
    ensures UniqueIds(CloseTab(s, id).tabs)
    ensures ActiveOpen(CloseTab(s, id))
  {
    var r := CloseTab(s, id);
    match IndexOf(s.tabs, id)
    case None => SubsequenceRefl(s.tabs);
    case Some(i) =>
      if !s.tabs[i].closable {
        SubsequenceRefl(s.tabs);
      } else {
        RemoveAtIsSubsequence(s.tabs, i);
        SubsequenceKeepsUnique(r.tabs, s.tabs, (x: Tab) => x.id);
        if s.activeTabId != id && s.activeTabId != "" {
          var a := IndexOf(s.tabs, s.activeTabId).value;
          assert a != i;
          var b := if a < i then a else a - 1;
          assert r.tabs[b].id == s.activeTabId;
        } else if s.activeTabId == id && |r.tabs| > 0 {
          var k := if i == 0 then 0 else i - 1;
          assert r.tabs[k].id == r.activeTabId;
        }
      }
  }

  /** Closing the active tab in the middle of the list activates its left
      neighbour. */
  lemma CloseActiveSelectsLeftNeighbour(s: State, i: nat)
    requires 0 < i < |s.tabs| && UniqueIds(s.tabs) && s.tabs[i].closable
    requires s.activeTabId == s.tabs[i].id
    ensures CloseTab(s, s.tabs[i].id).activeTabId == s.tabs[i - 1].id
    ensures |CloseTab(s, s.tabs[i].id).tabs| == |s.tabs| - 1
  {
    assert IndexOf(s.tabs, s.tabs[i].id) == Some(i);
  }

  /** `closeOtherTabs` keeps the kept tab and every pinned tab, in order, and
      nothing else. */
  lemma CloseOtherTabsKeeps(s: State, keep: string)
    ensures IsSubsequence(CloseOtherTabs(s, keep).tabs, s.tabs)
    ensures forall i :: 0 <= i < |CloseOtherTabs(s, keep).tabs| ==>
              CloseOtherTabs(s, keep).tabs[i].id == keep || !CloseOtherTabs(s, keep).tabs[i].closable
    ensures forall i :: 0 <= i < |s.tabs| && (s.tabs[i].id == keep || !s.tabs[i].closable) ==>
              s.tabs[i] in CloseOtherTabs(s, keep).tabs
  {
    FilterIsSubsequence(s.tabs, (x: Tab) => x.id == keep || !x.closable);
  }

  /** `closeOtherTabs` with an id that is not open leaves the active id
      pointing at no tab. */
  lemma CloseOtherTabsUnknownKeep(s: State, keep: string)
    requires keep != "" && IndexOf(s.tabs, keep).None?
    ensures !ActiveOpen(CloseOtherTabs(s, keep))
  {
    var r := CloseOtherTabs(s, keep);
    forall j | 0 <= j < |r.tabs| ensures r.tabs[j].id != keep {
      assert r.tabs[j] in s.tabs;
    }
  }

  /** After `closeAllTabs` only pinned tabs remain, all of them, in order, and
      the active id is open or ''. */
  lemma CloseAllTabsKeepsPinned(s: State)
    ensures IsSubsequence(CloseAllTabs(s).tabs, s.tabs)
    ensures forall i :: 0 <= i < |CloseAllTabs(s).tabs| ==> !CloseAllTabs(s).tabs[i].closable
    ensures ActiveOpen(CloseAllTabs(s))
  {
    FilterIsSubsequence(s.tabs, (x: Tab) => !x.closable);
    var r := CloseAllTabs(s);
    if |r.tabs| > 0 { assert IndexOf(r.tabs, r.tabs[0].id) == Some(0); }
  }

  /** Switching keeps the active id open. */
  lemma SwitchToTabKeepsActiveOpen(s: State, id: string)
    requires ActiveOpen(s)
    ensures ActiveOpen(SwitchToTab(s, id))
  {
  }

  /** Reordering keeps ids unique and the active tab open. */
  lemma ReorderTabsPreserves(s: State, oldIndex: int, newIndex: int)
    requires UniqueIds(s.tabs) && ActiveOpen(s)
    ensures UniqueIds(ReorderTabs(s, oldIndex, newIndex).tabs)
    ensures ActiveOpen(ReorderTabs(s, oldIndex, newIndex))
  {
    var r := ReorderTabs(s, oldIndex, newIndex);
    if r != s {
      MoveKeepsUnique(s.tabs, oldIndex, newIndex, (x: Tab) => x.id);
      if s.activeTabId != "" {
        var a := IndexOf(s.tabs, s.activeTabId).value;
        MoveFinds(s.tabs, oldIndex, newIndex, a);
        var b := MoveTarget(oldIndex, newIndex, a);
        assert r.tabs[b].id == s.activeTabId;
      }
    }
  }

  /** Reordering there and back again restores the list. */
  lemma ReorderTabsInverse(s: State, oldIndex: int, newIndex: int)
    requires 0 <= oldIndex < |s.tabs| && 0 <= newIndex < |s.tabs|
    ensures ReorderTabs(ReorderTabs(s, oldIndex, newIndex), newIndex, oldIndex) == s
  {
    if oldIndex != newIndex {
      var r := ReorderTabs(s, oldIndex, newIndex);
      var back := ReorderTabs(r, newIndex, oldIndex);
      assert back.tabs[oldIndex] == r.tabs[newIndex] == s.tabs[oldIndex];
      assert RemoveAt(back.tabs, oldIndex) == RemoveAt(r.tabs, newIndex) == RemoveAt(s.tabs, oldIndex);
      RemoveAtDetermines(back.tabs, s.tabs, oldIndex);
    }
  }

  /** A sequence is determined by one element and what is left without it. */
  lemma RemoveAtDetermines(a: seq<Tab>, b: seq<Tab>, i: nat)
    requires i < |a| && i < |b| && a[i] == b[i] && RemoveAt(a, i) == RemoveAt(b, i)
    ensures a == b
  {
    assert |a| == |b|;
    forall j | 0 <= j < |a| ensures a[j] == b[j] {
      if j < i { assert RemoveAt(a, i)[j] == RemoveAt(b, i)[j]; }
      else if j > i { assert RemoveAt(a, i)[j - 1] == RemoveAt(b, i)[j - 1]; }
    }
  }

  /** Merged meta: keys of the update win, every other key keeps its value. */
  lemma UpdateTabMetaGet(s: State, id: string, meta: Record, k: string)
    requires IndexOf(s.tabs, id).Some? && UniqueKeys(meta)
    ensures var i := IndexOf(s.tabs, id).value;
            Get(UpdateTabMeta(s, id, meta).tabs[i].meta, k)
            == if Get(meta, k).Some? then Get(meta, k) else Get(s.tabs[i].meta, k)
  {
    var i := IndexOf(s.tabs, id).value;
    MergeGet(s.tabs[i].meta, meta, k);
  }

  /** Retitling changes one title and nothing else. */
  lemma UpdateTabTitleThenGet(s: State, id: string, title: string)
    requires IndexOf(s.tabs, id).Some?
    ensures GetTabById(UpdateTabTitle(s, id, title), id) == Some(GetTabById(s, id).value.(title := title))
  {
    var r := UpdateTabTitle(s, id, title);
    var i := IndexOf(s.tabs, id).value;
    assert Ids(r.tabs) == Ids(s.tabs);
    assert forall j :: 0 <= j < |s.tabs| ==> r.tabs[j].id == Ids(r.tabs)[j] == Ids(s.tabs)[j] == s.tabs[j].id;
    assert IndexOf(r.tabs, id) == Some(i);
  }

  /** The home dashboard and the authentication pages are pinned; any other
      named route is closable. */
  lemma ClosableExamples(route: Route)
    ensures route.name == Some("dashboards-crm") ==> !IsTabClosable(route)
    ensures route.name == Some("login") ==> !IsTabClosable(route)
    ensures route.name == Some("apps-user-view") ==> IsTabClosable(route)
  {
  }

  /** A name without dashes is titled by capitalizing it. */
  lemma WordsTitleWord(w: string)
    requires '-' !in w
    ensures WordsTitle(w) == Capitalize(w)
  {
    SplitWord(w, '-');
    assert MapCapitalize([w]) == [Capitalize(w)];
  }

  /** Each dash becomes a space and each word is capitalized. */
  lemma WordsTitleCons(w: string, rest: string)
    requires '-' !in w
    ensures WordsTitle(w + "-" + rest) == Capitalize(w) + " " + WordsTitle(rest)
  {
    SplitFirst(w, '-', rest);
    var parts := Split(rest, '-');
    assert MapCapitalize([w] + parts) == [Capitalize(w)] + MapCapitalize(parts);
    var caps := [Capitalize(w)] + MapCapitalize(parts);
    assert caps[1..] == MapCapitalize(parts);
  }

  /** Without a title and without a usable translation (none given, or one
      that echoes the key or is empty), a named route is titled by its
      capitalized words. */
  lemma TitleFallsBackToName(route: Route, t: Option<string -> string>)
    requires !IsTruthy(route.meta, "title") && NameTruthy(route.name)
    requires t.Some? ==> t.value(MenuKey(route.name.value)) in {"", MenuKey(route.name.value)}
    ensures GetTabTitle(route, t) == WordsTitle(route.name.value)
    ensures |GetTabTitle(route, t)| == |route.name.value|
  {
    WordsTitleLength(route.name.value);
  }

  /** Two routes with the same name and query share a tab id exactly when
      their params serialize alike: the params segment is read back from
      the id, so routes that differ only in params get different tabs. */
  lemma GenerateTabIdSeparatesParams(a: Route, b: Route)
    requires NameText(a.name) == NameText(b.name) && Segment(a.query) == Segment(b.query)
    ensures GenerateTabId(a) == GenerateTabId(b) <==> Segment(a.params) == Segment(b.params)
  {
    if GenerateTabId(a) == GenerateTabId(b) {
      var n, q := |NameText(a.name)|, |Segment(a.query)|;
      assert Segment(a.params) == GenerateTabId(a)[n + 1..|GenerateTabId(a)| - q - 1];
    }
  }

  /** A route without name or title is titled "Dashboard CRM" and keyed
      "undefined--" when it has no params or query. */
  lemma UnnamedRoute(route: Route)
    requires route.name.None? && Get(route.meta, "title").None? && |route.params| == 0 && |route.query| == 0
    ensures GetTabTitle(route, None) == "Dashboard CRM"
    ensures GenerateTabId(route) == "undefined--"
  {
  }
}

=== FILE: common.dfy ===
/** The optional-value wrapper shared by every module of the model.
    JavaScript's `undefined`/`null` results (a failed `find`, an absent
    property) are modelled as `None`. */
module Common {

  datatype Option<+T> = None | Some(value: T) {

    /** The wrapped value, or `default` when there is none. */
    function GetOr(default: T): T
    {
      match this
      case Some(v) => v
      case None => default
    }
  }
}

=== FILE: core_tabs.dfy ===
/** The layout-level tab store: an ordered list of tabs keyed by full path,
    an optional active tab, and a ceiling on the number of open tabs.
    Router pushes the store performs are returned as `Intent`s. */
module CoreTabs {
  import opened Common
  import opened Seqs
  import opened Text
  import opened Records
  import opened Routes

  datatype TabItem = TabItem(
    id: string,
    title: string,
    titleKey: Option<string>,
    route: string,
    icon: Option<string>,
    closable: bool,
    meta: Record)

  datatype State = State(tabs: seq<TabItem>, activeTabId: Option<string>, maxTabs: int)

  /** The store's own initial ceiling. */
  const DefaultMaxTabs: int := 30

  function Initial(): State
  {
    State([], None, DefaultMaxTabs)
  }

  /** A store transition together with the navigation it requests, if any. */
  datatype Step = Step(state: State, intent: Option<Intent>)

  function Ids(tabs: seq<TabItem>): seq<string>
  {
    Map(tabs, (t: TabItem) => t.id)
  }

  predicate UniqueIds(tabs: seq<TabItem>)
  {
    UniqueBy(tabs, (t: TabItem) => t.id)
  }

  /** `tabs.findIndex(tab => tab.id === id)`. */
  function IndexOf(tabs: seq<TabItem>, id: string): (r: Option<nat>)
    ensures r.Some? ==> r.value < |tabs| && tabs[r.value].id == id
    ensures r.Some? ==> forall j :: 0 <= j < r.value ==> tabs[j].id != id
    ensures r.None? <==> forall j :: 0 <= j < |tabs| ==> tabs[j].id != id
  {
    FindFirst(tabs, (t: TabItem) => t.id == id)
  }

  /** `tabs.findIndex(tab => tab.closable)`. */
  function FirstClosable(tabs: seq<TabItem>): (r: Option<nat>)
    ensures r.Some? ==> r.value < |tabs| && tabs[r.value].closable
    ensures r.Some? ==> forall j :: 0 <= j < r.value ==> !tabs[j].closable
    ensures r.None? <==> forall j :: 0 <= j < |tabs| ==> !tabs[j].closable
  {
    FindFirst(tabs, (t: TabItem) => t.closable)
  }

  // ---------------------------------------------------------------- titles

  datatype TitleInfo = TitleInfo(title: string, titleKey: Option<string>)

  /** The last dash-separated part of a route name ('dashboards-analytics'
      gives 'analytics'); the whole name when it has no dash or the last part
      is empty. */
  function NamePart(name: string): (r: string)
    ensures name != "" ==> r != ""
    ensures '-' !in name ==> r == name
    ensures '-' in name && Last(Split(name, '-')) != "" ==> r == Last(Split(name, '-'))
    ensures '-' in name && Last(Split(name, '-')) == "" ==> r == name
  {
    if '-' in name then
      var part := Last(Split(name, '-'));
      if part != "" then part else name
    else name
  }

  /** The last element of a non-empty sequence, as `pop()` returns it. */
  function Last<T>(s: seq<T>): T
    requires |s| > 0
  {
    s[|s| - 1]
  }

  /** First character upper-cased, dashes in the rest turned into spaces. */
  function Humanize(s: string): (r: string)
    ensures |r| == |s|
    ensures |s| > 0 ==> r[0] == UpperChar(s[0])
    ensures forall i :: 1 <= i < |r| ==> r[i] != '-'
  {
    if |s| == 0 then "" else [UpperChar(s[0])] + ReplaceAll(s[1..], '-', ' ')
  }

  predicate AllDigits(s: string)
  {
    forall i :: 0 <= i < |s| ==> IsDigit(s[i])
  }

  /** A path segment with one leading ':' removed and an all-digit segment
      erased. */
  function CleanSegment(seg: string): (r: string)
    ensures r != "" ==> !AllDigits(r)
    ensures |r| <= |seg|
  {
    var noColon := if |seg| > 0 && seg[0] == ':' then seg[1..] else seg;
    if |noColon| > 0 && AllDigits(noColon) then "" else noColon
  }

  /** The last non-empty '/'-separated segment of a path. */
  function LastSegment(path: string): (r: Option<string>)
    ensures r.Some? ==> r.value != "" && '/' !in r.value
  {
    var segs := Filter(Split(path, '/'), (p: string) => p != "");
    if |segs| > 0 then
      assert segs[|segs| - 1] in Split(path, '/');
      Some(segs[|segs| - 1])
    else None
  }

  /** The title a new tab starts with, and the i18n key it is later
      retranslated from.  Precedence: `meta.titleKey`; a `meta.title` (kept as
      key when it contains '.'); the last part of the route name; the cleaned
      last path segment; "Untitled". */
  function GetTabTitle(route: Route): (r: TitleInfo)
    ensures r.title != ""
    ensures r.titleKey.Some? ==> r.titleKey.value != ""
    ensures IsTruthy(route.meta, "titleKey") ==>
      var k := AsString(Get(route.meta, "titleKey").value);
      r == TitleInfo(k, Some(k))
    ensures !IsTruthy(route.meta, "titleKey") && IsTruthy(route.meta, "title") ==>
      var v := Get(route.meta, "title").value;
      && r.title == AsString(v)
      && (r.titleKey.Some? <==> v.Str? && '.' in v.s)
      && (r.titleKey.Some? ==> r.titleKey == Some(v.s))
    ensures !IsTruthy(route.meta, "titleKey") && !IsTruthy(route.meta, "title") && NameTruthy(route.name) ==>
      && r.title == Humanize(NamePart(route.name.value))
      && r.titleKey == Some(Lower(NamePart(route.name.value)))
    ensures !IsTruthy(route.meta, "titleKey") && !IsTruthy(route.meta, "title") && !NameTruthy(route.name) ==>
      r.titleKey.None? &&
      (if LastSegment(route.path).None? || CleanSegment(LastSegment(route.path).value) == ""
       then r.title == "Untitled"
       else r.title == Humanize(CleanSegment(LastSegment(route.path).value)))
  {
    if IsTruthy(route.meta, "titleKey") then
      var k := AsString(Get(route.meta, "titleKey").value);
      TitleInfo(k, Some(k))
    else if IsTruthy(route.meta, "title") then
      var v := Get(route.meta, "title").value;
      if v.Str? && '.' in v.s then TitleInfo(v.s, Some(v.s)) else TitleInfo(AsString(v), None)
    else if NameTruthy(route.name) then
      var part := NamePart(route.name.value);
      TitleInfo(Humanize(part), Some(Lower(part)))
    else
      match LastSegment(route.path)
      case Some(seg) =>
        var clean := CleanSegment(seg);
        if clean != "" then TitleInfo(Humanize(clean), None) else TitleInfo("Untitled", None)
      case None => TitleInfo("Untitled", None)
  }

  // ---------------------------------------------------------------- addTab

  /** The tab `addTab` builds for a route not yet open.  Its icon is a
      string `meta.icon`; any other value shows no icon. */
  function NewTab(route: Route, closable: Option<bool>): (t: TabItem)
    ensures t.id == route.fullPath && t.route == route.fullPath
    ensures t.closable == closable.GetOr(true)
    ensures t.meta == route.meta
    ensures t.title == GetTabTitle(route).title && t.titleKey == GetTabTitle(route).titleKey
    ensures t.icon.Some? <==> Get(route.meta, "icon").Some? && Get(route.meta, "icon").value.Str?
    ensures t.icon.Some? ==> Get(route.meta, "icon") == Some(Str(t.icon.value))
  {
    var info := GetTabTitle(route);
    var icon := match Get(route.meta, "icon") case Some(Str(x)) => Some(x) case _ => None;
    TabItem(route.fullPath, info.title, info.titleKey, route.fullPath, icon, closable.GetOr(true), route.meta)
  }

  /** Re-navigation to an open tab: the metadata is replaced only when it
      differs, and then a truthy `meta.title` becomes the title key. */
  function Revisit(tab: TabItem, route: Route): (t: TabItem)
    ensures t.id == tab.id && t.title == tab.title && t.route == tab.route
    ensures t.icon == tab.icon && t.closable == tab.closable
    ensures t.meta == route.meta
    ensures tab.meta == route.meta ==> t == tab
    ensures t.titleKey != tab.titleKey ==> IsTruthy(route.meta, "title")
    ensures tab.meta != route.meta && IsTruthy(route.meta, "title") ==>
              t.titleKey == Some(AsString(Get(route.meta, "title").value))
    ensures !IsTruthy(route.meta, "title") ==> t.titleKey == tab.titleKey
  {
    if tab.meta != route.meta then
      var key := if IsTruthy(route.meta, "title") then Some(AsString(Get(route.meta, "title").value)) else tab.titleKey;
      tab.(meta := route.meta, titleKey := key)
    else tab
  }

  /** Remove the first closable tab, if there is one. */
  function EvictOldestClosable(tabs: seq<TabItem>): (r: seq<TabItem>)
    ensures FirstClosable(tabs).Some? ==> r == RemoveAt(tabs, FirstClosable(tabs).value)
    ensures FirstClosable(tabs).None? ==> r == tabs
  {
    match FirstClosable(tabs)
    case Some(k) => RemoveAt(tabs, k)
    case None => tabs
  }

  predicate OverCeiling(maxTabs: int, count: int)
  {
    maxTabs > 0 && count > maxTabs
  }

  /** `addTab(route, { closable })`: activate the tab whose id is the route's
      full path, creating it (and evicting the oldest closable tab when the
      ceiling is exceeded) if it is not open yet. */
  function AddTab(s: State, route: Route, closable: Option<bool>): (r: State)
    ensures r.activeTabId == Some(route.fullPath) && r.maxTabs == s.maxTabs
    ensures IndexOf(s.tabs, route.fullPath).Some? ==>
      var i := IndexOf(s.tabs, route.fullPath).value;
      Ids(r.tabs) == Ids(s.tabs) &&
      r.tabs[i] == Revisit(s.tabs[i], route) &&
      forall j :: 0 <= j < |s.tabs| && j != i ==> r.tabs[j] == s.tabs[j]
    ensures IndexOf(s.tabs, route.fullPath).None? && !OverCeiling(s.maxTabs, |s.tabs| + 1) ==>
      r.tabs == s.tabs + [NewTab(route, closable)]
    ensures IndexOf(s.tabs, route.fullPath).None? && OverCeiling(s.maxTabs, |s.tabs| + 1) ==>
      var pushed := s.tabs + [NewTab(route, closable)];
      (FirstClosable(pushed).Some? ==> r.tabs == RemoveAt(pushed, FirstClosable(pushed).value)) &&
      (FirstClosable(pushed).None? ==> r.tabs == pushed)
  {
    var id := route.fullPath;
    match IndexOf(s.tabs, id)
    case Some(i) =>
      State(s.tabs[i := Revisit(s.tabs[i], route)], Some(id), s.maxTabs)
    case None =>
      var pushed := s.tabs + [NewTab(route, closable)];
      var kept := if OverCeiling(s.maxTabs, |pushed|) then EvictOldestClosable(pushed) else pushed;
      State(kept, Some(id), s.maxTabs)
  }

  // ---------------------------------------------------------------- closing

  /** The tab that becomes active after the active one at `index` was removed
      from the list (giving `rest`): the one now at `index`, else the one
      before it, else none. */
  function Successor(rest: seq<TabItem>, index: nat): (r: Option<string>)
    ensures index < |rest| ==> r == Some(rest[index].id)
    ensures index == |rest| && index > 0 ==> r == Some(rest[index - 1].id)
    ensures r.None? <==> |rest| == 0 || index > |rest|
  {
    if index < |rest| then Some(rest[index].id)
    else if index >= 1 && index - 1 < |rest| then Some(rest[index - 1].id)
    else None
  }

  /** The push to the tab just made active, which happens only for a truthy
      id that names an open tab. */
  function PushTo(tabs: seq<TabItem>, active: Option<string>): (r: Option<Intent>)
    ensures r.Some? <==> active.Some? && active.value != "" && IndexOf(tabs, active.value).Some?
    ensures r.Some? ==> r.value == ToPath(tabs[IndexOf(tabs, active.value).value].route, false)
  {
    if active.Some? && active.value != "" then
      match IndexOf(tabs, active.value)
      case Some(j) => Some(ToPath(tabs[j].route, false))
      case None => None
    else None
  }

  /** `closeTab(id)`. */
  function CloseTab(s: State, id: string): (r: Step)
    ensures IndexOf(s.tabs, id).None? ==> r == Step(s, None)
    ensures IndexOf(s.tabs, id).Some? && !s.tabs[IndexOf(s.tabs, id).value].closable ==> r == Step(s, None)
    ensures IndexOf(s.tabs, id).Some? && s.tabs[IndexOf(s.tabs, id).value].closable ==>
      var i := IndexOf(s.tabs, id).value;
      r.state.tabs == RemoveAt(s.tabs, i) && r.state.maxTabs == s.maxTabs &&
      (s.activeTabId != Some(id) ==> r.state.activeTabId == s.activeTabId && r.intent.None?) &&
      (s.activeTabId == Some(id) ==>
        && r.state.activeTabId == Successor(r.state.tabs, i)
        && (r.intent.Some? <==> r.state.activeTabId.Some? && r.state.activeTabId.value != "")
        && (r.intent.Some? ==> ActiveTab(r.state).Some? && r.intent.value == ToPath(ActiveTab(r.state).value.route, false)))
  {
    match IndexOf(s.tabs, id)
    case None => Step(s, None)
    case Some(i) =>
      if !s.tabs[i].closable then Step(s, None)
      else
        var rest := RemoveAt(s.tabs, i);
        if s.activeTabId == Some(id) then
          var next := Successor(rest, i);
          assert next.Some? ==> IndexOf(rest, next.value).Some?;
          Step(State(rest, next, s.maxTabs), PushTo(rest, next))
        else Step(s.(tabs := rest), None)
  }

  /** `activateTab(id)`: select an open tab and navigate to it. */
  function ActivateTab(s: State, id: string): (r: Step)
    ensures IndexOf(s.tabs, id).None? ==> r == Step(s, None)
    ensures IndexOf(s.tabs, id).Some? ==>
      r.state == s.(activeTabId := Some(id)) &&
      r.intent == Some(ToPath(s.tabs[IndexOf(s.tabs, id).value].route, false))
  {
    match IndexOf(s.tabs, id)
    case None => Step(s, None)
    case Some(i) => Step(s.(activeTabId := Some(id)), Some(ToPath(s.tabs[i].route, false)))
  }

  function Pinned(tabs: seq<TabItem>): (r: seq<TabItem>)
    ensures forall i :: 0 <= i < |r| ==> !r[i].closable && r[i] in tabs
    ensures forall i :: 0 <= i < |tabs| && !tabs[i].closable ==> tabs[i] in r
  {
    Filter(tabs, (t: TabItem) => !t.closable)
  }

  /** The active tab as the store's getter finds it. */
  function ActiveTab(s: State): (r: Option<TabItem>)
    ensures r.Some? ==> s.activeTabId.Some? && r.value in s.tabs && r.value.id == s.activeTabId.value
    ensures r.None? ==> s.activeTabId.None? || forall j :: 0 <= j < |s.tabs| ==> s.tabs[j].id != s.activeTabId.value
  {
    if s.activeTabId.None? then None
    else match IndexOf(s.tabs, s.activeTabId.value)
      case Some(j) => Some(s.tabs[j])
      case None => None
  }

  /** `closeAllTabs()`: keep only the pinned tabs; when the active tab did not
      survive, activate the first remaining tab (and navigate to it) or none. */
  function CloseAllTabs(s: State): (r: Step)
    ensures r.state.tabs == Pinned(s.tabs) && r.state.maxTabs == s.maxTabs
    ensures ActiveTab(s.(tabs := Pinned(s.tabs))).Some? ==> r == Step(s.(tabs := Pinned(s.tabs)), None)
    ensures ActiveTab(s.(tabs := Pinned(s.tabs))).None? ==>
      (|r.state.tabs| == 0 ==> r.state.activeTabId.None? && r.intent.None?) &&
      (|r.state.tabs| > 0 ==>
        && r.state.activeTabId == Some(r.state.tabs[0].id)
        && (r.intent.Some? <==> r.state.tabs[0].id != "")
        && (r.intent.Some? ==> r.intent.value == ToPath(r.state.tabs[0].route, false)))
  {
    var kept := Pinned(s.tabs);
    var s' := s.(tabs := kept);
    match ActiveTab(s')
    case Some(t) =>
      if t.closable then
        assert false;
        Step(s', None)
      else Step(s', None)
    case None =>
      var next := if |kept| > 0 then Some(kept[0].id) else None;
      Step(s'.(activeTabId := next), PushTo(kept, next))
  }

  /** `closeOtherTabs()`: keep the active tab and the pinned ones; nothing
      happens without a (truthy) active id. */
  function CloseOtherTabs(s: State): (r: State)
    ensures s.activeTabId.None? || s.activeTabId == Some("") ==> r == s
    ensures s.activeTabId.Some? && s.activeTabId.value != "" ==>
      r == s.(tabs := Filter(s.tabs, (t: TabItem) => t.id == s.activeTabId.value || !t.closable))
  {
    if s.activeTabId.None? || s.activeTabId.value == "" then s
    else
      var a := s.activeTabId.value;
      s.(tabs := Filter(s.tabs, (t: TabItem) => t.id == a || !t.closable))
  }

  /** `closeTabsToLeft(id)`: every closable tab before `id`'s position goes;
      `id`, everything after it, and every pinned tab stay, in order. */
  function CloseTabsToLeft(s: State, id: string): (r: State)
    ensures IndexOf(s.tabs, id).None? ==> r == s
    ensures IndexOf(s.tabs, id).Some? ==>
      var k := IndexOf(s.tabs, id).value;
      r == s.(tabs := Pinned(s.tabs[..k]) + s.tabs[k..])
  {
    match IndexOf(s.tabs, id)
    case None => s
    case Some(k) => s.(tabs := Pinned(s.tabs[..k]) + s.tabs[k..])
  }

  /** `togglePinTab(id)`: flip the closability of the first tab with `id`. */
  function TogglePinTab(s: State, id: string): (r: State)
    ensures IndexOf(s.tabs, id).None? ==> r == s
    ensures IndexOf(s.tabs, id).Some? ==>
      var i := IndexOf(s.tabs, id).value;
      r == s.(tabs := s.tabs[i := s.tabs[i].(closable := !s.tabs[i].closable)])
  {
    match IndexOf(s.tabs, id)
    case None => s
    case Some(i) => s.(tabs := s.tabs[i := s.tabs[i].(closable := !s.tabs[i].closable)])
  }

  /** The properties a `Partial<TabItem>` supplies; `None` leaves a property
      as it is. */
  datatype TabPatch = TabPatch(
    id: Option<string>,
    title: Option<string>,
    titleKey: Option<string>,
    route: Option<string>,
    icon: Option<string>,
    closable: Option<bool>,
    meta: Option<Record>)

  /** `Object.assign(tab, data)`. */
  function ApplyPatch(t: TabItem, p: TabPatch): (r: TabItem)
    ensures r.id == p.id.GetOr(t.id) && r.title == p.title.GetOr(t.title)
    ensures r.route == p.route.GetOr(t.route) && r.closable == p.closable.GetOr(t.closable)
    ensures r.meta == p.meta.GetOr(t.meta)
    ensures r.titleKey == (if p.titleKey.Some? then p.titleKey else t.titleKey)
    ensures r.icon == (if p.icon.Some? then p.icon else t.icon)
  {
    TabItem(
      p.id.GetOr(t.id),
      p.title.GetOr(t.title),
      if p.titleKey.Some? then p.titleKey else t.titleKey,
      p.route.GetOr(t.route),
      if p.icon.Some? then p.icon else t.icon,
      p.closable.GetOr(t.closable),
      p.meta.GetOr(t.meta))
  }

  /** `updateTab(id, data)`: patch the first tab with `id`, nothing else. */
  function UpdateTab(s: State, id: string, p: TabPatch): (r: State)
    ensures r.activeTabId == s.activeTabId && r.maxTabs == s.maxTabs && |r.tabs| == |s.tabs|
    ensures IndexOf(s.tabs, id).None? ==> r == s
    ensures IndexOf(s.tabs, id).Some? ==>
      var i := IndexOf(s.tabs, id).value;
      r.tabs[i] == ApplyPatch(s.tabs[i], p) &&
      forall j :: 0 <= j < |s.tabs| && j != i ==> r.tabs[j] == s.tabs[j]
  {
    match IndexOf(s.tabs, id)
    case None => s
    case Some(i) => s.(tabs := s.tabs[i := ApplyPatch(s.tabs[i], p)])
  }

  // ---------------------------------------------------------------- i18n

  /** `tab.titleKey` is truthy. */
  predicate HasTitleKey(t: TabItem)
  {
    t.titleKey.Some? && t.titleKey.value != ""
  }

  /** One tab of `updateTabTitles(translate)`: a title key is translated; a
      truthy `meta.title` then overrides it (translated when it contains
      '.', verbatim otherwise). */
  function Retitle(t: TabItem, translate: string -> string): (r: TabItem)
    ensures r == t.(title := r.title)
    ensures IsTruthy(t.meta, "title") ==>
      var v := Get(t.meta, "title").value;
      r.title == (if v.Str? && '.' in v.s then translate(v.s) else AsString(v))
    ensures !IsTruthy(t.meta, "title") && HasTitleKey(t) ==> r.title == translate(t.titleKey.value)
    ensures !IsTruthy(t.meta, "title") && !HasTitleKey(t) ==> r == t
  {
    var keyed := if HasTitleKey(t) then translate(t.titleKey.value) else t.title;
    var title :=
      if IsTruthy(t.meta, "title") then
        var v := Get(t.meta, "title").value;
        if v.Str? && '.' in v.s then translate(v.s) else AsString(v)
      else keyed;
    t.(title := title)
  }

  /** `updateTabTitles(translate)`: retitle every tab, changing nothing else. */
  function UpdateTabTitles(s: State, translate: string -> string): (r: State)
    ensures r.activeTabId == s.activeTabId && r.maxTabs == s.maxTabs
    ensures |r.tabs| == |s.tabs|
    ensures forall i :: 0 <= i < |s.tabs| ==> r.tabs[i] == Retitle(s.tabs[i], translate)
  {
    s.(tabs := seq(|s.tabs|, i requires 0 <= i < |s.tabs| => Retitle(s.tabs[i], translate)))
  }
}

=== FILE: core_tabs_props.dfy ===
/** Properties of the layout-level tab store that relate several calls or
    hold for every input. */
module CoreTabsProps {
  import opened Common
  import opened Seqs
  import opened Records
  import opened Routes
  import Text
  import opened CoreTabs

  /** Adding a tab never creates a second tab with the same id. */
  lemma AddTabKeepsUniqueIds(s: State, route: Route, closable: Option<bool>)
    requires UniqueIds(s.tabs)
    ensures UniqueIds(AddTab(s, route, closable).tabs)
  {
    var r := AddTab(s, route, closable);
    match IndexOf(s.tabs, route.fullPath)
    case Some(i) =>
      forall a, b | 0 <= a < b < |r.tabs| ensures r.tabs[a].id != r.tabs[b].id {
        assert Ids(r.tabs)[a] == Ids(s.tabs)[a] && Ids(r.tabs)[b] == Ids(s.tabs)[b];
      }
    case None =>
      var pushed := s.tabs + [NewTab(route, closable)];
      assert UniqueIds(pushed) by {
        forall a, b | 0 <= a < b < |pushed| ensures pushed[a].id != pushed[b].id {
          if b == |s.tabs| { assert s.tabs[a].id != route.fullPath; }
        }
      }
      if OverCeiling(s.maxTabs, |pushed|) && FirstClosable(pushed).Some? {
        RemoveAtIsSubsequence(pushed, FirstClosable(pushed).value);
        SubsequenceKeepsUnique(r.tabs, pushed, (t: TabItem) => t.id);
      }
  }

  /** One add grows the list by at most one tab; an eviction keeps the
      count. */
  lemma AddTabGrowsByAtMostOne(s: State, route: Route, closable: Option<bool>)
    ensures |AddTab(s, route, closable).tabs| <= |s.tabs| + 1
    ensures IndexOf(s.tabs, route.fullPath).None? && OverCeiling(s.maxTabs, |s.tabs| + 1)
            && FirstClosable(s.tabs + [NewTab(route, closable)]).Some?
            ==> |AddTab(s, route, closable).tabs| == |s.tabs|
  {
  }

  /** From a list within the ceiling, an add stays within it whenever some
      tab (old or new) is closable. */
  lemma CeilingRespected(s: State, route: Route, closable: Option<bool>)
    requires s.maxTabs > 0 && |s.tabs| <= s.maxTabs
    requires closable.GetOr(true) || exists j :: 0 <= j < |s.tabs| && s.tabs[j].closable
    ensures |AddTab(s, route, closable).tabs| <= s.maxTabs
  {
    var pushed := s.tabs + [NewTab(route, closable)];
    if IndexOf(s.tabs, route.fullPath).None? && OverCeiling(s.maxTabs, |pushed|) {
      if closable.GetOr(true) {
        assert pushed[|s.tabs|].closable;
      } else {
        var j :| 0 <= j < |s.tabs| && s.tabs[j].closable;
        assert pushed[j].closable;
      }
    }
  }

  /** When every open tab is pinned, a new closable tab beyond the ceiling is
      itself evicted, and the store still names it active: the active id then
      matches no open tab. */
  lemma EvictedTabStaysActive(s: State, route: Route)
    requires s.maxTabs > 0 && |s.tabs| == s.maxTabs
    requires forall j :: 0 <= j < |s.tabs| ==> !s.tabs[j].closable && s.tabs[j].id != route.fullPath
    ensures var r := AddTab(s, route, None);
      r.tabs == s.tabs && r.activeTabId == Some(route.fullPath) && ActiveTab(r).None?
  {
    var pushed := s.tabs + [NewTab(route, None)];
    assert forall j :: 0 <= j < |s.tabs| ==> pushed[j] == s.tabs[j];
    assert pushed[|s.tabs|].closable;
    assert FirstClosable(pushed) == Some(|s.tabs|);
    assert RemoveAt(pushed, |s.tabs|) == s.tabs;
  }

  /** Re-visiting an open tab changes neither the number nor the order of
      tabs. */
  lemma RevisitKeepsOrder(s: State, route: Route, closable: Option<bool>)
    requires IndexOf(s.tabs, route.fullPath).Some?
    ensures Ids(AddTab(s, route, closable).tabs) == Ids(s.tabs)
    ensures s.tabs[IndexOf(s.tabs, route.fullPath).value].meta == route.meta ==>
      AddTab(s, route, closable) == s.(activeTabId := Some(route.fullPath))
  {
    var i := IndexOf(s.tabs, route.fullPath).value;
    if s.tabs[i].meta == route.meta {
      assert s.tabs[i := s.tabs[i]] == s.tabs;
    }
  }

  /** Closing keeps ids unique, and the newly active tab (if any) is open
      and is not the closed one. */
  lemma CloseTabKeepsUniqueIds(s: State, id: string)
    requires UniqueIds(s.tabs)
    ensures UniqueIds(CloseTab(s, id).state.tabs)
    ensures IndexOf(s.tabs, id).Some? && s.tabs[IndexOf(s.tabs, id).value].closable &&
            s.activeTabId == Some(id) && CloseTab(s, id).state.activeTabId.Some? ==>
      var a := CloseTab(s, id).state.activeTabId.value;
      a != id && a in Ids(CloseTab(s, id).state.tabs)
  {
    var r := CloseTab(s, id);
    match IndexOf(s.tabs, id)
    case None =>
    case Some(i) =>
      if s.tabs[i].closable {
        RemoveAtIsSubsequence(s.tabs, i);
        SubsequenceKeepsUnique(r.state.tabs, s.tabs, (t: TabItem) => t.id);
        if s.activeTabId == Some(id) && r.state.activeTabId.Some? {
          var rest := r.state.tabs;
          var k := if i < |rest| then i else i - 1;
          assert rest[k].id == r.state.activeTabId.value;
          assert Ids(rest)[k] == rest[k].id;
          if i < |rest| {
            assert rest[k] == s.tabs[i + 1];
            assert s.tabs[i].id != s.tabs[i + 1].id;
          } else {
            assert rest[k] == s.tabs[i - 1];
            assert s.tabs[i - 1].id != s.tabs[i].id;
          }
        }
      }
  }

  /** After the active tab is closed, exactly one tab is active while any
      remain and none otherwise, and a navigation accompanies every truthy
      new active id. */
  lemma CloseActiveSelectsNeighbour(s: State, id: string)
    requires IndexOf(s.tabs, id).Some? && s.tabs[IndexOf(s.tabs, id).value].closable
    requires s.activeTabId == Some(id)
    ensures var r := CloseTab(s, id);
      && (|r.state.tabs| > 0 <==> r.state.activeTabId.Some?)
      && (r.state.activeTabId.Some? && r.state.activeTabId.value != "" ==>
            r.intent.Some? && r.intent.value.ToPath? && !r.intent.value.replace)
  {
  }

  /** The bulk closes are order-preserving and never drop a pinned tab. */
  lemma CloseAllTabsKeepsPinnedInOrder(s: State)
    requires UniqueIds(s.tabs)
    ensures var r := CloseAllTabs(s).state;
      && IsSubsequence(r.tabs, s.tabs) && UniqueIds(r.tabs)
      && (forall j :: 0 <= j < |s.tabs| ==> (s.tabs[j] in r.tabs <==> !s.tabs[j].closable))
      && (r.activeTabId.Some? ==> r.activeTabId.value in Ids(r.tabs))
  {
    FilterIsSubsequence(s.tabs, (t: TabItem) => !t.closable);
    FilterKeepsUnique(s.tabs, (t: TabItem) => !t.closable, (t: TabItem) => t.id);
    var r := CloseAllTabs(s).state;
    if r.activeTabId.Some? {
      var kept := Pinned(s.tabs);
      match ActiveTab(s.(tabs := kept))
      case Some(t) =>
        var j := IndexOf(kept, s.activeTabId.value).value;
        assert Ids(kept)[j] == kept[j].id;
      case None =>
        assert Ids(kept)[0] == kept[0].id;
    }
  }

  lemma CloseOtherTabsKeepsActiveAndPinned(s: State)
    requires UniqueIds(s.tabs)
    ensures var r := CloseOtherTabs(s);
      && IsSubsequence(r.tabs, s.tabs) && UniqueIds(r.tabs) && r.activeTabId == s.activeTabId
      && (s.activeTabId.Some? && s.activeTabId.value != "" ==>
            forall j :: 0 <= j < |s.tabs| ==>
              (s.tabs[j] in r.tabs <==> s.tabs[j].id == s.activeTabId.value || !s.tabs[j].closable))
  {
    if s.activeTabId.None? || s.activeTabId.value == "" {
      SubsequenceRefl(s.tabs);
    } else {
      var a := s.activeTabId.value;
      FilterIsSubsequence(s.tabs, (t: TabItem) => t.id == a || !t.closable);
      FilterKeepsUnique(s.tabs, (t: TabItem) => t.id == a || !t.closable, (t: TabItem) => t.id);
    }
  }

  lemma CloseTabsToLeftKeepsSuffixAndPinned(s: State, id: string)
    requires UniqueIds(s.tabs)
    ensures var r := CloseTabsToLeft(s, id);
      && IsSubsequence(r.tabs, s.tabs) && UniqueIds(r.tabs) && r.activeTabId == s.activeTabId
      && (IndexOf(s.tabs, id).Some? ==>
            var k := IndexOf(s.tabs, id).value;
            forall j :: 0 <= j < |s.tabs| ==> (s.tabs[j] in r.tabs <==> j >= k || !s.tabs[j].closable))
  {
    var r := CloseTabsToLeft(s, id);
    match IndexOf(s.tabs, id)
    case None =>
      SubsequenceRefl(s.tabs);
    case Some(k) =>
      var left := s.tabs[..k];
      FilterIsSubsequence(left, (t: TabItem) => !t.closable);
      SubsequenceAppend(Pinned(left), left, s.tabs[k..]);
      assert left + s.tabs[k..] == s.tabs;
      SubsequenceKeepsUnique(r.tabs, s.tabs, (t: TabItem) => t.id);
      forall j | 0 <= j < |s.tabs| ensures s.tabs[j] in r.tabs <==> j >= k || !s.tabs[j].closable {
        if j >= k {
          assert s.tabs[j] == s.tabs[k..][j - k];
        } else if !s.tabs[j].closable {
          assert s.tabs[j] == left[j];
        }
      }
  }

  /** Pinning is an involution. */
  lemma TogglePinTwice(s: State, id: string)
    ensures TogglePinTab(TogglePinTab(s, id), id) == s
  {
    match IndexOf(s.tabs, id)
    case None =>
    case Some(i) =>
      var once := TogglePinTab(s, id);
      assert IndexOf(once.tabs, id) == Some(i) by {
        assert forall j :: 0 <= j < i ==> once.tabs[j] == s.tabs[j];
      }
      assert once.tabs[i := once.tabs[i].(closable := !once.tabs[i].closable)] == s.tabs;
  }

  /** An empty patch changes nothing; a patch without an id keeps ids
      unique. */
  lemma UpdateTabKeepsIds(s: State, id: string, p: TabPatch)
    requires p.id.None? && UniqueIds(s.tabs)
    ensures Ids(UpdateTab(s, id, p).tabs) == Ids(s.tabs)
    ensures UniqueIds(UpdateTab(s, id, p).tabs)
    ensures p == TabPatch(None, None, None, None, None, None, None) ==> UpdateTab(s, id, p) == s
  {
    var r := UpdateTab(s, id, p);
    assert Ids(r.tabs) == Ids(s.tabs);
    forall a, b | 0 <= a < b < |r.tabs| ensures r.tabs[a].id != r.tabs[b].id {
      assert Ids(r.tabs)[a] == Ids(s.tabs)[a] && Ids(r.tabs)[b] == Ids(s.tabs)[b];
    }
    if p == TabPatch(None, None, None, None, None, None, None) && IndexOf(s.tabs, id).Some? {
      var i := IndexOf(s.tabs, id).value;
      assert r.tabs[i] == s.tabs[i];
      assert r.tabs == s.tabs;
    }
  }

  /** Retranslating twice with the same translator is retranslating once. */
  lemma {:induction false} UpdateTabTitlesIdempotent(s: State, translate: string -> string)
    ensures UpdateTabTitles(UpdateTabTitles(s, translate), translate) == UpdateTabTitles(s, translate)
  {
    var once := UpdateTabTitles(s, translate);
    var twice := UpdateTabTitles(once, translate);
    forall i | 0 <= i < |s.tabs| ensures twice.tabs[i] == once.tabs[i] {
      var t := s.tabs[i];
      var u := Retitle(t, translate);
      assert u.meta == t.meta && u.titleKey == t.titleKey;
      if !IsTruthy(t.meta, "title") && !HasTitleKey(t) {
        assert u == t;
      }
    }
    assert twice.tabs == once.tabs;
  }

  // ------------------------------------------------------------ titles

  /** The name part of `prefix-word` is `word`: the last dash-separated part,
      as `split('-').pop()` gives it. */
  lemma NamePartLast(prefix: string, w: string)
    requires w != "" && '-' !in w
    ensures NamePart(prefix + "-" + w) == w
  {
    Text.SplitLast(prefix, '-', w);
    assert (prefix + "-" + w)[|prefix|] == '-';
  }

  /** A new tab's starting title is what `updateTabTitles` replaces: unless
      the route has both a `titleKey` and a `title`, retranslating shows the
      translation of the tab's key, or keeps the title when it has none. */
  lemma NewTabRetitled(route: Route, closable: Option<bool>, translate: string -> string)
    ensures !(IsTruthy(route.meta, "titleKey") && IsTruthy(route.meta, "title")) ==>
      Retitle(NewTab(route, closable), translate).title ==
        match GetTabTitle(route).titleKey
        case Some(k) => translate(k)
        case None => GetTabTitle(route).title
  {
  }

  // ------------------------------------------------------------ activation

  /** Activating an open tab makes it the active tab without touching the
      list, navigates to its route, and is settled once done. */
  lemma ActivateTabSelects(s: State, id: string)
    requires IndexOf(s.tabs, id).Some?
    ensures ActivateTab(s, id).state.tabs == s.tabs
    ensures ActiveTab(ActivateTab(s, id).state) == Some(s.tabs[IndexOf(s.tabs, id).value])
    ensures ActivateTab(s, id).intent == Some(ToPath(ActiveTab(ActivateTab(s, id).state).value.route, false))
    ensures ActivateTab(ActivateTab(s, id).state, id).state == ActivateTab(s, id).state
  {
  }

  // ------------------------------------------------------------ examples

  /** Ceiling 2: opening three distinct routes A, B, C on an empty store
      evicts A and leaves [B, C] with C active. */
  lemma CeilingExample(a: Route, b: Route, c: Route)
    requires a.fullPath != b.fullPath && b.fullPath != c.fullPath && a.fullPath != c.fullPath
    ensures var s := AddTab(AddTab(AddTab(State([], None, 2), a, None), b, None), c, None);
      Ids(s.tabs) == [b.fullPath, c.fullPath] && s.activeTabId == Some(c.fullPath)
  {
    var s1 := AddTab(State([], None, 2), a, None);
    assert s1.tabs == [NewTab(a, None)];
    var s2 := AddTab(s1, b, None);
    assert IndexOf(s1.tabs, b.fullPath).None?;
    assert s2.tabs == [NewTab(a, None), NewTab(b, None)];
    assert IndexOf(s2.tabs, c.fullPath).None?;
    var pushed := s2.tabs + [NewTab(c, None)];
    assert pushed[0].closable;
    assert FirstClosable(pushed) == Some(0);
    var s3 := AddTab(s2, c, None);
    assert s3.tabs == RemoveAt(pushed, 0);
    assert Ids(s3.tabs) == [b.fullPath, c.fullPath];
  }

  /** Closing to the left of B on [Home (pinned), A, B, C] leaves [Home, B, C]. */
  lemma CloseToLeftExample(home: TabItem, a: TabItem, b: TabItem, c: TabItem)
    requires !home.closable && a.closable
    requires home.id != b.id && a.id != b.id
    ensures CloseTabsToLeft(State([home, a, b, c], None, 30), b.id).tabs == [home, b, c]
  {
    var tabs := [home, a, b, c];
    assert tabs[0].id != b.id && tabs[1].id != b.id && tabs[2].id == b.id;
    assert IndexOf(tabs, b.id).Some?;
    assert IndexOf(tabs, b.id) == Some(2);
    assert tabs[..2] == [home, a];
    assert Filter([a], (t: TabItem) => !t.closable) == [];
    assert Pinned(tabs[..2]) == [home];
    assert tabs[2..] == [b, c];
  }

  function Tab(id: string, closable: bool): TabItem
  {
    TabItem(id, id, None, id, None, closable, [])
  }

  /** [Home (pinned), A, B] with B active: closing B activates A. */
  lemma CloseActiveExample()
    ensures var r := CloseTab(State([Tab("home", false), Tab("a", true), Tab("b", true)], Some("b"), 30), "b");
      Ids(r.state.tabs) == ["home", "a"] && r.state.activeTabId == Some("a") && r.intent == Some(ToPath("a", false))
  {
    var tabs := [Tab("home", false), Tab("a", true), Tab("b", true)];
    assert IndexOf(tabs, "b") == Some(2);
    assert IndexOf(RemoveAt(tabs, 2), "a") == Some(1);
  }
}

=== FILE: form_engine.dfy ===
/** The schema-driven form engine: default data, per-field validation with
    error flags, error-tab bookkeeping, submission gating and the validation
    summary.  Vuetify's own form validation, callbacks and timing are not
    part of this model; rules are pure. */
module FormEngine {
  import opened Common
  import opened Seqs
  import opened FormSchema

  // ---------------------------------------------------------- default data

  /** The initial value of an input: `false` for checkboxes and switches,
      '' for every other type. */
  function DefaultValue(kind: FieldType): (r: FormValue)
    ensures r == Bool(false) <==> kind == Checkbox || kind == Switch
    ensures r != Bool(false) ==> r == Str("")
  {
    if kind == Checkbox || kind == Switch then Bool(false) else Str("")
  }

  /** The fields of all tabs, in order. */
  function AllFields(tabs: seq<FormTab>): (r: seq<Field>)
  {
    if |tabs| == 0 then [] else AllFields(tabs[..|tabs| - 1]) + tabs[|tabs| - 1].fields
  }

  /** The position of the last input field with key `k`. */
  function LastInputWith(fields: seq<Field>, k: string): (r: Option<nat>)
    ensures r.Some? ==> r.value < |fields| && IsInput(fields[r.value]) && KeyOf(fields[r.value]) == Some(k)
    ensures r.Some? ==> forall j :: r.value < j < |fields| ==> !(IsInput(fields[j]) && KeyOf(fields[j]) == Some(k))
    ensures r.None? <==> forall j :: 0 <= j < |fields| ==> !(IsInput(fields[j]) && KeyOf(fields[j]) == Some(k))
  {
    if |fields| == 0 then None
    else if IsInput(fields[|fields| - 1]) && KeyOf(fields[|fields| - 1]) == Some(k) then Some(|fields| - 1)
    else LastInputWith(fields[..|fields| - 1], k)
  }

  /** The default data of a list of fields, assigned in order so that the
      last field with a key decides its default. */
  function DefaultsOf(fields: seq<Field>): (r: map<string, FormValue>)
    ensures forall k :: k in r <==> LastInputWith(fields, k).Some?
    ensures forall k :: k in r ==> r[k] == DefaultValue(fields[LastInputWith(fields, k).value].kind)
  {
    if |fields| == 0 then map[]
    else
      var init := fields[..|fields| - 1];
      var rest := DefaultsOf(init);
      var last := fields[|fields| - 1];
      assert forall j :: 0 <= j < |init| ==> init[j] == fields[j];
      if IsInput(last) then rest[KeyOf(last).value := DefaultValue(last.kind)] else rest
  }

  /** `initializeFormData()`: without tabs the data is left as it is;
      otherwise it becomes the defaults of every input of every tab. */
  function InitializeFormData(schema: Schema, data: map<string, FormValue>): (r: map<string, FormValue>)
    ensures schema.tabs.None? ==> r == data
    ensures schema.tabs.Some? ==> r == DefaultsOf(AllFields(schema.tabs.value))
  {
    match schema.tabs
    case None => data
    case Some(tabs) => DefaultsOf(AllFields(tabs))
  }

  // ------------------------------------------------------------ one field

  /** The verdict of `validateField` together with the updated flags. */
  datatype Checked = Checked(valid: bool, errors: Flags)

  /** `validateField(field, value)`: the verdict, with the field's flag set
      on failure and cleared (when it was set) on success; no other flag
      changes, and a field without a key or a layout element touches
      nothing. */
  function ValidateField(errors: Flags, field: Field, v: FormValue): (r: Checked)
    ensures r.valid == FieldValid(field, v)
    ensures !IsInput(field) ==> r.errors == errors
    ensures IsInput(field) ==> (Flag(r.errors, KeyOf(field).value) <==> !r.valid)
    ensures IsInput(field) ==> forall k :: k != KeyOf(field).value ==>
              (k in r.errors <==> k in errors) && (k in errors ==> r.errors[k] == errors[k])
    ensures r.valid ==> forall k :: Flag(r.errors, k) ==> Flag(errors, k)
  {
    var valid := FieldValid(field, v);
    if !IsInput(field) then Checked(valid, errors)
    else
      var key := KeyOf(field).value;
      if !valid then Checked(false, errors[key := true])
      else if Flag(errors, key) then Checked(true, errors[key := false])
      else Checked(true, errors)
  }

  // ------------------------------------------------------------ error tabs

  /** `updateErrorTabs()`: the indices of the tabs with a flagged field. */
  function UpdateErrorTabs(schema: Schema, errors: Flags): (r: seq<nat>)
    ensures forall i, j :: 0 <= i < j < |r| ==> r[i] < r[j]
    ensures forall i :: 0 <= i < |r| ==> r[i] < |TabsOf(schema)| && TabFlagged(TabsOf(schema)[r[i]], errors)
    ensures forall k :: 0 <= k < |TabsOf(schema)| && TabFlagged(TabsOf(schema)[k], errors) ==> k in r
  {
    TrueIndices(FlaggedMarks(TabsOf(schema), errors))
  }

  /** For each tab, whether one of its keyed fields is flagged. */
  function FlaggedMarks(tabs: seq<FormTab>, errors: Flags): (r: seq<bool>)
    ensures |r| == |tabs|
    ensures forall i :: 0 <= i < |tabs| ==> (r[i] <==> TabFlagged(tabs[i], errors))
  {
    seq(|tabs|, i requires 0 <= i < |tabs| => TabFlagged(tabs[i], errors))
  }

  /** For each tab, whether it holds an invalid field. */
  function InvalidMarks(tabs: seq<FormTab>, data: map<string, FormValue>): (r: seq<bool>)
    ensures |r| == |tabs|
    ensures forall i :: 0 <= i < |tabs| ==> (r[i] <==> !TabValid(tabs[i], data))
  {
    seq(|tabs|, i requires 0 <= i < |tabs| => !TabValid(tabs[i], data))
  }

  /** The indices of the tabs holding an invalid field. */
  function InvalidTabs(tabs: seq<FormTab>, data: map<string, FormValue>): (r: seq<nat>)
    ensures forall i, j :: 0 <= i < j < |r| ==> r[i] < r[j]
    ensures forall i :: 0 <= i < |r| ==> r[i] < |tabs| && !TabValid(tabs[r[i]], data)
    ensures forall k :: 0 <= k < |tabs| && !TabValid(tabs[k], data) ==> k in r
  {
    TrueIndices(InvalidMarks(tabs, data))
  }

  // ------------------------------------------------------------ the form

  datatype FormState = FormState(
    data: map<string, FormValue>,
    errors: Flags,
    errorTabs: seq<nat>,
    currentTab: int,
    userInteracted: bool)

  /** The flag of every input among `fields` records its verdict. */
  ghost predicate FieldFlagsMatch(fields: seq<Field>, errors: Flags, data: map<string, FormValue>)
  {
    forall j :: 0 <= j < |fields| && IsInput(fields[j]) ==>
      (Flag(errors, KeyOf(fields[j]).value) <==> !FieldValidIn(fields[j], data))
  }

  /** The flag of every input of the first `n` tabs records its verdict. */
  ghost predicate TabFlagsMatch(tabs: seq<FormTab>, n: nat, errors: Flags, data: map<string, FormValue>)
    requires n <= |tabs|
  {
    forall a :: 0 <= a < n ==> FieldFlagsMatch(tabs[a].fields, errors, data)
  }

  /** Flags outside the keys of `fields` are unchanged. */
  ghost predicate SameOutside(fields: seq<Field>, before: Flags, after: Flags)
  {
    forall k :: (forall j :: 0 <= j < |fields| ==> KeyOf(fields[j]) != Some(k)) ==>
      (k in after <==> k in before) && (k in before ==> after[k] == before[k])
  }

  /** Some input among the first `n` of `fields` has key `k`. */
  ghost predicate InputKeyBefore(fields: seq<Field>, n: nat, k: string)
  {
    exists j :: 0 <= j < n && j < |fields| && IsInput(fields[j]) && KeyOf(fields[j]) == Some(k)
  }

  /** Some input of the first `n` tabs has key `k`. */
  ghost predicate InputKeyInTabs(tabs: seq<FormTab>, n: nat, k: string)
  {
    exists a :: 0 <= a < n && a < |tabs| && InputKeyBefore(tabs[a].fields, |tabs[a].fields|, k)
  }

  /** Every flag set in `errors` belongs to an input of the first `n` tabs. */
  ghost predicate FlagsOnInputs(tabs: seq<FormTab>, n: nat, errors: Flags)
  {
    forall k :: Flag(errors, k) ==> InputKeyInTabs(tabs, n, k)
  }

  /** Every flag set in `after` but not in `before` belongs to an input of
      `fields`. */
  ghost predicate NewFlagsOnInputs(fields: seq<Field>, before: Flags, after: Flags)
  {
    forall k :: Flag(after, k) ==> Flag(before, k) || InputKeyBefore(fields, |fields|, k)
  }

  /** Validating tab `t` only flags inputs of tab `t`. */
  lemma FlagsOnInputsStep(tabs: seq<FormTab>, t: nat, before: Flags, after: Flags)
    requires t < |tabs| && FlagsOnInputs(tabs, t, before)
    requires NewFlagsOnInputs(tabs[t].fields, before, after)
    ensures FlagsOnInputs(tabs, t + 1, after)
  {
    forall k | Flag(after, k) ensures InputKeyInTabs(tabs, t + 1, k) {
      if !Flag(before, k) {
        assert InputKeyBefore(tabs[t].fields, |tabs[t].fields|, k);
      } else {
        var a :| 0 <= a < t && a < |tabs| && InputKeyBefore(tabs[a].fields, |tabs[a].fields|, k);
      }
    }
  }

  /** The verdict on the first `i` fields. */
  ghost predicate VerdictSoFar(fields: seq<Field>, data: map<string, FormValue>, i: nat, hasError: bool)
    requires i <= |fields|
  {
    hasError <==> exists j :: 0 <= j < i && !FieldValidIn(fields[j], data)
  }

  /** Flags of keys outside the first `i` fields are untouched. */
  ghost predicate OutsideSoFar(fields: seq<Field>, errors: Flags, i: nat, out: Flags)
    requires i <= |fields|
  {
    forall k :: (forall j :: 0 <= j < i ==> KeyOf(fields[j]) != Some(k)) ==>
      (k in out <==> k in errors) && (k in errors ==> out[k] == errors[k])
  }

  /** Under unique keys, the flag of each of the first `i` inputs records
      its verdict. */
  ghost predicate MatchSoFar(fields: seq<Field>, data: map<string, FormValue>, i: nat, out: Flags)
    requires i <= |fields|
  {
    UniqueKeysIn(fields) ==> forall j :: 0 <= j < i && IsInput(fields[j]) ==>
      (Flag(out, KeyOf(fields[j]).value) <==> !FieldValidIn(fields[j], data))
  }

  /** While everything is valid, no flag has been set. */
  ghost predicate QuietSoFar(errors: Flags, hasError: bool, out: Flags)
  {
    !hasError ==> forall k :: Flag(out, k) ==> Flag(errors, k)
  }

  /** New flags only on the first `i` inputs. */
  ghost predicate OnInputsSoFar(fields: seq<Field>, errors: Flags, i: nat, out: Flags)
  {
    forall k :: Flag(out, k) ==> Flag(errors, k) || InputKeyBefore(fields, i, k)
  }

  /** What validating one keyed or unkeyed field does to the verdict and
      the flags. */
  ghost predicate OneFieldStep(field: Field, data: map<string, FormValue>,
                               hasError: bool, out: Flags, hasError': bool, out': Flags)
  {
    && (hasError' <==> hasError || !FieldValidIn(field, data))
    && (forall k :: KeyOf(field) != Some(k) ==>
          (k in out' <==> k in out) && (k in out ==> out'[k] == out[k]))
    && (IsInput(field) ==> (Flag(out', KeyOf(field).value) <==> !FieldValidIn(field, data)))
    && (FieldValidIn(field, data) ==> forall k :: Flag(out', k) ==> Flag(out, k))
    && (forall k :: Flag(out', k) ==> Flag(out, k) || (IsInput(field) && KeyOf(field) == Some(k)))
  }

  lemma VerdictStep(fields: seq<Field>, data: map<string, FormValue>, i: nat,
                    hasError: bool, out: Flags, hasError': bool, out': Flags)
    requires i < |fields| && VerdictSoFar(fields, data, i, hasError)
    requires OneFieldStep(fields[i], data, hasError, out, hasError', out')
    ensures VerdictSoFar(fields, data, i + 1, hasError')
  {
  }

  lemma OutsideStep(fields: seq<Field>, errors: Flags, data: map<string, FormValue>, i: nat,
                    hasError: bool, out: Flags, hasError': bool, out': Flags)
    requires i < |fields| && OutsideSoFar(fields, errors, i, out)
    requires OneFieldStep(fields[i], data, hasError, out, hasError', out')
    ensures OutsideSoFar(fields, errors, i + 1, out')
  {
    forall k | forall j :: 0 <= j < i + 1 ==> KeyOf(fields[j]) != Some(k)
      ensures (k in out' <==> k in errors) && (k in errors ==> out'[k] == errors[k])
    {
      assert KeyOf(fields[i]) != Some(k);
    }
  }

  lemma MatchStep(fields: seq<Field>, data: map<string, FormValue>, i: nat,
                  hasError: bool, out: Flags, hasError': bool, out': Flags)
    requires i < |fields| && MatchSoFar(fields, data, i, out)
    requires OneFieldStep(fields[i], data, hasError, out, hasError', out')
    ensures MatchSoFar(fields, data, i + 1, out')
  {
    if UniqueKeysIn(fields) {
      forall j | 0 <= j < i + 1 && IsInput(fields[j])
        ensures Flag(out', KeyOf(fields[j]).value) <==> !FieldValidIn(fields[j], data)
      {
        if j < i {
          assert KeyOf(fields[i]) != KeyOf(fields[j]);
        }
      }
    }
  }

  lemma QuietStep(fields: seq<Field>, errors: Flags, data: map<string, FormValue>, i: nat,
                  hasError: bool, out: Flags, hasError': bool, out': Flags)
    requires i < |fields| && QuietSoFar(errors, hasError, out)
    requires OneFieldStep(fields[i], data, hasError, out, hasError', out')
    ensures QuietSoFar(errors, hasError', out')
  {
  }

  lemma OnInputsStep(fields: seq<Field>, errors: Flags, data: map<string, FormValue>, i: nat,
                     hasError: bool, out: Flags, hasError': bool, out': Flags)
    requires i < |fields| && OnInputsSoFar(fields, errors, i, out)
    requires OneFieldStep(fields[i], data, hasError, out, hasError', out')
    ensures OnInputsSoFar(fields, errors, i + 1, out')
  {
    forall k | Flag(out', k) ensures Flag(errors, k) || InputKeyBefore(fields, i + 1, k) {
      if !Flag(out, k) {
        assert IsInput(fields[i]) && KeyOf(fields[i]) == Some(k);
      } else if !Flag(errors, k) {
        var j :| 0 <= j < i && j < |fields| && IsInput(fields[j]) && KeyOf(fields[j]) == Some(k);
      }
    }
  }

  /** Validate field `i` of a tab against the data. */
  method ValidateTabField(field: Field, data: map<string, FormValue>, hasError: bool, out: Flags)
    returns (hasError': bool, out': Flags)
    ensures OneFieldStep(field, data, hasError, out, hasError', out')
  {
    hasError', out' := hasError, out;
    if KeyOf(field).Some? {
      var checked := ValidateField(out, field, Lookup(data, KeyOf(field).value));
      assert checked.valid == FieldValidIn(field, data);
      out' := checked.errors;
      if !checked.valid {
        hasError' := true;
      }
    }
  }

  /** Validate the fields of one tab in order. */
  method ValidateTab(fields: seq<Field>, data: map<string, FormValue>, errors: Flags)
    returns (hasError: bool, out: Flags)
    ensures hasError <==> exists j :: 0 <= j < |fields| && !FieldValidIn(fields[j], data)
    ensures SameOutside(fields, errors, out)
    ensures UniqueKeysIn(fields) ==> FieldFlagsMatch(fields, out, data)
    ensures !hasError ==> forall k :: Flag(out, k) ==> Flag(errors, k)
    ensures NewFlagsOnInputs(fields, errors, out)
  {
    hasError := false;
    out := errors;
    var i := 0;
    while i < |fields|
      invariant 0 <= i <= |fields|
      invariant VerdictSoFar(fields, data, i, hasError)
      invariant OutsideSoFar(fields, errors, i, out)
      invariant MatchSoFar(fields, data, i, out)
      invariant QuietSoFar(errors, hasError, out)
      invariant OnInputsSoFar(fields, errors, i, out)
    {
      var hasError', out' := ValidateTabField(fields[i], data, hasError, out);
      VerdictStep(fields, data, i, hasError, out, hasError', out');
      OutsideStep(fields, errors, data, i, hasError, out, hasError', out');
      MatchStep(fields, data, i, hasError, out, hasError', out');
      QuietStep(fields, errors, data, i, hasError, out, hasError', out');
      OnInputsStep(fields, errors, data, i, hasError, out, hasError', out');
      hasError, out := hasError', out';
      i := i + 1;
    }
  }

  /** What validating the first `t` tabs has established: the verdict so
      far, the error tabs so far, no flag when valid, every flag of those
      tabs matching its verdict (under unique keys), and flags only on
      inputs. */
  ghost predicate TabsProgress(tabs: seq<FormTab>, data: map<string, FormValue>, t: nat,
                               valid: bool, errors: Flags, errorTabs: seq<nat>)
    requires t <= |tabs|
  {
    && (valid <==> forall i :: 0 <= i < t ==> TabValid(tabs[i], data))
    && errorTabs == TrueIndices(InvalidMarks(tabs, data)[..t])
    && (valid ==> forall k :: !Flag(errors, k))
    && (UniqueFieldKeys(tabs) ==> TabFlagsMatch(tabs, t, errors, data))
    && FlagsOnInputs(tabs, t, errors)
  }

  /** Validate tab `t` and record it among the error tabs when it holds an
      invalid field. */
  method ValidateTabStep(tabs: seq<FormTab>, data: map<string, FormValue>, t: nat,
                         valid: bool, errors: Flags, errorTabs: seq<nat>)
    returns (valid': bool, errors': Flags, errorTabs': seq<nat>)
    requires t < |tabs| && TabsProgress(tabs, data, t, valid, errors, errorTabs)
    ensures TabsProgress(tabs, data, t + 1, valid', errors', errorTabs')
  {
    var hasError;
    hasError, errors' := ValidateTab(tabs[t].fields, data, errors);
    FlagsOnInputsStep(tabs, t, errors, errors');
    if UniqueFieldKeys(tabs) {
      UniqueAcrossTabs(tabs, t, errors, errors', data);
    }
    TrueIndicesSnoc(InvalidMarks(tabs, data), t);
    errorTabs' := if hasError then errorTabs + [t] else errorTabs;
    valid' := valid && !hasError;
  }

  /** Every tab validated in order, with the indices of the tabs that hold
      an invalid field. */
  method ValidateTabs(tabs: seq<FormTab>, data: map<string, FormValue>)
    returns (valid: bool, errors: Flags, errorTabs: seq<nat>)
    ensures valid <==> forall i :: 0 <= i < |tabs| ==> TabValid(tabs[i], data)
    ensures errorTabs == InvalidTabs(tabs, data)
    ensures valid ==> forall k :: !Flag(errors, k)
    ensures UniqueFieldKeys(tabs) ==> TabFlagsMatch(tabs, |tabs|, errors, data)
    ensures FlagsOnInputs(tabs, |tabs|, errors)
  {
    errors := map[];
    errorTabs := [];
    valid := true;
    var t := 0;
    while t < |tabs|
      invariant 0 <= t <= |tabs|
      invariant TabsProgress(tabs, data, t, valid, errors, errorTabs)
    {
      valid, errors, errorTabs := ValidateTabStep(tabs, data, t, valid, errors, errorTabs);
      t := t + 1;
    }
    assert InvalidMarks(tabs, data)[..|tabs|] == InvalidMarks(tabs, data);
  }

  /** The effect of `validateAllFields()`: the verdict, the new state, and
      the flags handed to `onError` when it is called. */
  datatype Validation = Validation(valid: bool, state: FormState, onError: Option<Flags>)

  /** `validateAllFields()`: clear the flags and error tabs, validate every
      keyed field tab by tab, record each tab holding an invalid field, move
      to the first error tab when the current one has none, and report the
      flags to `onError` when the form is invalid. */
  method ValidateAllFields(schema: Schema, st: FormState) returns (r: Validation)
    ensures r.valid <==> forall i :: 0 <= i < |TabsOf(schema)| ==> TabValid(TabsOf(schema)[i], st.data)
    ensures r.state.data == st.data && r.state.userInteracted
    ensures r.state.errorTabs == InvalidTabs(TabsOf(schema), st.data)
    ensures !r.valid ==> |r.state.errorTabs| > 0
    ensures r.state.currentTab ==
              if !r.valid && st.currentTab !in r.state.errorTabs then r.state.errorTabs[0] else st.currentTab
    ensures r.onError == if r.valid then None else Some(r.state.errors)
    ensures r.valid ==> forall k :: !Flag(r.state.errors, k)
    ensures UniqueFieldKeys(TabsOf(schema)) ==> TabFlagsMatch(TabsOf(schema), |TabsOf(schema)|, r.state.errors, st.data)
    ensures UniqueFieldKeys(TabsOf(schema)) ==> (r.valid <==> IsFormValid(r.state.errors))
    ensures UniqueFieldKeys(TabsOf(schema)) ==> UpdateErrorTabs(schema, r.state.errors) == r.state.errorTabs
  {
    var tabs := TabsOf(schema);
    var valid, errors, errorTabs := ValidateTabs(tabs, st.data);
    if UniqueFieldKeys(tabs) {
      ErrorTabsAgree(schema, errors, st.data);
    }
    var current := st.currentTab;
    if !valid {
      var i :| 0 <= i < |tabs| && !TabValid(tabs[i], st.data);
      assert i in errorTabs;
      if UniqueFieldKeys(tabs) {
        var j :| 0 <= j < |tabs[i].fields| && !FieldValidIn(tabs[i].fields[j], st.data);
        assert FieldFlagsMatch(tabs[i].fields, errors, st.data);
        assert Flag(errors, KeyOf(tabs[i].fields[j]).value);
      }
      if current !in errorTabs {
        current := errorTabs[0];
      }
    }
    if valid {
      forall k | k in errors ensures !errors[k] { assert !Flag(errors, k); }
    }
    var state := FormState(st.data, errors, errorTabs, current, true);
    r := Validation(valid, state, if valid then None else Some(errors));
  }

  /** `handleSubmit()`: validate, and hand the data to `onSubmit` only when
      the form is valid. */
  method HandleSubmit(schema: Schema, st: FormState) returns (r: Validation, submitted: Option<map<string, FormValue>>)
    ensures submitted.Some? <==> r.valid
    ensures submitted.Some? ==> submitted.value == st.data
    ensures r.valid <==> forall i :: 0 <= i < |TabsOf(schema)| ==> TabValid(TabsOf(schema)[i], st.data)
  {
    r := ValidateAllFields(schema, st);
    submitted := if r.valid then Some(st.data) else None;
  }

  /** `resetFormErrors()`. */
  function ResetFormErrors(st: FormState): (r: FormState)
    ensures r.errors == map[] && r.errorTabs == []
    ensures r.data == st.data && r.currentTab == st.currentTab && r.userInteracted == st.userInteracted
  {
    st.(errors := map[], errorTabs := [])
  }

  /** `resetForm()`: no errors, no interaction, and default data again. */
  function ResetForm(schema: Schema, st: FormState): (r: FormState)
    ensures r.errors == map[] && r.errorTabs == [] && !r.userInteracted
    ensures r.data == InitializeFormData(schema, st.data) && r.currentTab == st.currentTab
  {
    ResetFormErrors(st).(userInteracted := false, data := InitializeFormData(schema, st.data))
  }

  /** `handleFieldChange(field, prev, next)`: store the value under the
      field's key and, when validation on change is on, re-validate that
      field and recompute the error tabs. */
  function HandleFieldChange(schema: Schema, st: FormState, field: Field, v: FormValue, validateOnChange: bool): (r: FormState)
    ensures r.userInteracted && r.currentTab == st.currentTab
    ensures KeyOf(field).None? ==> r == st.(userInteracted := true)
    ensures KeyOf(field).Some? ==> r.data == st.data[KeyOf(field).value := v]
    ensures KeyOf(field).Some? && !validateOnChange ==> r.errors == st.errors && r.errorTabs == st.errorTabs
    ensures KeyOf(field).Some? && validateOnChange ==>
              && r.errors == ValidateField(st.errors, field, v).errors
              && r.errorTabs == UpdateErrorTabs(schema, r.errors)
  {
    match KeyOf(field)
    case None => st.(userInteracted := true)
    case Some(key) =>
      var data := st.data[key := v];
      if validateOnChange then
        var errors := ValidateField(st.errors, field, v).errors;
        FormState(data, errors, UpdateErrorTabs(schema, errors), st.currentTab, true)
      else st.(data := data, userInteracted := true)
  }

  // ------------------------------------------------------------ summary

  /** `isFormValid`: no flag is set. */
  predicate IsFormValid(errors: Flags)
  {
    forall k :: k in errors ==> !errors[k]
  }

  /** `hasErrors`: some flag is set. */
  predicate HasErrors(errors: Flags)
  {
    exists k :: k in errors && errors[k]
  }

  /** The keys whose flag is set. */
  function FlaggedKeys(errors: Flags): (r: set<string>)
    ensures forall k :: k in r <==> Flag(errors, k)
  {
    set k | k in errors && errors[k]
  }

  /** The number of inputs in a list of fields. */
  function InputCount(fields: seq<Field>): (n: nat)
    ensures n <= |fields|
    ensures n == 0 <==> forall j :: 0 <= j < |fields| ==> !IsInput(fields[j])
  {
    if |fields| == 0 then 0
    else InputCount(fields[..|fields| - 1]) + (if IsInput(fields[|fields| - 1]) then 1 else 0)
  }

  /** `totalFieldsCount`: the inputs of all tabs, 0 without tabs. */
  function TotalFieldsCount(schema: Schema): (n: nat)
    ensures schema.tabs.None? ==> n == 0
    ensures n == InputCount(AllFields(TabsOf(schema)))
  {
    var tabs := TabsOf(schema);
    InputCountAll(tabs);
    SumInputs(tabs)
  }

  /** The per-tab sum of input counts that `reduce` computes. */
  function SumInputs(tabs: seq<FormTab>): nat
  {
    if |tabs| == 0 then 0 else SumInputs(tabs[..|tabs| - 1]) + InputCount(tabs[|tabs| - 1].fields)
  }

  lemma {:induction false} InputCountAppend(a: seq<Field>, b: seq<Field>)
    ensures InputCount(a + b) == InputCount(a) + InputCount(b)
  {
    if |b| > 0 {
      InputCountAppend(a, b[..|b| - 1]);
      assert (a + b)[..|a + b| - 1] == a + b[..|b| - 1];
    } else {
      assert a + b == a;
    }
  }

  /** Counting per tab and counting over all fields agree. */
  lemma {:induction false} InputCountAll(tabs: seq<FormTab>)
    ensures SumInputs(tabs) == InputCount(AllFields(tabs))
  {
    if |tabs| > 0 {
      InputCountAll(tabs[..|tabs| - 1]);
      InputCountAppend(AllFields(tabs[..|tabs| - 1]), tabs[|tabs| - 1].fields);
    }
  }

  datatype Summary = Summary(totalFields: int, validFields: int, errorFields: int, errorTabs: seq<nat>, isValid: bool)

  /** `getValidationSummary()`. */
  function GetValidationSummary(schema: Schema, st: FormState): (r: Summary)
    ensures r.totalFields == TotalFieldsCount(schema)
    ensures r.errorFields == |FlaggedKeys(st.errors)|
    ensures r.validFields + r.errorFields == r.totalFields
    ensures r.errorTabs == st.errorTabs
    ensures r.isValid <==> IsFormValid(st.errors)
    ensures r.isValid <==> !HasErrors(st.errors)
  {
    var total := TotalFieldsCount(schema);
    var flagged := FlaggedKeys(st.errors);
    assert IsFormValid(st.errors) ==> |flagged| == 0 by {
      if |flagged| != 0 {
        var k :| k in flagged;
        assert Flag(st.errors, k);
      }
    }
    assert !IsFormValid(st.errors) ==> |flagged| != 0 by {
      if !IsFormValid(st.errors) {
        var k :| k in st.errors && st.errors[k];
        assert k in flagged;
      }
    }
    Summary(total, total - |flagged|, |flagged|, st.errorTabs, |flagged| == 0)
  }

  /** Under schema-wide unique keys, once every input's flag records its
      verdict and only inputs are flagged, a tab is flagged exactly when it
      holds an invalid field. */
  lemma FlaggedIffInvalid(tabs: seq<FormTab>, errors: Flags, data: map<string, FormValue>)
    requires UniqueFieldKeys(tabs)
    requires TabFlagsMatch(tabs, |tabs|, errors, data)
    requires FlagsOnInputs(tabs, |tabs|, errors)
    ensures forall i :: 0 <= i < |tabs| ==> (TabFlagged(tabs[i], errors) <==> !TabValid(tabs[i], data))
  {
    forall i | 0 <= i < |tabs| ensures TabFlagged(tabs[i], errors) ==> !TabValid(tabs[i], data) {
      if TabFlagged(tabs[i], errors) {
        var j :| 0 <= j < |tabs[i].fields| && KeyOf(tabs[i].fields[j]).Some? && Flag(errors, KeyOf(tabs[i].fields[j]).value);
        var k := KeyOf(tabs[i].fields[j]).value;
        assert InputKeyInTabs(tabs, |tabs|, k);
        var a :| 0 <= a < |tabs| && InputKeyBefore(tabs[a].fields, |tabs[a].fields|, k);
        var b :| 0 <= b < |tabs[a].fields| && IsInput(tabs[a].fields[b]) && KeyOf(tabs[a].fields[b]) == Some(k);
        assert (a, b) == (i, j);
        assert FieldFlagsMatch(tabs[i].fields, errors, data);
        assert !FieldValidIn(tabs[i].fields[j], data);
      }
    }
    forall i | 0 <= i < |tabs| ensures !TabValid(tabs[i], data) ==> TabFlagged(tabs[i], errors) {
      if !TabValid(tabs[i], data) {
        var j :| 0 <= j < |tabs[i].fields| && !FieldValidIn(tabs[i].fields[j], data);
        assert FieldFlagsMatch(tabs[i].fields, errors, data);
        assert Flag(errors, KeyOf(tabs[i].fields[j]).value);
      }
    }
  }

  /** Under the same conditions, recomputing the error tabs from the flags
      gives the tabs that hold an invalid field. */
  lemma ErrorTabsAgree(schema: Schema, errors: Flags, data: map<string, FormValue>)
    requires UniqueFieldKeys(TabsOf(schema))
    requires TabFlagsMatch(TabsOf(schema), |TabsOf(schema)|, errors, data)
    requires FlagsOnInputs(TabsOf(schema), |TabsOf(schema)|, errors)
    ensures UpdateErrorTabs(schema, errors) == InvalidTabs(TabsOf(schema), data)
  {
    FlaggedIffInvalid(TabsOf(schema), errors, data);
    assert FlaggedMarks(TabsOf(schema), errors) == InvalidMarks(TabsOf(schema), data);
  }

  /** One tab's validation under schema-wide unique keys: the tab's own
      keys are unique, and the verdicts already recorded for the earlier tabs
      survive. */
  lemma UniqueAcrossTabs(tabs: seq<FormTab>, t: nat, before: Flags, after: Flags, data: map<string, FormValue>)
    requires t < |tabs| && UniqueFieldKeys(tabs)
    requires SameOutside(tabs[t].fields, before, after)
    requires TabFlagsMatch(tabs, t, before, data)
    requires UniqueKeysIn(tabs[t].fields) ==> FieldFlagsMatch(tabs[t].fields, after, data)
    ensures TabFlagsMatch(tabs, t + 1, after, data)
  {
    forall i, j | 0 <= i < |tabs[t].fields| && 0 <= j < |tabs[t].fields| && i != j
        && KeyOf(tabs[t].fields[i]).Some? && KeyOf(tabs[t].fields[j]).Some?
      ensures KeyOf(tabs[t].fields[i]).value != KeyOf(tabs[t].fields[j]).value
    {
      assert (t, i) != (t, j);
    }
    forall a | 0 <= a < t ensures FieldFlagsMatch(tabs[a].fields, after, data) {
      forall b | 0 <= b < |tabs[a].fields| && IsInput(tabs[a].fields[b])
        ensures Flag(after, KeyOf(tabs[a].fields[b]).value) <==> !FieldValidIn(tabs[a].fields[b], data)
      {
        var k := KeyOf(tabs[a].fields[b]).value;
        forall j | 0 <= j < |tabs[t].fields| ensures KeyOf(tabs[t].fields[j]) != Some(k) {
          assert (a, b) != (t, j);
        }
        assert FieldFlagsMatch(tabs[a].fields, before, data);
      }
    }
  }
}

=== FILE: form_labels.dfy ===
/** The label helpers of the core form utilities. */
module FormUtils {
  import opened Common
  import opened Text

  /** `formatLabel({ label, isRequired = false })`: a required label gets a
      trailing " *". */
  function FormatLabel(text: string, isRequired: Option<bool>): (r: string)
    ensures isRequired.GetOr(false) ==> r == text + " *"
    ensures !isRequired.GetOr(false) ==> r == text
  {
    text + (if isRequired.GetOr(false) then " *" else "")
  }

  /** `s.replace(/\s+/g, '.')`: each maximal run of whitespace becomes one
      dot. */
  function DotSpaces(s: string): (r: string)
    ensures forall i :: 0 <= i < |r| ==> !IsSpace(r[i])
    ensures (forall i :: 0 <= i < |s| ==> !IsUpper(s[i])) ==> forall i :: 0 <= i < |r| ==> !IsUpper(r[i])
    ensures (forall i :: 0 <= i < |s| ==> !IsSpace(s[i])) ==> r == s
    ensures |s| > 0 && !IsSpace(s[0]) ==> |r| > 0 && r[0] == s[0]
    decreases |s|
  {
    if |s| == 0 then ""
    else if IsSpace(s[0]) then
      var n := LeadingSpaces(s);
      "." + DotSpaces(s[n..])
    else [s[0]] + DotSpaces(s[1..])
  }

  /** `formatOptionLabel(label)`: trimmed, lower-cased, and with every run of
      inner whitespace turned into a dot ("option ONE" gives "option.one"). */
  function FormatOptionLabel(text: string): (r: string)
    ensures forall i :: 0 <= i < |r| ==> !IsSpace(r[i]) && !IsUpper(r[i])
  {
    DotSpaces(Lower(Trim(text)))
  }
}

/** The duplicate label helper of the application form components. */
module AppFormHelper {
  import opened Common

  /** `formatLabel({ label, isRequired = false })`. */
  function FormatLabel(text: string, isRequired: Option<bool>): (r: string)
    ensures |r| >= |text| && r[..|text|] == text
    ensures isRequired.GetOr(false) ==> |r| == |text| + 2 && r[|text|..] == " *"
    ensures !isRequired.GetOr(false) ==> r == text
  {
    text + (if isRequired.GetOr(false) then " *" else "")
  }
}

=== FILE: form_labels_props.dfy ===
/** Properties of the label helpers. */
module FormLabelsProps {
  import opened Common
  import opened Text
  import FormUtils
  import AppFormHelper

  /** The two `formatLabel` helpers are the same function. */
  lemma FormatLabelsAgree(text: string, isRequired: Option<bool>)
    ensures FormUtils.FormatLabel(text, isRequired) == AppFormHelper.FormatLabel(text, isRequired)
  {
  }

  /** Without `isRequired` the label is returned unchanged. */
  lemma FormatLabelDefault(text: string)
    ensures FormUtils.FormatLabel(text, None) == text
    ensures AppFormHelper.FormatLabel(text, None) == text
  {
  }

  /** A single space before a non-space becomes one dot. */
  lemma DotSpacesSpace(t: string)
    requires |t| > 0 && !IsSpace(t[0])
    ensures FormUtils.DotSpaces([' '] + t) == "." + FormUtils.DotSpaces(t)
  {
    var s := [' '] + t;
    assert s[1..] == t;
    assert LeadingSpaces(s) == 1;
  }

  /** A leading non-space character is kept. */
  lemma DotSpacesCons(w: string, t: string)
    requires |w| > 0 && !IsSpace(w[0])
    ensures FormUtils.DotSpaces(w + [' '] + t) == [w[0]] + FormUtils.DotSpaces(w[1..] + [' '] + t)
  {
    var s := w + [' '] + t;
    assert s[0] == w[0];
    assert s[1..] == w[1..] + [' '] + t;
  }

  lemma ConsAssoc(w: string, m: string, d: string)
    requires |w| > 0
    ensures [w[0]] + (w[1..] + m + d) == w + m + d
  {
    assert [w[0]] + w[1..] == w;
  }

  /** A word followed by one space and more text: the space becomes a dot. */
  lemma {:induction false} DotSpacesJoin(w: string, t: string)
    requires forall i :: 0 <= i < |w| ==> !IsSpace(w[i])
    requires |t| > 0 && !IsSpace(t[0])
    ensures FormUtils.DotSpaces(w + [' '] + t) == w + "." + FormUtils.DotSpaces(t)
    decreases |w|
  {
    if |w| == 0 {
      assert w + [' '] + t == [' '] + t;
      DotSpacesSpace(t);
    } else {
      var w' := w[1..];
      forall i | 0 <= i < |w'| ensures !IsSpace(w'[i]) {
        assert w'[i] == w[i + 1];
      }
      var d := FormUtils.DotSpaces(t);
      calc {
        FormUtils.DotSpaces(w + [' '] + t);
        { DotSpacesCons(w, t); }
        [w[0]] + FormUtils.DotSpaces(w' + [' '] + t);
        { DotSpacesJoin(w', t); }
        [w[0]] + (w' + "." + d);
        { ConsAssoc(w, ".", d); }
        w + "." + d;
      }
    }
  }

  /** `formatOptionLabel` of two words separated by a space (as in
      "Option ONE", which gives "option.one"): both words are lower-cased
      and the space becomes a dot. */
  lemma FormatOptionLabelTwoWords(w: string, u: string)
    requires |w| > 0 && |u| > 0
    requires forall i :: 0 <= i < |w| ==> !IsSpace(w[i])
    requires forall i :: 0 <= i < |u| ==> !IsSpace(u[i])
    ensures FormUtils.FormatOptionLabel(w + " " + u) == Lower(w) + "." + Lower(u)
  {
    var s := w + " " + u;
    assert s[0] == w[0] && s[|s| - 1] == u[|u| - 1];
    assert Trim(s) == s;
    LowerAppend(w + " ", u);
    LowerAppend(w, " ");
    assert Lower(" ") == " ";
    var lw, lu := Lower(w), Lower(u);
    forall i | 0 <= i < |lw| ensures !IsSpace(lw[i]) {
      assert lw[i] == LowerChar(w[i]);
    }
    forall i | 0 <= i < |lu| ensures !IsSpace(lu[i]) {
      assert lu[i] == LowerChar(u[i]);
    }
    assert Lower(s) == lw + [' '] + lu;
    DotSpacesJoin(lw, lu);
  }

  /** Formatting an option label twice changes nothing more. */
  lemma FormatOptionLabelIdempotent(text: string)
    ensures FormUtils.FormatOptionLabel(FormUtils.FormatOptionLabel(text)) == FormUtils.FormatOptionLabel(text)
  {
    var r := FormUtils.FormatOptionLabel(text);
    assert Trim(r) == r;
    assert Lower(r) == r by {
      forall i | 0 <= i < |r| ensures Lower(r)[i] == r[i] {
        assert !IsUpper(r[i]);
      }
    }
  }
}

=== FILE: form_props.dfy ===
/** Properties of the form engine and the rule-list composition. */
module FormProps {
  import opened Common
  import Seqs
  import opened FormSchema
  import opened FormEngine
  import opened FormRules

  // ---------------------------------------------------------- default data

  /** With unique keys, every input gets the default of its own type. */
  lemma DefaultOfUniqueInput(fields: seq<Field>, j: nat)
    requires UniqueKeysIn(fields)
    requires j < |fields| && IsInput(fields[j])
    ensures KeyOf(fields[j]).value in DefaultsOf(fields)
    ensures DefaultsOf(fields)[KeyOf(fields[j]).value] == DefaultValue(fields[j].kind)
  {
    var k := KeyOf(fields[j]).value;
    assert LastInputWith(fields, k) == Some(j);
  }

  /** The defaults hold a key exactly when some input carries it. */
  lemma DefaultsOnlyForInputs(fields: seq<Field>, k: string)
    ensures k in DefaultsOf(fields) <==> exists j :: 0 <= j < |fields| && IsInput(fields[j]) && KeyOf(fields[j]) == Some(k)
  {
  }

  /** Initialising the data twice gives what initialising once gives. */
  lemma InitializeFormDataIdempotent(schema: Schema, data: map<string, FormValue>)
    ensures InitializeFormData(schema, InitializeFormData(schema, data)) == InitializeFormData(schema, data)
  {
  }

  // ------------------------------------------------------------ one field

  /** Validating a field again with the same value changes nothing more. */
  lemma ValidateFieldIdempotent(errors: Flags, field: Field, v: FormValue)
    ensures ValidateField(ValidateField(errors, field, v).errors, field, v) == ValidateField(errors, field, v)
  {
    var once := ValidateField(errors, field, v);
    var twice := ValidateField(once.errors, field, v);
    if IsInput(field) {
      var key := KeyOf(field).value;
      assert twice.errors.Keys == once.errors.Keys;
      assert forall k :: k in twice.errors ==> twice.errors[k] == once.errors[k];
    }
  }

  /** A required input with an empty value fails and is flagged. */
  lemma RequiredEmptyFails(errors: Flags, field: Field, v: FormValue)
    requires IsInput(field) && field.required && IsEmpty(v)
    ensures !ValidateField(errors, field, v).valid
    ensures Flag(ValidateField(errors, field, v).errors, KeyOf(field).value)
  {
  }

  /** Custom rules are skipped for the empty string: an optional input
      holding '' is valid whatever its rules say. */
  lemma EmptyOptionalPasses(errors: Flags, field: Field)
    requires IsInput(field) && !field.required
    ensures ValidateField(errors, field, Str("")).valid
    ensures !Flag(ValidateField(errors, field, Str("")).errors, KeyOf(field).value)
  {
  }

  /** A custom rule that does not return `true` on a present value makes
      the field fail. */
  lemma FailingRuleFails(errors: Flags, field: Field, v: FormValue, i: nat)
    requires IsInput(field) && RulesApply(v)
    requires i < |field.rules| && field.rules[i](v) != Pass
    ensures !ValidateField(errors, field, v).valid
  {
  }

  /** An optional email input without custom rules accepts a non-empty
      string exactly when it contains '@' and '.' and has at least five
      characters. */
  lemma EmailVerdict(errors: Flags, field: Field, s: string)
    requires IsInput(field) && field.kind == Email && !field.required && |field.rules| == 0
    requires s != ""
    ensures ValidateField(errors, field, Str(s)).valid <==> ('@' in s && '.' in s && |s| >= 5)
  {
  }

  /** Dividers, section headers and fields without a key are always valid
      and leave the flags alone. */
  lemma NonInputsPass(errors: Flags, field: Field, v: FormValue)
    requires !IsInput(field)
    ensures ValidateField(errors, field, v) == Checked(true, errors)
  {
  }

  // ------------------------------------------------------------ error tabs

  /** Without any flag set no tab is an error tab. */
  lemma NoFlagsNoErrorTabs(schema: Schema, errors: Flags)
    requires forall k :: !Flag(errors, k)
    ensures UpdateErrorTabs(schema, errors) == []
  {
    Seqs.TrueIndicesNone(FlaggedMarks(TabsOf(schema), errors));
  }

  /** After a change that makes a field of tab `i` invalid, tab `i` is an
      error tab. */
  lemma FieldChangeMarksTab(schema: Schema, st: FormState, i: nat, j: nat, v: FormValue)
    requires i < |TabsOf(schema)| && j < |TabsOf(schema)[i].fields|
    requires IsInput(TabsOf(schema)[i].fields[j])
    requires !FieldValid(TabsOf(schema)[i].fields[j], v)
    ensures i in HandleFieldChange(schema, st, TabsOf(schema)[i].fields[j], v, true).errorTabs
  {
    var field := TabsOf(schema)[i].fields[j];
    var r := HandleFieldChange(schema, st, field, v, true);
    assert Flag(r.errors, KeyOf(field).value);
    assert TabFlagged(TabsOf(schema)[i], r.errors);
  }

  /** A change that makes a field valid clears its flag and no other. */
  lemma FieldChangeClearsFlag(schema: Schema, st: FormState, field: Field, v: FormValue, k: string)
    requires IsInput(field) && FieldValid(field, v)
    ensures !Flag(HandleFieldChange(schema, st, field, v, true).errors, KeyOf(field).value)
    ensures k != KeyOf(field).value ==>
              (Flag(HandleFieldChange(schema, st, field, v, true).errors, k) <==> Flag(st.errors, k))
  {
  }

  // ------------------------------------------------------------ summary

  /** `isFormValid` and `hasErrors` are each other's negation. */
  lemma ValidIffNoErrors(errors: Flags)
    ensures IsFormValid(errors) <==> !HasErrors(errors)
  {
  }

  /** After `resetFormErrors` the summary reports a valid form with every
      input counted as valid. */
  lemma SummaryAfterReset(schema: Schema, st: FormState)
    ensures GetValidationSummary(schema, ResetFormErrors(st)).isValid
    ensures GetValidationSummary(schema, ResetFormErrors(st)).errorFields == 0
    ensures GetValidationSummary(schema, ResetFormErrors(st)).validFields == TotalFieldsCount(schema)
    ensures GetValidationSummary(schema, ResetFormErrors(st)).errorTabs == []
  {
    assert FlaggedKeys(map[]) == {};
  }

  /** Resetting a form twice is the same as resetting it once. */
  lemma ResetFormIdempotent(schema: Schema, st: FormState)
    ensures ResetForm(schema, ResetForm(schema, st)) == ResetForm(schema, st)
  {
  }

  /** A schema without tabs counts no fields. */
  lemma NoTabsNoFields(st: FormState)
    ensures GetValidationSummary(Schema(None), st).totalFields == 0
  {
  }

  // ------------------------------------------------------------ rules

  /** The rule list depends only on `required`, `validate` and the type. */
  lemma TriggerRulesDependsOnFlags(f: Field, g: Field)
    requires f.required == g.required && f.hasValidate == g.hasValidate && f.kind == g.kind
    ensures TriggerRules(f) == TriggerRules(g)
  {
  }

  /** A required email field with `validate` set gets the required validator
      and then the email validator. */
  lemma RequiredEmailRules(f: Field)
    requires f.required && f.hasValidate && f.kind == Email
    ensures TriggerRules(f) == [RequiredValidator, EmailValidator]
  {
  }
}

=== FILE: form_rules.dfy ===
/** Rule-list composition for a form field: which of the shared validators
    a field gets. */
module FormRules {
  import opened FormSchema

  /** The shared validators, as tokens. */
  datatype Validator = RequiredValidator | EmailValidator | PasswordValidator

  /** `triggerRules(field)`: the required validator first when the field is
      required, then the email or password validator when `validate` is set
      on a field of that type. */
  function TriggerRules(field: Field): (r: seq<Validator>)
    ensures |r| <= 2
    ensures field.required <==> |r| > 0 && r[0] == RequiredValidator
    ensures RequiredValidator in r <==> field.required
    ensures EmailValidator in r <==> field.hasValidate && field.kind == Email
    ensures PasswordValidator in r <==> field.hasValidate && field.kind == Password
    ensures r == [] <==> !field.required && !(field.hasValidate && (field.kind == Email || field.kind == Password))
    ensures forall i, j :: 0 <= i < j < |r| ==> r[i] != r[j]
  {
    var required := if field.required then [RequiredValidator] else [];
    var typed :=
      if field.hasValidate && field.kind == Email then [EmailValidator]
      else if field.hasValidate && field.kind == Password then [PasswordValidator]
      else [];
    required + typed
  }
}

=== FILE: form_schema.dfy ===
/** The form engine's vocabulary: field types, values, fields with their
    custom rules, tabs and the schema, and the validity of one field. */
module FormSchema {
  import opened Common
  import opened Seqs
  import opened Text

  datatype FieldType =
    | Text | Number | Email | Password | Select | Radio | Date | Checkbox
    | Textarea | Switch | Divider | DividerDashed | SectionHeader

  /** Dividers and section headers carry no value. */
  predicate IsLayout(kind: FieldType)
  {
    kind == Divider || kind == DividerDashed || kind == SectionHeader
  }

  /** A value held in the form data; arrays are the string lists of
      multi-choice inputs. */
  datatype FormValue = Undefined | Null | Str(s: string) | Bool(b: bool) | Num(n: int) | Arr(items: seq<string>)

  /** JavaScript truthiness; an empty array is truthy. */
  predicate Truthy(v: FormValue)
  {
    match v
    case Undefined => false
    case Null => false
    case Str(s) => s != ""
    case Bool(b) => b
    case Num(n) => n != 0
    case Arr(_) => true
  }

  /** `String(v)`. */
  function JsString(v: FormValue): (r: string)
    ensures v.Str? ==> r == v.s
  {
    match v
    case Undefined => "undefined"
    case Null => "null"
    case Str(s) => s
    case Bool(b) => if b then "true" else "false"
    case Num(n) => IntToString(n)
    case Arr(items) => Join(items, ",")
  }

  /** What a custom rule gives back: `true`, anything else, or a throw. */
  datatype RuleOutcome = Pass | Fail(message: string) | Throws

  type Rule = FormValue -> RuleOutcome

  /** A schema field.  `value` is the key of the field in the form data,
      `labelText` its `label`;
      `hasValidate` says whether a `validate` function is set. */
  datatype Field = Field(
    kind: FieldType,
    value: Option<string>,
    labelText: string,
    required: bool,
    rules: seq<Rule>,
    hasValidate: bool)

  datatype FormTab = FormTab(title: string, fields: seq<Field>)

  /** `tabs` is optional in a schema. */
  datatype Schema = Schema(tabs: Option<seq<FormTab>>)

  type Flags = map<string, bool>

  /** The data key of a field, when `field.value` is truthy. */
  function KeyOf(field: Field): (r: Option<string>)
    ensures r.Some? <==> field.value.Some? && field.value.value != ""
    ensures r.Some? ==> r.value == field.value.value
  {
    if field.value.Some? && field.value.value != "" then field.value else None
  }

  /** A field that holds data: it has a key and is not a layout element. */
  predicate IsInput(field: Field)
  {
    KeyOf(field).Some? && !IsLayout(field.kind)
  }

  /** `formData[key]`: `undefined` for a missing key. */
  function Lookup(data: map<string, FormValue>, key: string): (r: FormValue)
    ensures key !in data ==> r == Undefined
    ensures key in data ==> r == data[key]
  {
    if key in data then data[key] else Undefined
  }

  /** `formErrors[key] === true`. */
  predicate Flag(errors: Flags, key: string)
  {
    key in errors && errors[key]
  }

  /** The value the required check treats as missing. */
  predicate IsEmpty(v: FormValue)
  {
    || v == Null || v == Undefined
    || (v.Str? && Trim(v.s) == "")
    || (v.Arr? && |v.items| == 0)
  }

  /** The first custom rule that does not return `true`; the rules after it
      are not run. */
  function FirstFailingRule(rules: seq<Rule>, v: FormValue): (r: Option<nat>)
    ensures r.Some? ==> r.value < |rules| && rules[r.value](v) != Pass
    ensures r.Some? ==> forall j :: 0 <= j < r.value ==> rules[j](v) == Pass
    ensures r.None? <==> forall j :: 0 <= j < |rules| ==> rules[j](v) == Pass
  {
    FindFirst(rules, (rule: Rule) => rule(v) != Pass)
  }

  /** Custom rules run only on a value that is not `null`, `undefined` or
      the empty string. */
  predicate RulesApply(v: FormValue)
  {
    v != Null && v != Undefined && v != Str("")
  }

  /** The email check on the string form of a value. */
  predicate EmailShaped(s: string)
  {
    '@' in s && '.' in s && |s| >= 5
  }

  /** The verdict of `validateField(field, value)`: a field without a key
      or a layout element is valid; otherwise the required check, the custom
      rules and the email check must all pass. */
  predicate FieldValid(field: Field, v: FormValue)
  {
    !IsInput(field)
    || (&& (field.required ==> !IsEmpty(v))
        && (RulesApply(v) ==> FirstFailingRule(field.rules, v).None?)
        && (Truthy(v) && field.kind == Email ==> EmailShaped(JsString(v))))
  }

  /** The verdict of a field against the form data. */
  predicate FieldValidIn(field: Field, data: map<string, FormValue>)
  {
    !IsInput(field) || FieldValid(field, Lookup(data, KeyOf(field).value))
  }

  predicate TabValid(tab: FormTab, data: map<string, FormValue>)
  {
    forall j :: 0 <= j < |tab.fields| ==> FieldValidIn(tab.fields[j], data)
  }

  /** Some keyed field of the tab is flagged. */
  predicate TabFlagged(tab: FormTab, errors: Flags)
  {
    exists j :: 0 <= j < |tab.fields| && KeyOf(tab.fields[j]).Some? && Flag(errors, KeyOf(tab.fields[j]).value)
  }

  /** The schema's tabs, none when `tabs` is absent. */
  function TabsOf(schema: Schema): (r: seq<FormTab>)
    ensures schema.tabs.Some? ==> r == schema.tabs.value
    ensures schema.tabs.None? ==> r == []
  {
    schema.tabs.GetOr([])
  }

  /** No two keyed fields anywhere in the tabs share a key. */
  predicate UniqueFieldKeys(tabs: seq<FormTab>)
  {
    forall a, b, c, d ::
      0 <= a < |tabs| && 0 <= b < |tabs[a].fields| && 0 <= c < |tabs| && 0 <= d < |tabs[c].fields|
      && (a, b) != (c, d) && KeyOf(tabs[a].fields[b]).Some? && KeyOf(tabs[c].fields[d]).Some?
      ==> KeyOf(tabs[a].fields[b]).value != KeyOf(tabs[c].fields[d]).value
  }

  /** The keys of the keyed fields of a list of fields. */
  function KeysOf(fields: seq<Field>): (r: set<string>)
    ensures forall j :: 0 <= j < |fields| && KeyOf(fields[j]).Some? ==> KeyOf(fields[j]).value in r
    ensures forall k :: k in r ==> exists j :: 0 <= j < |fields| && KeyOf(fields[j]) == Some(k)
  {
    set j | 0 <= j < |fields| && KeyOf(fields[j]).Some? :: KeyOf(fields[j]).value
  }

  /** No two keyed fields of one list share a key. */
  predicate UniqueKeysIn(fields: seq<Field>)
  {
    forall i, j :: 0 <= i < |fields| && 0 <= j < |fields| && i != j && KeyOf(fields[i]).Some? && KeyOf(fields[j]).Some?
      ==> KeyOf(fields[i]).value != KeyOf(fields[j]).value
  }
}

=== FILE: keep_alive.dfy ===
/** The keep-alive cache tracker: the set of tab ids whose rendered views
    are kept alive, following the application tab store. */
module KeepAlive {
  import opened Common
  import opened Records
  import opened Routes
  import opened AppTabs

  /** Route names whose views are never cached. */
  const ExcludedRoutes: seq<string> := ["login", "register", "forgot-password", "not-authorized", "404", "error"]

  predicate Cacheable(tab: Tab)
  {
    tab.name !in ExcludedRoutes
  }

  /** The ids of the open tabs. */
  function CurrentIds(tabs: seq<Tab>): (r: set<string>)
    ensures forall t :: t in tabs ==> t.id in r
    ensures forall id :: id in r ==> exists t :: t in tabs && t.id == id
  {
    set t | t in tabs :: t.id
  }

  /** `initializeCache()`: exactly the ids of the cacheable tabs. */
  function InitializeCache(tabs: seq<Tab>): (r: set<string>)
    ensures r <= CurrentIds(tabs)
    ensures forall t :: t in tabs && Cacheable(t) ==> t.id in r
    ensures forall id :: id in r ==> exists t :: t in tabs && Cacheable(t) && t.id == id
  {
    set t | t in tabs && Cacheable(t) :: t.id
  }

  /** What the tabs watcher leaves behind: every cacheable tab added, every
      id of a closed tab dropped. */
  function Synced(cached: set<string>, tabs: seq<Tab>): set<string>
  {
    (cached + InitializeCache(tabs)) * CurrentIds(tabs)
  }

  lemma InitializePrefix(tabs: seq<Tab>, i: nat)
    requires i < |tabs|
    ensures InitializeCache(tabs[..i + 1])
            == InitializeCache(tabs[..i]) + (if Cacheable(tabs[i]) then {tabs[i].id} else {})
  {
    assert tabs[..i + 1] == tabs[..i] + [tabs[i]];
    var a := InitializeCache(tabs[..i + 1]);
    var b := InitializeCache(tabs[..i]) + (if Cacheable(tabs[i]) then {tabs[i].id} else {});
    forall id | id in a ensures id in b {
      var t :| t in tabs[..i + 1] && Cacheable(t) && t.id == id;
      if t != tabs[i] { assert t in tabs[..i]; }
    }
  }

  /** The tabs watcher: first add the id of every cacheable tab, then delete
      every cached id that no open tab has. */
  method Sync(cached: set<string>, tabs: seq<Tab>) returns (r: set<string>)
    ensures r == Synced(cached, tabs)
  {
    var added := AddCacheable(cached, tabs);
    r := DropClosed(added, CurrentIds(tabs));
  }

  /** The first half of the watcher: add every cacheable tab's id. */
  method AddCacheable(cached: set<string>, tabs: seq<Tab>) returns (added: set<string>)
    ensures added == cached + InitializeCache(tabs)
  {
    added := cached;
    var i := 0;
    while i < |tabs|
      invariant 0 <= i <= |tabs|
      invariant added == cached + InitializeCache(tabs[..i])
    {
      InitializePrefix(tabs, i);
      if Cacheable(tabs[i]) {
        added := added + {tabs[i].id};
      }
      i := i + 1;
    }
    assert tabs[..|tabs|] == tabs;
  }

  /** The second half of the watcher: delete each cached id not in
      `current`, one at a time. */
  method DropClosed(added: set<string>, current: set<string>) returns (r: set<string>)
    ensures r == added * current
  {
    var pending := added;
    r := added;
    while pending != {}
      invariant pending <= added
      invariant r == (added - pending) * current + pending
      decreases pending
    {
      var id :| id in pending;
      if id !in current {
        r := r - {id};
      }
      pending := pending - {id};
    }
  }

  /** `refreshTab(id, now)`: a replace navigation to the tab's own location
      with `_refresh` set to the current time, for a known tab only. */
  function RefreshTab(s: AppTabs.State, id: string, now: int): (r: Option<Intent>)
    ensures r.None? <==> GetTabById(s, id).None?
    ensures r.Some? ==>
      var tab := GetTabById(s, id).value;
      && r.value.ToNamed? && r.value.replace
      && r.value.name == tab.name && r.value.params == tab.params
      && Get(r.value.query, "_refresh") == Some(Num(now))
      && (forall k :: k != "_refresh" ==> Get(r.value.query, k) == Get(tab.query, k))
  {
    match GetTabById(s, id)
    case None => None
    case Some(tab) =>
      var patch := [Entry("_refresh", Num(now))];
      forall k ensures Get(Merge(tab.query, patch), k) == if k == "_refresh" then Some(Num(now)) else Get(tab.query, k) {
        MergeGet(tab.query, patch, k);
      }
      Some(ToNamed(tab.name, tab.params, Merge(tab.query, patch), true))
  }

  /** The effect of `clearTabCache(id)`: the cache right away, the refresh
      navigation, and whether the id is re-added once the deferred timer
      fires. */
  datatype Cleared = Cleared(cache: set<string>, refresh: Option<Intent>, readd: bool)

  function ClearTabCache(cached: set<string>, s: AppTabs.State, id: string, now: int): (r: Cleared)
    ensures id !in cached ==> r == Cleared(cached, None, false)
    ensures id in cached ==> r.cache == cached - {id}
    ensures r.readd <==> id in cached && GetTabById(s, id).Some? && Cacheable(GetTabById(s, id).value)
    ensures r.refresh.Some? <==> r.readd
    ensures r.readd ==> r.refresh == RefreshTab(s, id, now)
  {
    if id !in cached then Cleared(cached, None, false)
    else
      var cache := cached - {id};
      match GetTabById(s, id)
      case Some(tab) =>
        if Cacheable(tab) then Cleared(cache, RefreshTab(s, id, now), true)
        else Cleared(cache, None, false)
      case None => Cleared(cache, None, false)
  }

  /** The cache once the deferred re-add of `clearTabCache` has run. */
  function Settle(c: Cleared, id: string): set<string>
  {
    if c.readd then c.cache + {id} else c.cache
  }

  /** The effect of `clearAllTabsCache()`: empty right away, and the deferred
      re-seed. */
  datatype ClearedAll = ClearedAll(cache: set<string>, reseed: set<string>)

  function ClearAllTabsCache(s: AppTabs.State): (r: ClearedAll)
    ensures r.cache == {}
    ensures r.reseed == InitializeCache(s.tabs)
  {
    ClearedAll({}, InitializeCache(s.tabs))
  }
}

=== FILE: keep_alive_props.dfy ===
/** Properties of the keep-alive cache tracker. */
module KeepAliveProps {
  import opened Common
  import opened Routes
  import opened AppTabs
  import opened KeepAlive

  /** After a sync every open cacheable tab is cached. */
  lemma SyncCachesCacheable(cached: set<string>, tabs: seq<Tab>)
    ensures forall t :: t in tabs && Cacheable(t) ==> t.id in Synced(cached, tabs)
  {
  }

  /** After a sync only ids of open tabs are cached. */
  lemma SyncWithinOpenTabs(cached: set<string>, tabs: seq<Tab>)
    ensures Synced(cached, tabs) <= CurrentIds(tabs)
  {
  }

  /** An id survives a sync exactly when it was cached or cacheable, and is
      still open. */
  lemma SyncMembership(cached: set<string>, tabs: seq<Tab>, id: string)
    ensures id in Synced(cached, tabs) <==>
      (id in cached || exists t :: t in tabs && Cacheable(t) && t.id == id) && exists t :: t in tabs && t.id == id
  {
  }

  /** Syncing twice with the same tabs is syncing once. */
  lemma SyncIdempotent(cached: set<string>, tabs: seq<Tab>)
    ensures Synced(Synced(cached, tabs), tabs) == Synced(cached, tabs)
  {
    var once := Synced(cached, tabs);
    assert InitializeCache(tabs) <= once;
  }

  /** A sync from an empty cache is `initializeCache`. */
  lemma SyncFromEmpty(tabs: seq<Tab>)
    ensures Synced({}, tabs) == InitializeCache(tabs)
  {
  }

  /** Once its deferred re-add has run, clearing a cached, open, cacheable tab
      leaves the cache as it was; in every other case the id is simply gone. */
  lemma ClearTabCacheSettles(cached: set<string>, s: State, id: string, now: int)
    ensures var c := ClearTabCache(cached, s, id, now);
            Settle(c, id) == if c.readd then cached else cached - {id}
  {
  }

  /** The deferred re-seed of `clearAllTabsCache` is what a sync from the
      emptied cache would give. */
  lemma ClearAllReseedIsSync(s: State)
    ensures ClearAllTabsCache(s).reseed == Synced(ClearAllTabsCache(s).cache, s.tabs)
  {
    SyncFromEmpty(s.tabs);
  }

  /** Clearing an uncached id emits no refresh. */
  lemma RefreshOnlyForKnownTabs(cached: set<string>, s: State, id: string, now: int)
    requires ClearTabCache(cached, s, id, now).refresh.Some?
    ensures id in cached && GetTabById(s, id).Some?
    ensures ClearTabCache(cached, s, id, now).refresh.value.replace
  {
  }
}

=== FILE: records.dfy ===
/** JavaScript plain objects as used for route `meta`, `params` and `query`:
    ordered key/value entries (insertion order matters to `JSON.stringify`
    and to object spread), values restricted to strings, booleans, integers
    and `null`. */
module Records {
  import opened Common
  import opened Text

  datatype Value = Str(s: string) | Bool(b: bool) | Num(n: int) | Null

  /** JavaScript truthiness of a value. */
  predicate Truthy(v: Value)
  {
    match v
    case Str(s) => s != ""
    case Bool(b) => b
    case Num(n) => n != 0
    case Null => false
  }

  /** How a value reads once used where a string is expected (`String(v)`). */
  function AsString(v: Value): (r: string)
    ensures v.Str? ==> r == v.s
    ensures Truthy(v) ==> r != ""
  {
    match v
    case Str(s) => s
    case Bool(b) => if b then "true" else "false"
    case Num(n) => IntToString(n)
    case Null => "null"
  }

  datatype Entry = Entry(key: string, value: Value)

  type Record = seq<Entry>

  predicate UniqueKeys(m: Record)
  {
    forall i, j :: 0 <= i < j < |m| ==> m[i].key != m[j].key
  }

  /** Property read `m[k]`; `None` stands for `undefined`. */
  function Get(m: Record, k: string): (r: Option<Value>)
    ensures r.None? <==> forall i :: 0 <= i < |m| ==> m[i].key != k
    ensures r.Some? ==> exists i :: 0 <= i < |m| && m[i] == Entry(k, r.value)
  {
    if |m| == 0 then None
    else if m[0].key == k then Some(m[0].value)
    else Get(m[1..], k)
  }

  /** `m[k]` is truthy (an absent key reads as `undefined`, which is not). */
  predicate IsTruthy(m: Record, k: string)
  {
    Get(m, k).Some? && Truthy(Get(m, k).value)
  }

  /** Position of key `k`, if present. */
  function IndexOfKey(m: Record, k: string): (r: Option<nat>)
    ensures r.Some? ==> r.value < |m| && m[r.value].key == k
    ensures r.Some? ==> forall j :: 0 <= j < r.value ==> m[j].key != k
    ensures r.None? ==> forall j :: 0 <= j < |m| ==> m[j].key != k
  {
    if |m| == 0 then None
    else if m[0].key == k then Some(0)
    else match IndexOfKey(m[1..], k)
      case None => None
      case Some(i) => Some(i + 1)
  }

  /** Property assignment `m[k] = v`: an existing key keeps its position and
      takes the new value, a new key is appended. */
  function Put(m: Record, k: string, v: Value): (r: Record)
    ensures Get(r, k) == Some(v)
    ensures forall k' :: k' != k ==> Get(r, k') == Get(m, k')
    ensures |r| >= |m|
    ensures forall i :: 0 <= i < |m| ==> r[i].key == m[i].key
    ensures UniqueKeys(m) ==> UniqueKeys(r)
  {
    match IndexOfKey(m, k)
    case Some(i) =>
      var r := m[i := Entry(k, v)];
      GetAfterReplace(m, i, k, v);
      r
    case None =>
      GetAfterAppend(m, k, v);
      m + [Entry(k, v)]
  }

  lemma {:induction false} GetAfterReplace(m: Record, i: nat, k: string, v: Value)
    requires i < |m| && m[i].key == k
    requires forall j :: 0 <= j < i ==> m[j].key != k
    ensures Get(m[i := Entry(k, v)], k) == Some(v)
    ensures forall k' :: k' != k ==> Get(m[i := Entry(k, v)], k') == Get(m, k')
  {
    if i > 0 {
      GetAfterReplace(m[1..], i - 1, k, v);
      assert m[i := Entry(k, v)][1..] == m[1..][i - 1 := Entry(k, v)];
    }
  }

  lemma {:induction false} GetAfterAppend(m: Record, k: string, v: Value)
    requires forall j :: 0 <= j < |m| ==> m[j].key != k
    ensures Get(m + [Entry(k, v)], k) == Some(v)
    ensures forall k' :: k' != k ==> Get(m + [Entry(k, v)], k') == Get(m, k')
  {
    if |m| > 0 {
      GetAfterAppend(m[1..], k, v);
      assert (m + [Entry(k, v)])[1..] == m[1..] + [Entry(k, v)];
    }
  }

  /** Object spread `{ ...base, ...over }`: the entries of `over` are
      assigned onto a copy of `base`, in order. */
  function Merge(base: Record, over: Record): (r: Record)
    ensures |r| >= |base|
    ensures forall i :: 0 <= i < |base| ==> r[i].key == base[i].key
    ensures UniqueKeys(base) ==> UniqueKeys(r)
    decreases |over|
  {
    if |over| == 0 then base
    else Merge(Put(base, over[0].key, over[0].value), over[1..])
  }

  /** After a spread, a key of `over` reads as in `over` (new keys win), and
      every other key reads as in `base`. */
  lemma {:induction false} MergeGet(base: Record, over: Record, k: string)
    requires UniqueKeys(over)
    ensures Get(Merge(base, over), k) == if Get(over, k).Some? then Get(over, k) else Get(base, k)
    decreases |over|
  {
    if |over| > 0 {
      UniqueTail(over);
      MergeGet(Put(base, over[0].key, over[0].value), over[1..], k);
    }
  }

  /** Spreading a single entry is one assignment. */
  lemma MergeOne(base: Record, k: string, v: Value)
    ensures Merge(base, [Entry(k, v)]) == Put(base, k, v)
  {
    assert [Entry(k, v)][1..] == [];
  }

  /** Dropping the first entry keeps keys unique, and its key no longer
      occurs. */
  lemma UniqueTail(m: Record)
    requires UniqueKeys(m) && |m| > 0
    ensures UniqueKeys(m[1..])
    ensures Get(m[1..], m[0].key).None?
  {
    forall i, j | 0 <= i < j < |m[1..]| ensures m[1..][i].key != m[1..][j].key {
      assert m[1..][i] == m[i + 1] && m[1..][j] == m[j + 1];
    }
    forall i | 0 <= i < |m[1..]| ensures m[1..][i].key != m[0].key {
      assert m[1..][i] == m[i + 1];
    }
  }

  /** A string in JSON notation: quoted, with `"` and `\` escaped. */
  function JsonString(s: string): (r: string)
    ensures |r| >= 2 && r[0] == '"' && r[|r| - 1] == '"'
  {
    "\"" + JsonEscape(s) + "\""
  }

  function JsonEscape(s: string): string
  {
    if |s| == 0 then ""
    else (if s[0] == '"' || s[0] == '\\' then ['\\', s[0]] else [s[0]]) + JsonEscape(s[1..])
  }

  function JsonValue(v: Value): (r: string)
    ensures |r| >= 1
  {
    match v
    case Str(s) => JsonString(s)
    case Bool(b) => if b then "true" else "false"
    case Num(n) => IntToString(n)
    case Null => "null"
  }

  function JsonEntries(m: Record): string
  {
    if |m| == 0 then ""
    else JsonString(m[0].key) + ":" + JsonValue(m[0].value)
         + (if |m| == 1 then "" else "," + JsonEntries(m[1..]))
  }

  /** `JSON.stringify` of a plain object: always a braced, non-empty text.
      Control characters are not escaped by this model. */
  function Serialize(m: Record): (r: string)
    ensures |r| >= 2 && r[0] == '{' && r[|r| - 1] == '}'
  {
    "{" + JsonEntries(m) + "}"
  }
}

=== FILE: router_guard.dfy ===
/** The application router's global guard, its `push` wrapper and its
    static redirects.  The ability check and the login check are inputs. */
module RouterGuard {
  import opened Common
  import opened Text
  import opened Records
  import opened Routes

  /** What the guard passes to `next`: `next(false)`, `next()`, or a replace
      redirect to a named route (with the `to` query of the login page). */
  datatype Decision =
    | Abort
    | Proceed
    | Redirect(name: string, loginTo: Option<string>)

  /** The same name with the same serialized params and query. */
  predicate SameLocation(from: Route, to: Route)
  {
    from.name == to.name && Serialize(from.params) == Serialize(to.params) && Serialize(from.query) == Serialize(to.query)
  }

  /** The `to` query of the login redirect: the full path, except for the
      index route. */
  function LoginTarget(to: Route): (r: Option<string>)
    ensures r.None? <==> to.name == Some("index")
    ensures r.Some? ==> r.value == to.fullPath
  {
    if to.name != Some("index") then Some(to.fullPath) else None
  }

  /** The `beforeEach` guard. */
  function BeforeEach(from: Route, to: Route, canNavigate: bool, isLoggedIn: bool): (r: Decision)
    ensures SameLocation(from, to) ==> r == Abort
    ensures !SameLocation(from, to) && canNavigate ==>
              r == if IsTruthy(to.meta, "redirectIfLoggedIn") && isLoggedIn then Redirect("dashboards-crm", None) else Proceed
    ensures !SameLocation(from, to) && !canNavigate && isLoggedIn ==> r == Redirect("not-authorized", None)
    ensures !SameLocation(from, to) && !canNavigate && !isLoggedIn ==> r == Redirect("login", LoginTarget(to))
  {
    if SameLocation(from, to) then Abort
    else if canNavigate then
      if IsTruthy(to.meta, "redirectIfLoggedIn") && isLoggedIn then Redirect("dashboards-crm", None) else Proceed
    else if isLoggedIn then Redirect("not-authorized", None)
    else Redirect("login", LoginTarget(to))
  }

  /** A value thrown by the original `push`: a primitive (or function), `null`,
      or an object with or without a `name` property. */
  datatype Thrown = Primitive | NullThrown | ObjectThrown(name: Option<Value>)

  /** Whether the wrapper rethrows a failure: only an object that has a
      `name` other than 'NavigationDuplicated'. */
  predicate Rethrows(err: Thrown)
  {
    err.ObjectThrown? && err.name.Some? && err.name.value != Str("NavigationDuplicated")
  }

  datatype PushResult = Resolved | Rejected(err: Thrown)

  /** The wrapped `push`, given how the original one settled (`None` when it
      succeeded). */
  function Push(outcome: Option<Thrown>): (r: PushResult)
    ensures outcome.None? ==> r == Resolved
    ensures outcome.Some? ==> (r.Rejected? <==> Rethrows(outcome.value))
    ensures r.Rejected? ==> outcome == Some(r.err)
  {
    match outcome
    case None => Resolved
    case Some(err) => if Rethrows(err) then Rejected(err) else Resolved
  }

  /** A named location with params, the target of a static redirect. */
  datatype Location = Location(name: string, params: Record)

  /** Whether the router's default matcher, which is neither strict nor
      case-sensitive, accepts `path` for a static record whose lower-case
      path is `pattern`: the same text up to ASCII case, with at most one
      trailing slash.  The root record `/` has the empty pattern, so it
      accepts the empty path and `/`. */
  predicate PathMatches(pattern: string, path: string)
  {
    Lower(path) == pattern || Lower(path) == pattern + "/"
  }

  const RootPattern: string := ""
  const UserProfilePattern: string := "/pages/user-profile"
  const AccountSettingsPattern: string := "/pages/account-settings"

  /** The static redirect records, tried before the generated page routes:
      the root goes to the CRM dashboard, the profile and settings pages to
      their first tab. */
  function StaticRedirect(path: string): (r: Option<Location>)
    ensures PathMatches(RootPattern, path) ==> r == Some(Location("dashboards-crm", []))
    ensures PathMatches(UserProfilePattern, path) ==>
              r == Some(Location("pages-user-profile-tab", [Entry("tab", Str("profile"))]))
    ensures PathMatches(AccountSettingsPattern, path) ==>
              r == Some(Location("pages-account-settings-tab", [Entry("tab", Str("account"))]))
    ensures r.None? <==>
              !PathMatches(RootPattern, path) && !PathMatches(UserProfilePattern, path)
              && !PathMatches(AccountSettingsPattern, path)
  {
    if PathMatches(RootPattern, path) then Some(Location("dashboards-crm", []))
    else if PathMatches(UserProfilePattern, path) then
      Some(Location("pages-user-profile-tab", [Entry("tab", Str("profile"))]))
    else if PathMatches(AccountSettingsPattern, path) then
      Some(Location("pages-account-settings-tab", [Entry("tab", Str("account"))]))
    else None
  }
}

=== FILE: router_guard_props.dfy ===
/** Properties of the router guard and the push wrapper. */
module RouterGuardProps {
  import opened Common
  import Text
  import opened Records
  import opened Routes
  import opened RouterGuard

  /** The guard aborts exactly the navigations to the location already
      shown, whatever the ability and login state. */
  lemma AbortIffSameLocation(from: Route, to: Route, canNavigate: bool, isLoggedIn: bool)
    ensures BeforeEach(from, to, canNavigate, isLoggedIn) == Abort <==> SameLocation(from, to)
  {
  }

  /** Re-navigating to an identical location is aborted before any
      authentication decision. */
  lemma SameRouteAborts(from: Route, to: Route, canNavigate: bool, isLoggedIn: bool)
    requires from.name == to.name && from.params == to.params && from.query == to.query
    ensures BeforeEach(from, to, canNavigate, isLoggedIn) == Abort
  {
  }

  /** The guard lets through only routes the ability check allows, and sends a
      logged-out visitor to the login page with the requested path. */
  lemma GuardRespectsAbilities(from: Route, to: Route, canNavigate: bool, isLoggedIn: bool)
    ensures BeforeEach(from, to, canNavigate, isLoggedIn) == Proceed ==> canNavigate
    ensures BeforeEach(from, to, canNavigate, isLoggedIn).Redirect? && BeforeEach(from, to, canNavigate, isLoggedIn).name == "login"
            ==> !isLoggedIn && !canNavigate
    ensures BeforeEach(from, to, canNavigate, isLoggedIn).Redirect? && BeforeEach(from, to, canNavigate, isLoggedIn).loginTo.Some?
            ==> BeforeEach(from, to, canNavigate, isLoggedIn).loginTo.value == to.fullPath
  {
  }

  /** A logged-in user is never sent to the login page. */
  lemma LoggedInNeverSentToLogin(from: Route, to: Route, canNavigate: bool)
    ensures var r := BeforeEach(from, to, canNavigate, true);
            !(r.Redirect? && r.name == "login")
  {
  }

  /** Duplicated navigations, nameless objects, `null` and primitives are
      swallowed; any other named error is rethrown unchanged. */
  lemma PushSwallowsDuplicates(name: Value)
    ensures Push(Some(ObjectThrown(Some(Str("NavigationDuplicated"))))) == Resolved
    ensures Push(Some(ObjectThrown(None))) == Resolved
    ensures Push(Some(NullThrown)) == Resolved && Push(Some(Primitive)) == Resolved
    ensures name != Str("NavigationDuplicated") ==> Push(Some(ObjectThrown(Some(name)))) == Rejected(ObjectThrown(Some(name)))
  {
  }

  /** The static redirects ignore ASCII case. */
  lemma StaticRedirectIgnoresCase(path: string)
    ensures StaticRedirect(Text.Lower(path)) == StaticRedirect(path)
  {
    Text.LowerIdempotent(path);
  }

  /** One trailing slash makes no difference to the static redirects. */
  lemma StaticRedirectTrailingSlash(path: string)
    requires |path| == 0 || path[|path| - 1] != '/'
    ensures StaticRedirect(path + "/") == StaticRedirect(path)
  {
    Text.LowerAppend(path, "/");
    assert Text.Lower("/") == "/";
    var l := Text.Lower(path);
    assert |l| == 0 || l[|l| - 1] != '/';
    forall pattern | pattern in [RootPattern, UserProfilePattern, AccountSettingsPattern]
      ensures PathMatches(pattern, path + "/") <==> PathMatches(pattern, path)
    {
      if l + "/" == pattern + "/" {
        assert l == (l + "/")[..|l|];
      }
    }
  }

  /** Upper case and one trailing slash are accepted. */
  lemma StaticRedirectExamples()
    ensures StaticRedirect("").Some? && StaticRedirect("/").Some?
    ensures StaticRedirect("/Pages/User-Profile/") == Some(Location("pages-user-profile-tab", [Entry("tab", Str("profile"))]))
  {
    assert Text.Lower("/") == "/";
    var p := "/Pages/User-Profile/";
    assert Text.Lower(p) == UserProfilePattern + "/" by {
      assert forall i :: 0 <= i < |p| ==> Text.Lower(p)[i] == (UserProfilePattern + "/")[i];
    }
  }

  /** Matching is by whole path: an extra slash or segment is not accepted. */
  lemma StaticRedirectRejects()
    ensures StaticRedirect("//").None?
    ensures StaticRedirect("/pages/account-settings/account").None?
  {
    assert Text.Lower("//") == "//";
    var p := "/pages/account-settings/account";
    assert Text.Lower(p) == p by {
      assert forall i :: 0 <= i < |p| ==> Text.Lower(p)[i] == p[i];
    }
    assert |p| != |AccountSettingsPattern| + 1 && |p| > |UserProfilePattern| + 1;
  }
}

=== FILE: routes.dfy ===
/** The router-facing vocabulary shared by the stores and the navigation
    bridge: a resolved location and the navigations the code requests. */
module Routes {
  import opened Common
  import opened Records

  /** A resolved router location (`RouteLocationNormalized`), reduced to the
      fields the tab logic reads.  `redirected` says whether the location
      carries a `redirectedFrom` record. */
  datatype Route = Route(
    name: Option<string>,
    path: string,
    fullPath: string,
    params: Record,
    query: Record,
    meta: Record,
    redirected: bool)

  /** `String(route.name)`: an unnamed route reads as "undefined". */
  function NameText(name: Option<string>): (r: string)
    ensures name.Some? ==> r == name.value
  {
    match name
    case Some(n) => n
    case None => "undefined"
  }

  /** `route.name` is truthy. */
  predicate NameTruthy(name: Option<string>)
  {
    name.Some? && name.value != ""
  }

  /** A navigation handed to the router instead of being performed: either a
      plain path or a named location, with `replace` saying whether the
      current history entry is replaced. */
  datatype Intent =
    | ToPath(path: string, replace: bool)
    | ToNamed(name: string, params: Record, query: Record, replace: bool)
}

=== FILE: seqs.dfy ===
/** Generic sequence operations mirroring the JavaScript array methods the
    stores use: `findIndex`, `filter`, `splice` (remove one / insert one). */
module Seqs {
  import opened Common

  /** `findIndex`: the position of the first element satisfying `p`. */
  function FindFirst<T>(s: seq<T>, p: T -> bool): (r: Option<nat>)
    ensures r.Some? ==> r.value < |s| && p(s[r.value])
    ensures r.Some? ==> forall j :: 0 <= j < r.value ==> !p(s[j])
    ensures r.None? <==> forall j :: 0 <= j < |s| ==> !p(s[j])
  {
    if |s| == 0 then None
    else if p(s[0]) then Some(0)
    else match FindFirst(s[1..], p)
      case None => None
      case Some(k) => Some(k + 1)
  }

  /** `map`: `f` applied to every element, in order. */
  function Map<T, U>(s: seq<T>, f: T -> U): (r: seq<U>)
    ensures |r| == |s| && forall i :: 0 <= i < |s| ==> r[i] == f(s[i])
  {
    seq(|s|, i requires 0 <= i < |s| => f(s[i]))
  }

  /** The positions holding `true`, in ascending order. */
  function TrueIndices(b: seq<bool>): (r: seq<nat>)
    ensures forall i, j :: 0 <= i < j < |r| ==> r[i] < r[j]
    ensures forall i :: 0 <= i < |r| ==> r[i] < |b| && b[r[i]]
    ensures forall k :: 0 <= k < |b| && b[k] ==> k in r
  {
    if |b| == 0 then []
    else TrueIndices(b[..|b| - 1]) + (if b[|b| - 1] then [|b| - 1] else [])
  }

  /** No position holds `true`: no index is reported. */
  lemma TrueIndicesNone(b: seq<bool>)
    requires forall k :: 0 <= k < |b| ==> !b[k]
    ensures TrueIndices(b) == []
  {
  }

  /** Extending the marks by one position adds that position when it holds
      `true`. */
  lemma TrueIndicesSnoc(b: seq<bool>, t: nat)
    requires t < |b|
    ensures TrueIndices(b[..t + 1]) == TrueIndices(b[..t]) + (if b[t] then [t] else [])
  {
    assert b[..t + 1][..t] == b[..t];
  }

  /** `filter`: the elements satisfying `p`, in their original order. */
  function Filter<T>(s: seq<T>, p: T -> bool): (r: seq<T>)
    ensures |r| <= |s|
    ensures forall i :: 0 <= i < |r| ==> r[i] in s && p(r[i])
    ensures forall i :: 0 <= i < |s| && p(s[i]) ==> s[i] in r
  {
    if |s| == 0 then []
    else (if p(s[0]) then [s[0]] else []) + Filter(s[1..], p)
  }

  /** `r` can be obtained from `s` by deleting elements (order kept). */
  predicate IsSubsequence<T(==)>(r: seq<T>, s: seq<T>)
    decreases |s|
  {
    |r| == 0 ||
    (|s| > 0 &&
     ((r[0] == s[0] && IsSubsequence(r[1..], s[1..])) || IsSubsequence(r, s[1..])))
  }

  /** No two elements share a key. */
  predicate UniqueBy<T, K(==)>(s: seq<T>, key: T -> K)
  {
    forall i, j :: 0 <= i < j < |s| ==> key(s[i]) != key(s[j])
  }

  /** `splice(i, 1)`: remove the element at `i`. */
  function RemoveAt<T>(s: seq<T>, i: nat): (r: seq<T>)
    requires i < |s|
    ensures |r| == |s| - 1
    ensures forall j :: 0 <= j < i ==> r[j] == s[j]
    ensures forall j :: i <= j < |r| ==> r[j] == s[j + 1]
  {
    s[..i] + s[i + 1..]
  }

  /** `splice(i, 0, x)`: insert `x` so that it ends up at position `i`. */
  function InsertAt<T>(s: seq<T>, i: nat, x: T): (r: seq<T>)
    requires i <= |s|
    ensures |r| == |s| + 1 && r[i] == x
    ensures forall j :: 0 <= j < i ==> r[j] == s[j]
    ensures forall j :: i < j < |r| ==> r[j] == s[j - 1]
  {
    s[..i] + [x] + s[i..]
  }

  /** Where the element at position `k` of `Move(s, from, to)` came from. */
  function MoveSource(from: nat, to: nat, k: nat): nat
  {
    if k == to then from
    else if from < to && from <= k < to then k + 1
    else if to < from && to < k <= from then k - 1
    else k
  }

  /** Take the element at `from` out and re-insert it at `to`. */
  function Move<T>(s: seq<T>, from: nat, to: nat): (r: seq<T>)
    requires from < |s| && to < |s|
    ensures |r| == |s|
    ensures forall k :: 0 <= k < |r| ==> MoveSource(from, to, k) < |s| && r[k] == s[MoveSource(from, to, k)]
  {
    InsertAt(RemoveAt(s, from), to, s[from])
  }

  /** Where the element at position `k` of `s` lands in `Move(s, from, to)`. */
  function MoveTarget(from: nat, to: nat, k: nat): nat
  {
    if k == from then to
    else if from < to && from < k <= to then k - 1
    else if to < from && to <= k < from then k + 1
    else k
  }

  /** `MoveTarget` undoes `MoveSource`: every element of `s` is still in the
      moved sequence. */
  lemma MoveFinds<T>(s: seq<T>, from: nat, to: nat, k: nat)
    requires from < |s| && to < |s| && k < |s|
    ensures MoveTarget(from, to, k) < |s|
    ensures Move(s, from, to)[MoveTarget(from, to, k)] == s[k]
  {
    assert MoveSource(from, to, MoveTarget(from, to, k)) == k;
  }

  /** Moving an element is undone by removing it from its new position, and
      keeps the same elements with the same multiplicities. */
  lemma MovePermutes<T>(s: seq<T>, from: nat, to: nat)
    requires from < |s| && to < |s|
    ensures Move(s, from, to)[to] == s[from]
    ensures RemoveAt(Move(s, from, to), to) == RemoveAt(s, from)
    ensures multiset(Move(s, from, to)) == multiset(s)
  {
    var rest := RemoveAt(s, from);
    var r := Move(s, from, to);
    assert r == rest[..to] + [s[from]] + rest[to..];
    assert RemoveAt(r, to) == rest;
    assert rest == rest[..to] + rest[to..];
    assert multiset(r) == multiset(rest) + multiset([s[from]]);
    assert s == s[..from] + [s[from]] + s[from + 1..];
    assert rest == s[..from] + s[from + 1..];
  }

  lemma {:induction false} SubsequenceMembers<T>(r: seq<T>, s: seq<T>)
    requires IsSubsequence(r, s)
    ensures forall i :: 0 <= i < |r| ==> r[i] in s
    decreases |s|
  {
    if |r| > 0 {
      if r[0] == s[0] && IsSubsequence(r[1..], s[1..]) {
        SubsequenceMembers(r[1..], s[1..]);
        assert r == [r[0]] + r[1..];
      } else {
        SubsequenceMembers(r, s[1..]);
      }
    }
  }

  lemma {:induction false} SubsequenceRefl<T>(s: seq<T>)
    ensures IsSubsequence(s, s)
    decreases |s|
  {
    if |s| > 0 { SubsequenceRefl(s[1..]); }
  }

  /** A suffix is a subsequence of the whole. */
  lemma {:induction false} SuffixIsSubsequence<T>(b: seq<T>, c: seq<T>)
    ensures IsSubsequence(c, b + c)
    decreases |b|
  {
    if |b| == 0 {
      assert b + c == c;
      SubsequenceRefl(c);
    } else {
      SuffixIsSubsequence(b[1..], c);
      assert (b + c)[1..] == b[1..] + c;
    }
  }

  /** Deleting from a prefix and keeping the rest is still a subsequence. */
  lemma {:induction false} SubsequenceAppend<T>(a: seq<T>, b: seq<T>, c: seq<T>)
    requires IsSubsequence(a, b)
    ensures IsSubsequence(a + c, b + c)
    decreases |b|
  {
    if |a| == 0 {
      assert a + c == c;
      SuffixIsSubsequence(b, c);
    } else if a[0] == b[0] && IsSubsequence(a[1..], b[1..]) {
      SubsequenceAppend(a[1..], b[1..], c);
      assert (a + c)[1..] == a[1..] + c;
      assert (b + c)[1..] == b[1..] + c;
    } else {
      SubsequenceAppend(a, b[1..], c);
      assert (b + c)[1..] == b[1..] + c;
    }
  }

  /** Removing one element leaves a subsequence. */
  lemma {:induction false} RemoveAtIsSubsequence<T>(s: seq<T>, i: nat)
    requires i < |s|
    ensures IsSubsequence(RemoveAt(s, i), s)
    decreases i
  {
    if i == 0 {
      assert RemoveAt(s, 0) == s[1..];
      SubsequenceRefl(s[1..]);
    } else {
      RemoveAtIsSubsequence(s[1..], i - 1);
      assert RemoveAt(s, i)[1..] == RemoveAt(s[1..], i - 1);
    }
  }

  /** `filter` never reorders. */
  lemma {:induction false} FilterIsSubsequence<T>(s: seq<T>, p: T -> bool)
    ensures IsSubsequence(Filter(s, p), s)
    decreases |s|
  {
    if |s| > 0 {
      FilterIsSubsequence(s[1..], p);
      var r := Filter(s, p);
      if p(s[0]) {
        assert r[0] == s[0] && r[1..] == Filter(s[1..], p);
      } else {
        assert r == Filter(s[1..], p);
      }
    }
  }

  /** Deleting elements keeps keys unique. */
  lemma {:induction false} SubsequenceKeepsUnique<T, K>(r: seq<T>, s: seq<T>, key: T -> K)
    requires IsSubsequence(r, s) && UniqueBy(s, key)
    ensures UniqueBy(r, key)
    decreases |s|
  {
    if |r| > 0 {
      assert UniqueBy(s[1..], key) by {
        forall i, j | 0 <= i < j < |s[1..]| ensures key(s[1..][i]) != key(s[1..][j]) {
          assert s[1..][i] == s[i + 1] && s[1..][j] == s[j + 1];
        }
      }
      if r[0] == s[0] && IsSubsequence(r[1..], s[1..]) {
        SubsequenceKeepsUnique(r[1..], s[1..], key);
        SubsequenceMembers(r[1..], s[1..]);
        forall i, j | 0 <= i < j < |r| ensures key(r[i]) != key(r[j]) {
          if i == 0 {
            assert r[j] == r[1..][j - 1];
            assert r[j] in s[1..];
            var m :| 0 <= m < |s[1..]| && s[1..][m] == r[j];
            assert s[1..][m] == s[m + 1];
          } else {
            assert r[i] == r[1..][i - 1] && r[j] == r[1..][j - 1];
          }
        }
      } else {
        SubsequenceKeepsUnique(r, s[1..], key);
      }
    }
  }

  lemma FilterKeepsUnique<T, K>(s: seq<T>, p: T -> bool, key: T -> K)
    requires UniqueBy(s, key)
    ensures UniqueBy(Filter(s, p), key)
  {
    FilterIsSubsequence(s, p);
    SubsequenceKeepsUnique(Filter(s, p), s, key);
  }

  /** `MoveSource` is a bijection on the positions, so moving keeps keys unique. */
  lemma MoveKeepsUnique<T, K>(s: seq<T>, from: nat, to: nat, key: T -> K)
    requires from < |s| && to < |s| && UniqueBy(s, key)
    ensures UniqueBy(Move(s, from, to), key)
  {
    var r := Move(s, from, to);
    forall i, j | 0 <= i < j < |r| ensures key(r[i]) != key(r[j]) {
      assert MoveSource(from, to, i) != MoveSource(from, to, j);
      var a, b := MoveSource(from, to, i), MoveSource(from, to, j);
      if a < b { assert key(s[a]) != key(s[b]); } else { assert key(s[b]) != key(s[a]); }
    }
  }
}

=== FILE: snake_case.dfy ===
/** `toSnakeCase`: the global match of
    `[A-Z]{2,}(?=[A-Z][a-z]+\d*|\b)|[A-Z]?[a-z]+\d*|[A-Z]|\d+`, each match
    lower-cased, joined with '_'.  Character classes are ASCII, as the
    pattern has no `u` flag. */
module SnakeCase {
  import opened Common
  import opened Text

  predicate IsLetter(c: char) { IsUpper(c) || IsLower(c) }

  /** The length of the longest prefix of `s` whose characters satisfy `p`. */
  function Run(s: string, p: char -> bool): (n: nat)
    ensures n <= |s|
    ensures forall i :: 0 <= i < n ==> p(s[i])
    ensures n < |s| ==> !p(s[n])
  {
    if |s| == 0 || !p(s[0]) then 0 else 1 + Run(s[1..], p)
  }

  /** A run is determined by where the property first fails. */
  lemma RunExact(s: string, p: char -> bool, k: nat)
    requires k <= |s|
    requires forall i :: 0 <= i < k ==> p(s[i])
    requires k == |s| || !p(s[k])
    ensures Run(s, p) == k
  {
  }

  // ------------------------------------------------------------ the pattern

  /** The lookahead `(?=[A-Z][a-z]+\d*|\b)` at position `q`, right after an
      upper-case letter: an upper-case letter followed by a lower-case one,
      or a word boundary (the end, or a non-word character). */
  predicate Ahead(s: string, q: nat)
    requires q <= |s|
  {
    (q + 1 < |s| && IsUpper(s[q]) && IsLower(s[q + 1])) || q == |s| || !IsWordChar(s[q])
  }

  /** The first alternative, `[A-Z]{2,}` followed by the lookahead: greedy,
      so the longest run of two or more capitals after which the lookahead
      holds. */
  function Acronym(s: string): (r: Option<nat>)
    ensures r.Some? ==> 2 <= r.value <= |s| && Ahead(s, r.value)
    ensures r.Some? ==> forall i :: 0 <= i < r.value ==> IsUpper(s[i])
    ensures forall m :: 2 <= m <= |s| && (r.None? || r.value < m) && (forall i :: 0 <= i < m ==> IsUpper(s[i]))
              ==> !Ahead(s, m)
  {
    var n := Run(s, IsUpper);
    if n >= 2 && (n == |s| || !IsWordChar(s[n])) then Some(n)
    else if n >= 3 && n < |s| && IsLower(s[n]) then Some(n - 1)
    else None
  }

  /** The second alternative, `[A-Z]?[a-z]+\d*`: an optional capital, then
      lower-case letters, then digits, all greedy. */
  function Word(s: string): (r: Option<nat>)
    ensures r.Some? ==> 0 < r.value <= |s|
  {
    var u := if |s| >= 2 && IsUpper(s[0]) && IsLower(s[1]) then 1 else 0;
    var l := Run(s[u..], IsLower);
    if l == 0 then None else Some(u + l + Run(s[u + l..], IsDigit))
  }

  /** Letters and digits, with no letter after a digit: the shape of every
      match of the pattern. */
  predicate IsToken(w: string)
  {
    && |w| > 0
    && (forall i :: 0 <= i < |w| ==> IsLetter(w[i]) || IsDigit(w[i]))
    && (forall i, j :: 0 <= i < j < |w| && IsDigit(w[i]) ==> IsDigit(w[j]))
  }

  /** The second alternative's shape: an optional capital, at least one
      lower-case letter, then lower-case letters and finally digits. */
  predicate WordShaped(w: string)
  {
    var u := if |w| > 0 && IsUpper(w[0]) then 1 else 0;
    && |w| > u && IsLower(w[u])
    && (forall i :: u <= i < |w| ==> IsLower(w[i]) || IsDigit(w[i]))
    && (forall i, j :: u <= i < j < |w| && IsDigit(w[i]) ==> IsDigit(w[j]))
  }

  /** What one match of the pattern looks like: two or more capitals, one
      capital-then-lower-case word with trailing digits, a lone capital, or
      a run of digits. */
  predicate OneAlternative(w: string)
  {
    || (|w| >= 2 && forall i :: 0 <= i < |w| ==> IsUpper(w[i]))
    || WordShaped(w)
    || (|w| == 1 && IsUpper(w[0]))
    || (|w| > 0 && forall i :: 0 <= i < |w| ==> IsDigit(w[i]))
  }

  /** The length of the match at the start of `s`, trying the alternatives
      in order; none when the first character is not a letter or digit. */
  function MatchLen(s: string): (r: Option<nat>)
    ensures r.Some? ==> 0 < r.value <= |s| && IsToken(s[..r.value])
    ensures r.Some? ==> OneAlternative(s[..r.value])
    ensures r.None? <==> |s| == 0 || !(IsLetter(s[0]) || IsDigit(s[0]))
  {
    if |s| == 0 then None
    else
      var a := Acronym(s);
      var w := Word(s);
      if a.Some? then
        assert forall i :: 0 <= i < a.value ==> IsUpper(s[..a.value][i]);
        a
      else if w.Some? then
        WordIsToken(s);
        w
      else if IsUpper(s[0]) then Some(1)
      else if IsDigit(s[0]) then
        var d := Run(s, IsDigit);
        assert forall i :: 0 <= i < d ==> IsDigit(s[..d][i]);
        Some(d)
      else None
  }

  lemma WordIsToken(s: string)
    requires Word(s).Some?
    ensures IsToken(s[..Word(s).value]) && WordShaped(s[..Word(s).value])
  {
    var u := if |s| >= 2 && IsUpper(s[0]) && IsLower(s[1]) then 1 else 0;
    var l := Run(s[u..], IsLower);
    var d := Run(s[u + l..], IsDigit);
    var w := s[..u + l + d];
    assert |w| == u + l + d;
    forall i | 0 <= i < u + l ensures IsLetter(w[i]) && !IsDigit(w[i]) {
      if i >= u {
        assert w[i] == s[u..][i - u];
      }
    }
    forall i | u + l <= i < |w| ensures IsDigit(w[i]) {
      assert w[i] == s[u + l..][i - u - l];
    }
    assert w[u] == s[u..][0];
    assert u == 1 <==> IsUpper(w[0]);
  }

  /** The global match: every match in order; a character where nothing
      matches is skipped. */
  function Tokens(s: string): (r: seq<string>)
    ensures forall i :: 0 <= i < |r| ==> IsToken(r[i]) && OneAlternative(r[i])
    decreases |s|
  {
    if |s| == 0 then []
    else match MatchLen(s)
      case Some(n) => [s[..n]] + Tokens(s[n..])
      case None => Tokens(s[1..])
  }

  /** Each match lower-cased. */
  function LowerAll(ws: seq<string>): (r: seq<string>)
    ensures |r| == |ws|
    ensures forall i :: 0 <= i < |ws| ==> r[i] == Lower(ws[i])
  {
    seq(|ws|, i requires 0 <= i < |ws| => Lower(ws[i]))
  }

  /** `str && str.match(...)?.map(x => x.toLowerCase()).join('_')`: the
      empty string is returned as it is, no match gives `undefined`. */
  function ToSnakeCase(s: string): (r: Option<string>)
    ensures s == "" ==> r == Some("")
    ensures s != "" ==> (r.None? <==> forall i :: 0 <= i < |s| ==> !(IsLetter(s[i]) || IsDigit(s[i])))
    ensures r.Some? ==> SnakeShaped(r.value)
  {
    if s == "" then Some("")
    else
      var ts := Tokens(s);
      TokensEmpty(s);
      if |ts| == 0 then None
      else
        forall i | 0 <= i < |ts| ensures SnakeWord(LowerAll(ts)[i]) {
          LowerToken(ts[i]);
        }
        JoinShaped(LowerAll(ts));
        Some(Join(LowerAll(ts), "_"))
  }

  // ------------------------------------------------------------ output shape

  /** A lower-cased match. */
  predicate SnakeWord(w: string)
  {
    IsToken(w) && forall i :: 0 <= i < |w| ==> !IsUpper(w[i])
  }

  /** Lower-case letters, digits and '_', with no '_' at either end and no
      two in a row. */
  predicate SnakeShaped(x: string)
  {
    && (forall i :: 0 <= i < |x| ==> IsLower(x[i]) || IsDigit(x[i]) || x[i] == '_')
    && (|x| > 0 ==> x[0] != '_' && x[|x| - 1] != '_')
    && (forall i :: 0 <= i < |x| - 1 ==> !(x[i] == '_' && x[i + 1] == '_'))
  }

  lemma LowerToken(w: string)
    requires IsToken(w)
    ensures SnakeWord(Lower(w))
  {
    var v := Lower(w);
    forall i | 0 <= i < |v| ensures (IsLetter(v[i]) || IsDigit(v[i])) && (IsDigit(v[i]) <==> IsDigit(w[i])) {
      assert v[i] == LowerChar(w[i]);
    }
  }

  /** There is no match exactly when no character is a letter or digit. */
  lemma {:induction false} TokensEmpty(s: string)
    ensures |Tokens(s)| == 0 <==> forall i :: 0 <= i < |s| ==> !(IsLetter(s[i]) || IsDigit(s[i]))
    decreases |s|
  {
    if |s| > 0 && MatchLen(s).None? {
      TokensEmpty(s[1..]);
      assert forall i :: 1 <= i < |s| ==> s[i] == s[1..][i - 1];
    }
  }

  /** Joining snake words with '_' gives a snake-shaped string. */
  lemma {:induction false} JoinShaped(ws: seq<string>)
    requires forall i :: 0 <= i < |ws| ==> SnakeWord(ws[i])
    ensures SnakeShaped(Join(ws, "_"))
    ensures |ws| > 0 ==> |Join(ws, "_")| > 0
  {
    if |ws| == 1 {
      assert Join(ws, "_") == ws[0];
    } else if |ws| > 1 {
      var w := ws[0];
      JoinShaped(ws[1..]);
      var j := Join(ws[1..], "_");
      var x := w + "_" + j;
      assert Join(ws, "_") == x;
      assert forall i :: 0 <= i < |w| ==> x[i] == w[i];
      assert x[|w|] == '_';
      assert forall i :: |w| < i < |x| ==> x[i] == j[i - |w| - 1];
    }
  }

  // ------------------------------------------------------------ idempotence

  /** A snake word followed by '_' or by nothing is matched whole. */
  lemma SnakeWordMatch(w: string, rest: string)
    requires SnakeWord(w)
    requires |rest| == 0 || rest[0] == '_'
    ensures MatchLen(w + rest) == Some(|w|)
  {
    var s := w + rest;
    assert s[0] == w[0];
    assert forall i :: 0 <= i < |w| ==> s[i] == w[i];
    RunExact(s, IsUpper, 0);
    var k := Run(w, IsLower);
    if k > 0 {
      assert Word(s).Some? by {
        RunExact(s, IsLower, k);
      }
      RunExact(s, IsLower, k);
      forall i | k <= i < |w| ensures IsDigit(w[i]) {
        assert IsDigit(w[k]);
      }
      RunExact(s[k..], IsDigit, |w| - k);
    } else {
      RunExact(s, IsLower, 0);
      forall i | 0 <= i < |w| ensures IsDigit(w[i]) {
        assert IsDigit(w[0]);
      }
      RunExact(s, IsDigit, |w|);
    }
  }

  /** A snake word followed by '_' or by nothing is the first match, and
      matching goes on after it. */
  lemma SnakeWordFirst(w: string, rest: string)
    requires SnakeWord(w)
    requires |rest| == 0 || rest[0] == '_'
    ensures Tokens(w + rest) == [w] + Tokens(rest)
  {
    var s := w + rest;
    SnakeWordMatch(w, rest);
    assert s[..|w|] == w && s[|w|..] == rest;
  }

  /** A string of snake words joined with '_' is matched back into the same
      words. */
  lemma {:induction false} TokensOfJoin(ws: seq<string>)
    requires forall i :: 0 <= i < |ws| ==> SnakeWord(ws[i])
    ensures Tokens(Join(ws, "_")) == ws
  {
    if |ws| == 1 {
      var w := ws[0];
      assert Join(ws, "_") == w + "";
      SnakeWordFirst(w, "");
    } else if |ws| > 1 {
      TokensOfJoin(ws[1..]);
      TokensOfJoinCons(ws[0], ws[1..]);
      assert ws == [ws[0]] + ws[1..];
    }
  }

  /** One more snake word in front of a join that is matched back. */
  lemma TokensOfJoinCons(w: string, rest: seq<string>)
    requires SnakeWord(w) && |rest| > 0
    requires Tokens(Join(rest, "_")) == rest
    ensures Tokens(Join([w] + rest, "_")) == [w] + rest
  {
    var j := Join(rest, "_");
    assert ([w] + rest)[1..] == rest;
    assert Join([w] + rest, "_") == w + "_" + j;
    AppendAssoc(w, "_", j);
    SnakeWordFirst(w, "_" + j);
    SkipNonWord('_', j);
  }

  lemma AppendAssoc(a: string, b: string, c: string)
    ensures a + b + c == a + (b + c)
  {
  }

  /** Converting a result again changes nothing. */
  lemma ToSnakeCaseIdempotent(s: string)
    requires ToSnakeCase(s).Some?
    ensures ToSnakeCase(ToSnakeCase(s).value) == ToSnakeCase(s)
  {
    if s != "" {
      var ws := LowerAll(Tokens(s));
      forall i | 0 <= i < |ws| ensures SnakeWord(ws[i]) {
        LowerToken(Tokens(s)[i]);
      }
      var x := Join(ws, "_");
      TokensOfJoin(ws);
      JoinShaped(ws);
      assert LowerAll(ws) == ws by {
        forall i | 0 <= i < |ws| ensures Lower(ws[i]) == ws[i] {
          assert forall c :: 0 <= c < |ws[i]| ==> !IsUpper(ws[i][c]);
        }
      }
    }
  }

  // ------------------------------------------------------------ examples

  /** A capitalised word followed by the end or a non-word character is one
      match of the second alternative. */
  lemma CapitalWordMatch(w: string, rest: string)
    requires |w| >= 2 && IsUpper(w[0])
    requires forall i :: 1 <= i < |w| ==> IsLower(w[i])
    requires |rest| == 0 || !IsWordChar(rest[0])
    ensures MatchLen(w + rest) == Some(|w|)
  {
    var s := w + rest;
    assert s[0] == w[0] && s[1] == w[1];
    assert forall i :: 0 <= i < |w| ==> s[i] == w[i];
    RunExact(s, IsUpper, 1);
    RunExact(s[1..], IsLower, |w| - 1);
    RunExact(s[|w|..], IsDigit, 0);
  }

  /** A leading character that is not a letter or digit is skipped. */
  lemma SkipNonWord(c: char, t: string)
    requires !(IsLetter(c) || IsDigit(c))
    ensures Tokens([c] + t) == Tokens(t)
  {
    assert ([c] + t)[1..] == t;
  }

  /** A capitalised word, a non-word character, then the rest. */
  lemma CapitalWordThen(w: string, c: char, t: string)
    requires |w| >= 2 && IsUpper(w[0])
    requires forall i :: 1 <= i < |w| ==> IsLower(w[i])
    requires !IsWordChar(c)
    ensures Tokens(w + [c] + t) == [w] + Tokens(t)
  {
    var s := w + ([c] + t);
    assert w + [c] + t == s;
    CapitalWordMatch(w, [c] + t);
    assert s[..|w|] == w && s[|w|..] == [c] + t;
    SkipNonWord(c, t);
  }

  /** A capitalised word on its own is one match. */
  lemma CapitalWordAlone(w: string)
    requires |w| >= 2 && IsUpper(w[0])
    requires forall i :: 1 <= i < |w| ==> IsLower(w[i])
    ensures Tokens(w) == [w]
  {
    CapitalWordMatch(w, "");
    assert w + "" == w && w[..|w|] == w && w[|w|..] == "";
  }

  /** Two capitalised words separated by a non-word character become the
      two words in lower case joined by '_'. */
  lemma TwoCapitalWords(w: string, c: char, u: string)
    requires |w| >= 2 && IsUpper(w[0]) && forall i :: 1 <= i < |w| ==> IsLower(w[i])
    requires |u| >= 2 && IsUpper(u[0]) && forall i :: 1 <= i < |u| ==> IsLower(u[i])
    requires !IsWordChar(c)
    ensures ToSnakeCase(w + [c] + u) == Some(Lower(w) + "_" + Lower(u))
  {
    var s := w + [c] + u;
    CapitalWordThen(w, c, u);
    CapitalWordAlone(u);
    assert Tokens(s) == [w, u];
    var ls := LowerAll([w, u]);
    assert ls == [Lower(w), Lower(u)];
    assert Join(ls, "_") == Lower(w) + "_" + Lower(u) by {
      assert ls[1..] == [Lower(u)];
    }
    assert s != "";
  }
}

=== FILE: tab_navigation.dfy ===
/** The navigation bridge over the application tab store: which routes get a
    tab, and which navigation follows a tab action.  Navigations are returned
    as intents. */
module TabNavigation {
  import opened Common
  import opened Records
  import opened Routes
  import opened AppTabs

  /** Route names that never get a tab. */
  const ExcludedRoutes: seq<string> := ["login", "register", "forgot-password", "not-authorized", "404", "error"]

  /** Where the bridge goes when no tab is left. */
  const HomePath: string := "/dashboards/crm"

  /** `shouldCreateTab(route)`. */
  function ShouldCreateTab(route: Route): (r: bool)
    ensures r <==> NameText(route.name) !in ExcludedRoutes
                   && Get(route.meta, "noTab") != Some(Bool(true))
                   && !route.redirected
  {
    if NameText(route.name) in ExcludedRoutes then false
    else if Get(route.meta, "noTab") == Some(Bool(true)) then false
    else if route.redirected then false
    else true
  }

  datatype Step = Step(state: State, intent: Option<Intent>)

  /** The replace navigation to a tab's own location. */
  function GoTo(tab: Tab): (r: Intent)
    ensures r.ToNamed? && r.replace
  {
    ToNamed(tab.name, tab.params, tab.query, true)
  }

  /** `navigateToTab(id)`, given the name of the current route: an unknown
      tab, or the active tab when the router already shows it, changes
      nothing; otherwise the tab becomes active and is navigated to. */
  function NavigateToTab(s: State, currentName: Option<string>, id: string): (r: Step)
    ensures GetTabById(s, id).None? ==> r == Step(s, None)
    ensures GetTabById(s, id).Some? && s.activeTabId == id && currentName == Some(GetTabById(s, id).value.name)
            ==> r == Step(s, None)
    ensures GetTabById(s, id).Some? && !(s.activeTabId == id && currentName == Some(GetTabById(s, id).value.name))
            ==> r.state == s.(activeTabId := id) && r.intent == Some(GoTo(GetTabById(s, id).value))
  {
    match GetTabById(s, id)
    case None => Step(s, None)
    case Some(tab) =>
      if s.activeTabId == id && currentName == Some(tab.name) then Step(s, None)
      else Step(SwitchToTab(s, id), Some(GoTo(tab)))
  }

  /** `closeTabAndNavigate(id)`: close a closable tab; when it was the active
      one, follow the store to its new active tab, or go home when no tab is
      left. */
  function CloseTabAndNavigate(s: State, id: string): (r: Step)
    ensures GetTabById(s, id).None? || !GetTabById(s, id).value.closable ==> r == Step(s, None)
    ensures GetTabById(s, id).Some? && GetTabById(s, id).value.closable ==> r.state == CloseTab(s, id)
    ensures s.activeTabId != id ==> r.intent.None?
    ensures s.activeTabId == id && GetTabById(s, id).Some? && GetTabById(s, id).value.closable ==>
              && (ActiveTab(r.state).Some? ==> r.intent == Some(GoTo(ActiveTab(r.state).value)))
              && (|r.state.tabs| == 0 ==> r.intent == Some(ToPath(HomePath, true)))
  {
    match GetTabById(s, id)
    case None => Step(s, None)
    case Some(tab) =>
      if !tab.closable then Step(s, None)
      else
        var wasActive := s.activeTabId == id;
        var after := CloseTab(s, id);
        if wasActive && ActiveTab(after).Some? then Step(after, Some(GoTo(ActiveTab(after).value)))
        else if wasActive && |after.tabs| == 0 then Step(after, Some(ToPath(HomePath, true)))
        else Step(after, None)
  }

  /** `closeOtherTabsAndNavigate(keep)`. */
  function CloseOtherTabsAndNavigate(s: State, currentName: Option<string>, keep: string): (r: Step)
    ensures r.state.tabs == CloseOtherTabs(s, keep).tabs && r.state.activeTabId == keep
    ensures r.intent.Some? <==>
              GetTabById(CloseOtherTabs(s, keep), keep).Some?
              && currentName != Some(GetTabById(CloseOtherTabs(s, keep), keep).value.name)
    ensures r.intent.Some? ==> r.intent == Some(GoTo(GetTabById(CloseOtherTabs(s, keep), keep).value))
  {
    NavigateToTab(CloseOtherTabs(s, keep), currentName, keep)
  }

  /** `closeAllTabsAndNavigate()`: go to the remaining first pinned tab, or
      home when none is left. */
  function CloseAllTabsAndNavigate(s: State, currentName: Option<string>): (r: Step)
    ensures r.state == CloseAllTabs(s)
    ensures |CloseAllTabs(s).tabs| == 0 ==> r.intent == Some(ToPath(HomePath, true))
    ensures |CloseAllTabs(s).tabs| > 0 ==>
              var first := CloseAllTabs(s).tabs[0];
              r.intent == if currentName == Some(first.name) then None else Some(GoTo(first))
  {
    var after := CloseAllTabs(s);
    assert |after.tabs| > 0 ==> IndexOf(after.tabs, after.tabs[0].id) == Some(0);
    match ActiveTab(after)
    case Some(tab) => NavigateToTab(after, currentName, tab.id)
    case None => Step(after, Some(ToPath(HomePath, true)))
  }

  /** `openTab(name, params, query)`: a navigation that keeps history. */
  function OpenTab(routeName: string, params: Option<Record>, query: Option<Record>): (r: Intent)
    ensures r.ToNamed? && !r.replace && r.name == routeName
    ensures r.params == params.GetOr([]) && r.query == query.GetOr([])
  {
    ToNamed(routeName, params.GetOr([]), query.GetOr([]), false)
  }
}

=== FILE: tab_navigation_props.dfy ===
/** Properties of the navigation bridge. */
module TabNavigationProps {
  import opened Common
  import opened Records
  import opened Routes
  import opened AppTabs
  import KeepAlive
  import opened TabNavigation

  /** Closing the active tab always navigates: to the store's new active tab,
      which is open, or home when the list became empty. */
  lemma ClosingActiveAlwaysNavigates(s: State, id: string)
    requires GetTabById(s, id).Some? && GetTabById(s, id).value.closable && s.activeTabId == id
    ensures CloseTabAndNavigate(s, id).intent.Some?
    ensures var r := CloseTabAndNavigate(s, id);
            |r.state.tabs| > 0 ==> ActiveTab(r.state).Some? && r.intent == Some(GoTo(ActiveTab(r.state).value))
  {
    var i := IndexOf(s.tabs, id).value;
    var after := CloseTab(s, id);
    if |after.tabs| > 0 {
      var k := if i == 0 then 0 else i - 1;
      assert after.tabs[k].id == after.activeTabId;
      assert IndexOf(after.tabs, after.activeTabId).Some?;
    }
  }

  /** Navigation never changes the open tabs, and the tab it targets is the
      active one afterwards. */
  lemma NavigateKeepsTabs(s: State, currentName: Option<string>, id: string)
    ensures NavigateToTab(s, currentName, id).state.tabs == s.tabs
    ensures NavigateToTab(s, currentName, id).intent.Some? ==> NavigateToTab(s, currentName, id).state.activeTabId == id
  {
  }

  /** Once the router shows the tab, navigating to it again does nothing. */
  lemma NavigateSettles(s: State, currentName: Option<string>, id: string)
    requires GetTabById(s, id).Some?
    ensures var r := NavigateToTab(s, currentName, id);
            NavigateToTab(r.state, Some(GetTabById(s, id).value.name), id) == Step(r.state, None)
  {
  }

  /** After closing every closable tab the bridge heads for the store's new
      active tab, or home when no tab is left, and once the router shows that
      tab nothing further happens. */
  lemma CloseAllTargetsActive(s: State, currentName: Option<string>)
    ensures var r := CloseAllTabsAndNavigate(s, currentName);
            && (ActiveTab(r.state).None? <==> |r.state.tabs| == 0)
            && (ActiveTab(r.state).None? ==> r.intent == Some(ToPath(HomePath, true)))
            && (ActiveTab(r.state).Some? && r.intent.Some? ==> r.intent == Some(GoTo(ActiveTab(r.state).value)))
            && (ActiveTab(r.state).Some? ==>
                  NavigateToTab(r.state, Some(ActiveTab(r.state).value.name), r.state.activeTabId) == Step(r.state, None))
  {
    var after := CloseAllTabs(s);
    if |after.tabs| > 0 {
      assert IndexOf(after.tabs, after.tabs[0].id) == Some(0);
    }
  }

  /** After closing the other tabs the bridge heads for the kept tab, which is
      then the active one; a kept id that is not open leads nowhere.  Once the
      router shows the kept tab nothing further happens. */
  lemma CloseOthersTargetsActive(s: State, currentName: Option<string>, keep: string)
    ensures var r := CloseOtherTabsAndNavigate(s, currentName, keep);
            && (ActiveTab(r.state).None? ==> r.intent.None?)
            && (r.intent.Some? ==> ActiveTab(r.state).Some? && r.intent == Some(GoTo(ActiveTab(r.state).value)))
            && (ActiveTab(r.state).Some? ==>
                  NavigateToTab(r.state, Some(ActiveTab(r.state).value.name), keep) == Step(r.state, None))
  {
  }

  /** A route that gets a tab gets a cached view too; among routes that are
      neither marked `noTab` nor redirected, the two decisions coincide. */
  lemma ShouldCreateTabCacheable(route: Route, t: Option<string -> string>)
    ensures ShouldCreateTab(route) ==> KeepAlive.Cacheable(NewTab(route, t))
    ensures Get(route.meta, "noTab") != Some(Bool(true)) && !route.redirected ==>
              (ShouldCreateTab(route) <==> KeepAlive.Cacheable(NewTab(route, t)))
  {
  }

  /** The navigation bridge and the keep-alive tracker leave out the same
      routes. */
  lemma ExcludedListsAgree()
    ensures TabNavigation.ExcludedRoutes == KeepAlive.ExcludedRoutes
  {
  }

  /** Authentication and error pages never get a tab; a plain named route
      does. */
  lemma ShouldCreateTabExamples(route: Route)
    requires Get(route.meta, "noTab").None? && !route.redirected
    ensures route.name == Some("login") ==> !ShouldCreateTab(route)
    ensures route.name == Some("404") ==> !ShouldCreateTab(route)
    ensures route.name == Some("dashboards-crm") ==> ShouldCreateTab(route)
  {
  }
}

=== FILE: tabs_middleware.dfy ===
/** The router middleware that feeds the layout-level tab store. */
module TabsMiddleware {
  import opened Common
  import opened Text
  import opened Records
  import opened Routes
  import CoreTabs

  /** Authentication and error pages, by layout or by path. */
  predicate SkippedPage(to: Route)
  {
    || Get(to.meta, "layout") == Some(Str("blank"))
    || Contains(to.path, "/login")
    || Contains(to.path, "/error")
    || Contains(to.path, "/not-authorized")
  }

  /** The decision of `tabsMiddleware(to)`: `None` when no tab is added,
      otherwise the closability passed to `addTab`. */
  function Decide(to: Route): (r: Option<bool>)
    ensures SkippedPage(to) ==> r.None?
    ensures IsTruthy(to.meta, "skipTab") ==> r.None?
    ensures Get(to.meta, "addToTabs") == Some(Bool(false)) ==> r.None?
    ensures r.None? ==> SkippedPage(to) || IsTruthy(to.meta, "skipTab") || Get(to.meta, "addToTabs") == Some(Bool(false))
    ensures r.Some? ==> (r.value <==> Get(to.meta, "pinTab") != Some(Bool(true)))
  {
    if SkippedPage(to) then None
    else if IsTruthy(to.meta, "skipTab") then None
    else if Get(to.meta, "addToTabs") != Some(Bool(false)) then Some(Get(to.meta, "pinTab") != Some(Bool(true)))
    else None
  }

  /** `tabsMiddleware(to)` applied to the store. */
  function Apply(s: CoreTabs.State, to: Route): (r: CoreTabs.State)
    ensures Decide(to).None? ==> r == s
    ensures Decide(to).Some? ==> r == CoreTabs.AddTab(s, to, Decide(to))
  {
    match Decide(to)
    case None => s
    case Some(closable) => CoreTabs.AddTab(s, to, Some(closable))
  }

  /** A route marked `pinTab: true` that is not open yet gets a pinned tab,
      the last of the list whatever the ceiling evicts, and no bulk close
      removes it.  A route that is already open keeps its tab's flag: the
      tab survives a bulk close exactly when it was pinned before. */
  lemma PinnedRouteSurvivesCloseAll(s: CoreTabs.State, to: Route)
    requires Decide(to).Some? && Get(to.meta, "pinTab") == Some(Bool(true))
    ensures var r := Apply(s, to);
            CoreTabs.IndexOf(s.tabs, to.fullPath).None? ==>
              && |r.tabs| > 0
              && r.tabs[|r.tabs| - 1] == CoreTabs.NewTab(to, Some(false))
              && r.tabs[|r.tabs| - 1].id == to.fullPath && !r.tabs[|r.tabs| - 1].closable
              && r.tabs[|r.tabs| - 1] in CoreTabs.CloseAllTabs(r).state.tabs
    ensures var r := Apply(s, to);
            CoreTabs.IndexOf(s.tabs, to.fullPath).Some? ==>
              var i := CoreTabs.IndexOf(s.tabs, to.fullPath).value;
              && r.tabs[i].id == to.fullPath && r.tabs[i].closable == s.tabs[i].closable
              && (r.tabs[i] in CoreTabs.CloseAllTabs(r).state.tabs <==> !s.tabs[i].closable)
  {
    var r := Apply(s, to);
    var t := CoreTabs.NewTab(to, Some(false));
    match CoreTabs.IndexOf(s.tabs, to.fullPath)
    case None =>
      var pushed := s.tabs + [t];
      if CoreTabs.OverCeiling(s.maxTabs, |pushed|) && CoreTabs.FirstClosable(pushed).Some? {
        var k := CoreTabs.FirstClosable(pushed).value;
        assert k < |s.tabs|;
        assert r.tabs[|r.tabs| - 1] == pushed[|pushed| - 1];
      } else {
        assert r.tabs == pushed;
      }
      assert r.tabs[|r.tabs| - 1] in CoreTabs.Pinned(r.tabs);
    case Some(i) =>
      var u := r.tabs[i];
      assert u.closable == s.tabs[i].closable;
      if !u.closable {
        assert u in CoreTabs.Pinned(r.tabs);
      }
  }

  /** An ordinary route opens a closable tab at the end of the list. */
  lemma OrdinaryRouteAddsClosableTab(s: CoreTabs.State, to: Route)
    requires !SkippedPage(to) && Get(to.meta, "skipTab").None? && Get(to.meta, "addToTabs").None?
    requires Get(to.meta, "pinTab").None?
    requires CoreTabs.IndexOf(s.tabs, to.fullPath).None? && !CoreTabs.OverCeiling(s.maxTabs, |s.tabs| + 1)
    ensures |Apply(s, to).tabs| == |s.tabs| + 1
    ensures Apply(s, to).tabs[|s.tabs|].closable && Apply(s, to).tabs[|s.tabs|].id == to.fullPath
    ensures Apply(s, to).activeTabId == Some(to.fullPath)
  {
  }
}

=== FILE: text.dfy ===
/** ASCII string helpers standing in for the JavaScript string methods the
    source uses (`toLowerCase`, `toUpperCase`, `trim`, `split`, `join`,
    `replace(/c/g, …)`, `includes`, `String(n)`).  Only the ASCII behaviour
    of these methods is modelled. */
module Text {

  predicate IsUpper(c: char) { 'A' <= c <= 'Z' }
  predicate IsLower(c: char) { 'a' <= c <= 'z' }
  predicate IsDigit(c: char) { '0' <= c <= '9' }
  predicate IsLetterOrDigit(c: char) { IsUpper(c) || IsLower(c) || IsDigit(c) }
  /** The regular-expression class `\w`. */
  predicate IsWordChar(c: char) { IsLetterOrDigit(c) || c == '_' }
  /** The regular-expression class `\s`, restricted to ASCII: space, tab,
      line feed, vertical tab, form feed, carriage return. */
  predicate IsSpace(c: char) { c == ' ' || 9 <= c as int <= 13 }

  function LowerChar(c: char): (r: char)
    ensures !IsUpper(r)
    ensures IsUpper(c) ==> IsLower(r)
    ensures !IsUpper(c) ==> r == c
  {
    if IsUpper(c) then (c as int + 32) as char else c
  }

  function UpperChar(c: char): (r: char)
    ensures !IsLower(r)
    ensures IsLower(c) ==> IsUpper(r)
    ensures !IsLower(c) ==> r == c
  {
    if IsLower(c) then (c as int - 32) as char else c
  }

  /** `toLowerCase`. */
  function Lower(s: string): (r: string)
    ensures |r| == |s|
    ensures forall i :: 0 <= i < |s| ==> r[i] == LowerChar(s[i])
  {
    seq(|s|, i requires 0 <= i < |s| => LowerChar(s[i]))
  }

  lemma LowerIdempotent(s: string)
    ensures Lower(Lower(s)) == Lower(s)
  {
    assert forall i :: 0 <= i < |s| ==> Lower(Lower(s))[i] == Lower(s)[i];
  }

  lemma LowerAppend(s: string, t: string)
    ensures Lower(s + t) == Lower(s) + Lower(t)
  {
    assert forall i :: 0 <= i < |s + t| ==> Lower(s + t)[i] == (Lower(s) + Lower(t))[i];
  }

  /** `s.charAt(0).toUpperCase() + s.slice(1)`. */
  function Capitalize(s: string): (r: string)
    ensures |r| == |s|
    ensures |s| > 0 ==> r[0] == UpperChar(s[0]) && r[1..] == s[1..]
  {
    if |s| == 0 then "" else [UpperChar(s[0])] + s[1..]
  }

  /** `s.replace(/a/g, b)` for a one-character pattern. */
  function ReplaceAll(s: string, a: char, b: char): (r: string)
    ensures |r| == |s|
    ensures forall i :: 0 <= i < |s| ==> r[i] == (if s[i] == a then b else s[i])
  {
    seq(|s|, i requires 0 <= i < |s| => if s[i] == a then b else s[i])
  }

  /** `s.split(c)` for a one-character separator: always at least one part,
      and no part contains the separator. */
  function Split(s: string, c: char): (r: seq<string>)
    ensures |r| >= 1
    ensures forall i :: 0 <= i < |r| ==> c !in r[i]
  {
    if |s| == 0 then [""]
    else
      var rest := Split(s[1..], c);
      if s[0] == c then [""] + rest
      else [[s[0]] + rest[0]] + rest[1..]
  }

  /** A part without the separator splits to itself. */
  lemma {:induction false} SplitWord(w: string, c: char)
    requires c !in w
    ensures Split(w, c) == [w]
  {
    if |w| > 0 {
      SplitWord(w[1..], c);
      assert [w[0]] + w[1..] == w;
    }
  }

  /** Splitting peels off a leading part up to the first separator. */
  lemma {:induction false} SplitFirst(w: string, c: char, t: string)
    requires c !in w
    ensures Split(w + [c] + t, c) == [w] + Split(t, c)
  {
    if |w| == 0 {
      assert w + [c] + t == [c] + t;
      assert ([c] + t)[1..] == t;
    } else {
      SplitFirst(w[1..], c, t);
      assert (w + [c] + t)[1..] == w[1..] + [c] + t;
      assert [w[0]] + w[1..] == w;
    }
  }

  /** The part after the last separator is the last part. */
  lemma {:induction false} SplitLast(p: string, c: char, w: string)
    requires c !in w
    ensures |Split(p + [c] + w, c)| >= 2
    ensures Split(p + [c] + w, c)[|Split(p + [c] + w, c)| - 1] == w
  {
    if |p| == 0 {
      assert p + [c] + w == [c] + w;
      assert ([c] + w)[1..] == w;
      SplitWord(w, c);
    } else {
      SplitLast(p[1..], c, w);
      assert (p + [c] + w)[1..] == p[1..] + [c] + w;
    }
  }

  /** `parts.join(sep)`. */
  function Join(parts: seq<string>, sep: string): string
  {
    if |parts| == 0 then ""
    else if |parts| == 1 then parts[0]
    else parts[0] + sep + Join(parts[1..], sep)
  }

  /** Splitting and re-joining with the same separator gives the input back. */
  lemma {:induction false} JoinSplit(s: string, c: char)
    ensures Join(Split(s, c), [c]) == s
  {
    if |s| > 0 {
      JoinSplit(s[1..], c);
      var rest := Split(s[1..], c);
      if s[0] == c {
        assert Split(s, c) == [""] + rest;
        assert ([""] + rest)[1..] == rest;
      } else {
        var r := Split(s, c);
        assert r == [[s[0]] + rest[0]] + rest[1..];
        if |rest| == 1 {
          assert Join(rest, [c]) == rest[0];
        } else {
          assert r[1..] == rest[1..];
          assert Join(rest, [c]) == rest[0] + [c] + Join(rest[1..], [c]);
        }
        assert s == [s[0]] + s[1..];
      }
    }
  }

  /** `sub` occurs in `s` starting at position `i`. */
  predicate OccursAt(s: string, sub: string, i: nat)
  {
    i + |sub| <= |s| && s[i..i + |sub|] == sub
  }

  /** `s.includes(sub)`. */
  predicate Contains(s: string, sub: string)
    decreases |s|
  {
    (|sub| <= |s| && s[..|sub|] == sub) || (|s| > 0 && Contains(s[1..], sub))
  }

  lemma {:induction false} ContainsAt(s: string, sub: string, i: nat)
    requires i + |sub| <= |s| && s[i..i + |sub|] == sub
    ensures Contains(s, sub)
    decreases i
  {
    if i > 0 {
      assert s[1..][i - 1..i - 1 + |sub|] == s[i..i + |sub|];
      ContainsAt(s[1..], sub, i - 1);
    }
  }

  lemma {:induction false} ContainsWitness(s: string, sub: string)
    requires Contains(s, sub)
    ensures exists i: nat :: OccursAt(s, sub, i)
    decreases |s|
  {
    if |sub| <= |s| && s[..|sub|] == sub {
      assert OccursAt(s, sub, 0);
    } else {
      ContainsWitness(s[1..], sub);
      var i: nat :| OccursAt(s[1..], sub, i);
      assert s[1..][i..i + |sub|] == s[i + 1..i + 1 + |sub|];
      assert OccursAt(s, sub, i + 1);
    }
  }

  /** `includes` holds exactly when `sub` occurs at some position of `s`. */
  lemma ContainsIff(s: string, sub: string)
    ensures Contains(s, sub) <==> exists i: nat :: OccursAt(s, sub, i)
  {
    if Contains(s, sub) {
      ContainsWitness(s, sub);
    }
    if exists i: nat :: OccursAt(s, sub, i) {
      var i: nat :| OccursAt(s, sub, i);
      ContainsAt(s, sub, i);
    }
  }

  /** Length of the longest prefix made of `\s` characters. */
  function LeadingSpaces(s: string): (n: nat)
    ensures n <= |s|
    ensures forall i :: 0 <= i < n ==> IsSpace(s[i])
    ensures n < |s| ==> !IsSpace(s[n])
  {
    if |s| == 0 || !IsSpace(s[0]) then 0 else 1 + LeadingSpaces(s[1..])
  }

  /** Length of the longest suffix made of `\s` characters. */
  function TrailingSpaces(s: string): (n: nat)
    ensures n <= |s|
    ensures forall i :: |s| - n <= i < |s| ==> IsSpace(s[i])
    ensures n < |s| ==> !IsSpace(s[|s| - n - 1])
  {
    if |s| == 0 || !IsSpace(s[|s| - 1]) then 0 else 1 + TrailingSpaces(s[..|s| - 1])
  }

  /** `trim`: the slice of `s` left after removing leading and trailing
      whitespace; it neither starts nor ends with whitespace. */
  function Trim(s: string): (r: string)
    ensures |r| <= |s|
    ensures exists i: nat :: OccursAt(s, r, i)
    ensures |r| > 0 ==> !IsSpace(r[0]) && !IsSpace(r[|r| - 1])
    ensures |r| == 0 <==> forall i :: 0 <= i < |s| ==> IsSpace(s[i])
    ensures (|s| == 0 || (!IsSpace(s[0]) && !IsSpace(s[|s| - 1]))) ==> r == s
  {
    var a := LeadingSpaces(s);
    var t := s[a..];
    var b := TrailingSpaces(t);
    var r := t[..|t| - b];
    assert r == s[a..a + |r|];
    assert OccursAt(s, r, a);
    r
  }

  function DigitChar(d: nat): (c: char)
    requires d < 10
    ensures IsDigit(c)
  {
    ('0' as int + d) as char
  }

  /** `String(n)` for a natural number: its decimal digits. */
  function NatToString(n: nat): (r: string)
    ensures |r| >= 1
    ensures forall i :: 0 <= i < |r| ==> IsDigit(r[i])
  {
    if n < 10 then [DigitChar(n)] else NatToString(n / 10) + [DigitChar(n % 10)]
  }

  /** `String(n)` for an integer. */
  function IntToString(n: int): (r: string)
    ensures |r| >= 1
  {
    if n < 0 then "-" + NatToString(-n) else NatToString(n)
  }
}

=== FILE: theme_config.dfy ===
/** `defineThemeConfig`: the user's theme configuration is handed back as it
    is, together with the layout configuration derived from it, whose tab
    bar options are filled in with defaults.  Values the model never looks
    into (components, icons, enum members) are opaque tokens. */
module ThemeConfig {
  import opened Common

  /** An opaque configuration value, compared only for equality. */
  type Token = string

  // ------------------------------------------------------------ input

  /** The optional `tabBar` section; every option may be missing (or
      `null`, which `??` treats the same way). */
  datatype TabBarOptions = TabBarOptions(
    enable: Option<bool>,
    maxTabs: Option<int>,
    keepAliveEnabled: Option<bool>,
    closeLeftTabs: Option<bool>,
    closeRightTabs: Option<bool>,
    closeOtherTabs: Option<bool>)

  datatype UserI18n = UserI18n(enable: bool, defaultLocale: string, langConfig: seq<Token>)

  datatype UserApp = UserApp(
    title: string,
    logo: Token,
    contentWidth: Token,
    contentLayoutNav: Token,
    overlayNavFromBreakpoint: int,
    i18n: UserI18n,
    iconRenderer: Token,
    theme: string,
    skin: Token)

  datatype Navbar = Navbar(kind: Token, navbarBlur: bool)

  datatype Footer = Footer(kind: Token)

  datatype UserVerticalNav = UserVerticalNav(
    isVerticalNavCollapsed: bool,
    defaultNavItemIconProps: Token,
    isVerticalNavSemiDark: bool)

  datatype HorizontalNav = HorizontalNav(kind: Token, transition: Token, popoverOffset: Option<Token>)

  datatype Icons = Icons(
    chevronDown: Token,
    chevronRight: Token,
    close: Token,
    verticalNavPinned: Token,
    verticalNavUnPinned: Token,
    sectionTitlePlaceholder: Token)

  /** `UserThemeConfig`: the layout configuration plus the theme-only
      options (locales, theme, skin, semi-dark navigation). */
  datatype UserThemeConfig = UserThemeConfig(
    tabBar: Option<TabBarOptions>,
    app: UserApp,
    navbar: Navbar,
    footer: Footer,
    verticalNav: UserVerticalNav,
    horizontalNav: HorizontalNav,
    icons: Icons)

  // ------------------------------------------------------------ output

  /** The tab bar options with every default filled in. */
  datatype TabBar = TabBar(
    enable: bool,
    maxTabs: int,
    keepAliveEnabled: bool,
    closeLeftTabs: bool,
    closeRightTabs: bool,
    closeOtherTabs: bool)

  datatype I18n = I18n(enable: bool)

  datatype App = App(
    title: string,
    logo: Token,
    contentWidth: Token,
    contentLayoutNav: Token,
    overlayNavFromBreakpoint: int,
    i18n: I18n,
    iconRenderer: Token)

  datatype VerticalNav = VerticalNav(isVerticalNavCollapsed: bool, defaultNavItemIconProps: Token)

  datatype LayoutConfig = LayoutConfig(
    tabBar: TabBar,
    app: App,
    navbar: Navbar,
    footer: Footer,
    verticalNav: VerticalNav,
    horizontalNav: HorizontalNav,
    icons: Icons)

  datatype Defined = Defined(themeConfig: UserThemeConfig, layoutConfig: LayoutConfig)

  // ------------------------------------------------------------ defaults

  const DefaultMaxTabs := 15

  /** `tabBar?.option ?? default` for one boolean option. */
  function OrDefault(v: Option<bool>, default: bool): (r: bool)
    ensures v.Some? ==> r == v.value
    ensures v.None? ==> r == default
  {
    v.GetOr(default)
  }

  /** The tab bar section of the layout: each supplied option is kept,
      each missing one (or a missing section) takes its default: enabled,
      at most 15 tabs, keep-alive on, and no close-left/right/other
      actions. */
  function ResolveTabBar(t: Option<TabBarOptions>): (r: TabBar)
    ensures t.None? ==> r == TabBar(true, DefaultMaxTabs, true, false, false, false)
    ensures t.Some? ==> r.enable == OrDefault(t.value.enable, true)
    ensures t.Some? ==> r.maxTabs == t.value.maxTabs.GetOr(DefaultMaxTabs)
    ensures t.Some? ==> r.keepAliveEnabled == OrDefault(t.value.keepAliveEnabled, true)
    ensures t.Some? ==> r.closeLeftTabs == OrDefault(t.value.closeLeftTabs, false)
    ensures t.Some? ==> r.closeRightTabs == OrDefault(t.value.closeRightTabs, false)
    ensures t.Some? ==> r.closeOtherTabs == OrDefault(t.value.closeOtherTabs, false)
  {
    match t
    case None => TabBar(true, DefaultMaxTabs, true, false, false, false)
    case Some(o) =>
      TabBar(
        OrDefault(o.enable, true),
        o.maxTabs.GetOr(DefaultMaxTabs),
        OrDefault(o.keepAliveEnabled, true),
        OrDefault(o.closeLeftTabs, false),
        OrDefault(o.closeRightTabs, false),
        OrDefault(o.closeOtherTabs, false))
  }

  /** The layout's `app` section: the user's, without the theme-only
      options and with only `enable` kept of `i18n`. */
  function LayoutApp(a: UserApp): (r: App)
    ensures r.title == a.title && r.logo == a.logo
    ensures r.contentWidth == a.contentWidth && r.contentLayoutNav == a.contentLayoutNav
    ensures r.overlayNavFromBreakpoint == a.overlayNavFromBreakpoint
    ensures r.i18n.enable == a.i18n.enable && r.iconRenderer == a.iconRenderer
  {
    App(a.title, a.logo, a.contentWidth, a.contentLayoutNav, a.overlayNavFromBreakpoint,
        I18n(a.i18n.enable), a.iconRenderer)
  }

  /** `defineThemeConfig(userConfig)`. */
  function DefineThemeConfig(u: UserThemeConfig): (r: Defined)
    ensures r.themeConfig == u
    ensures r.layoutConfig.tabBar == ResolveTabBar(u.tabBar)
    ensures r.layoutConfig.navbar == u.navbar && r.layoutConfig.footer == u.footer
    ensures r.layoutConfig.horizontalNav == u.horizontalNav && r.layoutConfig.icons == u.icons
    ensures r.layoutConfig.app.title == u.app.title && r.layoutConfig.app.logo == u.app.logo
    ensures r.layoutConfig.app.contentWidth == u.app.contentWidth
    ensures r.layoutConfig.app.contentLayoutNav == u.app.contentLayoutNav
    ensures r.layoutConfig.app.overlayNavFromBreakpoint == u.app.overlayNavFromBreakpoint
    ensures r.layoutConfig.app.i18n.enable == u.app.i18n.enable
    ensures r.layoutConfig.app.iconRenderer == u.app.iconRenderer
    ensures r.layoutConfig.verticalNav.isVerticalNavCollapsed == u.verticalNav.isVerticalNavCollapsed
    ensures r.layoutConfig.verticalNav.defaultNavItemIconProps == u.verticalNav.defaultNavItemIconProps
  {
    Defined(
      u,
      LayoutConfig(
        ResolveTabBar(u.tabBar),
        LayoutApp(u.app),
        u.navbar,
        u.footer,
        VerticalNav(u.verticalNav.isVerticalNavCollapsed, u.verticalNav.defaultNavItemIconProps),
        u.horizontalNav,
        u.icons))
  }

  // ------------------------------------------------------------ partners

  /** A resolved tab bar written back as fully supplied options. */
  function Supply(t: TabBar): (r: TabBarOptions)
    ensures r.enable.Some? && r.maxTabs.Some? && r.keepAliveEnabled.Some?
    ensures r.closeLeftTabs.Some? && r.closeRightTabs.Some? && r.closeOtherTabs.Some?
  {
    TabBarOptions(Some(t.enable), Some(t.maxTabs), Some(t.keepAliveEnabled),
                  Some(t.closeLeftTabs), Some(t.closeRightTabs), Some(t.closeOtherTabs))
  }

  /** Fully supplied options pass through unchanged. */
  lemma ResolveSupplied(t: TabBar)
    ensures ResolveTabBar(Some(Supply(t))) == t
  {
  }

  /** Supplying exactly the options a layout already resolved to changes
      nothing: the derived layout is a fixed point. */
  lemma DefineThemeConfigFixedPoint(u: UserThemeConfig)
    ensures DefineThemeConfig(u.(tabBar := Some(Supply(DefineThemeConfig(u).layoutConfig.tabBar)))).layoutConfig
         == DefineThemeConfig(u).layoutConfig
  {
    ResolveSupplied(DefineThemeConfig(u).layoutConfig.tabBar);
  }

  /** A missing section and a section with every option missing resolve
      alike. */
  lemma EmptySectionIsMissing()
    ensures ResolveTabBar(Some(TabBarOptions(None, None, None, None, None, None))) == ResolveTabBar(None)
  {
  }

  /** The theme-only options have no effect on the layout. */
  lemma ThemeOnlyOptionsIgnored(u: UserThemeConfig, locale: string, langs: seq<Token>, theme: string, skin: Token, semiDark: bool)
    ensures DefineThemeConfig(u.(
              app := u.app.(i18n := u.app.i18n.(defaultLocale := locale, langConfig := langs), theme := theme, skin := skin),
              verticalNav := u.verticalNav.(isVerticalNavSemiDark := semiDark))).layoutConfig
         == DefineThemeConfig(u).layoutConfig
  {
  }

  /** Whatever is supplied, the layout's tab bar agrees with each supplied
      option and has a default for each missing one. */
  lemma TabBarOptionWins(u: UserThemeConfig, o: TabBarOptions)
    requires u.tabBar == Some(o)
    ensures o.maxTabs.Some? ==> DefineThemeConfig(u).layoutConfig.tabBar.maxTabs == o.maxTabs.value
    ensures o.maxTabs.None? ==> DefineThemeConfig(u).layoutConfig.tabBar.maxTabs == 15
    ensures o.enable.None? ==> DefineThemeConfig(u).layoutConfig.tabBar.enable
    ensures o.keepAliveEnabled.None? ==> DefineThemeConfig(u).layoutConfig.tabBar.keepAliveEnabled
  {
  }
}
